=== FILE: README.md ===
# portal-backend, modelled in Dafny

A recruiting marketplace backend (Express + MongoDB): players build profiles
and go through a verification workflow, coaches (NCAA recruiters and JUCO
coaches) browse, favorite and annotate players, and admins review
verifications, manage users, invites and announcements, and read finance
figures from Stripe.

The model is written in a functional style:

- Every MongoDB collection is a `seq` of documents in insertion order.
  `findById`/`findOne` is the first match (`Collection.FindFirst`).
- Every route handler is a pure function from `(state, input, now)` to a
  `Result`. The `Result` carries either the new state plus the deliveries
  attempted after the save (`Effects.Effect`), or the HTTP error
  (`Http.Failure`) with the status and message the handler sends.
- Time is integer milliseconds, with one `now` per request.
- Anything the handlers get from outside is a parameter:
  - randomness, `bcrypt`, `jwt.verify`;
  - the Twilio and Stripe answers;
  - `new Date(s)` parsing, `parseFloat`, the environment.

The verification workflow is the centre of the model:

- `Profiles` holds the record and its seven-state status.
- `Codes` and `Cooldown` hold the one-time codes and the resend window.
- `PlayerVerification` holds the five player steps.
- `AdminVerifications` holds approve, reject and the review queue.
- `Migration` and `Reminders` hold the two scripts.

Around it sit:

- `Normalize` and `Text`: the institution-name key.
- `Players` and `Coaches`: profile upserts and JUCO linking.
- `Auth`, `Users` and `Gates`: accounts, sessions and the coach gates.
- `Favorites`, `Announcements`, `AdminAnnouncements`, `Invites` and
  `AdminUsers`: the keyed stores.
- `Paging`, `Search` and `JsNumber`: list arithmetic, regex escaping and
  `parseInt`.
- `Finance` and `Payments`: integer-cent aggregations and the Stripe webhook.

## Model

| member | source | states |
|---|---|---|
| Codes.GenerateNumericCode | src/utils/verification.js:6-14 | the code has exactly the requested length and its i-th character is the decimal digit of the i-th random draw |
| Codes.GenerateCode | src/utils/verification.js:3-6 | the code the routes send is six characters, all decimal digits |
| Codes.EveryDigitStringIsGenerated | src/utils/verification.js:9-12 | every digit string is produced by some sequence of draws, so no code is excluded |
| Codes.BuildCodeRecord | src/utils/verification.js:20-26 | the record stores the hash of the code, expires 600000 ms after `now`, and was last sent at `now` |
| Codes.IsCodeValid | src/utils/verification.js:28-32 | false without a hash or an expiry; false once `now` is past the expiry; otherwise true exactly when the hash of the presented code equals the stored hash |
| Codes.CodeAcceptedUntilExpiry | src/utils/verification.js:20-31 | a record built at t accepts its own code at every instant from t to t + 600000 inclusive |
| Codes.CodeRefusedAfterExpiry | src/utils/verification.js:30 | the same record refuses its own code at any instant after t + 600000 |
| Codes.OtherCodeRefused | src/utils/verification.js:16-31 | any different code is refused at every instant, the hash being injective |
| Cooldown.Check | src/routes/verification.js:32-35 | a send is allowed exactly when there is no last send or the window has elapsed; otherwise the retry hint is the ceiling, in seconds, of the time left |
| Cooldown.RetryAfterWithinMinute | src/routes/verification.js:12-13 | with the 60 s window and a last send in the past, a refused send's hint lies in 1..60 |
| Cooldown.RetryAfterIsTight | src/routes/verification.js:33 | waiting `retryAfter` seconds is enough to be allowed, and one second less is not |
| Profiles.StatusFromName | src/models/PlayerProfile.js:70-74 | a stored name is read back only when it is one of the seven enumerated values, and the value read has that name |
| Profiles.StatusNameRoundTrip | src/models/PlayerProfile.js:72 | the seven names are distinct: each status reads back from its own name |
| Profiles.NewProfile | src/models/PlayerProfile.js:66-106 | a new profile has status `none`, an empty history, `attested` false, no files, legacy status `none`, an empty division, and meets the schema's numeric bounds and the record invariant |
| PlayerVerification.StartEmail | src/routes/verification.js:23-51 | 404 without a profile or a user; 429 exactly while the email cooldown runs, with a hint in 1..60; otherwise `email_pending` from any status, a fresh hash, expiry and send time, `verifiedAt` kept, phone, stats and history untouched, and one code email to the user's address |
| PlayerVerification.ConfirmEmail | src/routes/verification.js:63-87 | 400 without a code; 404 without a profile; succeeds exactly when the stored record accepts the code, otherwise 400 "Invalid or expired code"; on success saves `EmailConfirmed` and sends the "Email verified" notice |
| PlayerVerification.EmailConfirmed | src/routes/verification.js:75-82 | only the verification record changes: hash and expiry cleared, `verifiedAt` set, status `phone_pending`, other channels and history kept, invariant preserved |
| PlayerVerification.SendPhone | src/routes/verification.js:99-133 | 400 without a number; 404 without a profile; 429 exactly while the phone cooldown runs; a provider failure saves nothing; a number the schema's `String` cast refuses (an array, or an object without a string `_id`) fails the save with 500 "Failed to send SMS verification code"; success exactly otherwise, the whole phone record replaced by the trimmed cast number and the send time (any earlier `verifiedAt` dropped) and the status becoming `phone_pending` |
| PlayerVerification.UncastablePhoneFailsTheSave | src/routes/verification.js:113-133 | with the provider answering, a number sent as an array answers 500, while the JSON number 555 is stored as `"555"` |
| PlayerVerification.ConfirmPhone | src/routes/verification.js:137-143 | 400 without a code, 404 without a profile, otherwise the outcome of `PhoneDecision` on the caller's profile |
| PlayerVerification.PhoneDecision | src/routes/verification.js:144-164 | 400 "Phone verification not started" without a stored number; succeeds exactly when a number is stored and the provider approves; on success saves `PhoneConfirmed` and sends the "Phone verified" notice |
| PlayerVerification.PhoneConfirmed | src/routes/verification.js:154-160 | only the verification record changes: phone `verifiedAt` set, status `stats_pending`, email, stats and history kept, invariant preserved |
| PlayerVerification.FirstFiles | src/routes/verification.js:197 | an array keeps its first min(n, 5) items in order; anything else gives no files |
| PlayerVerification.CastFiles | src/models/PlayerProfile.js:91 | the `[String]` path accepts the items exactly when none is an array or a plain object without a non-empty string `_id`; strings are kept, numbers and booleans stored as their string form, an object with such an `_id` stored as that id, `null` as a null entry, the count unchanged |
| PlayerVerification.SubmitStats | src/routes/verification.js:176-213 | the snapshot and attestation checks come first (400), then 404, then the stage guard: success exactly from `stats_pending` or `needs_updates` with files the schema can cast, giving `in_review`, `attested` true, the cast of at most five files, reviewer fields cleared, other channels and history kept; an array or object among the files fails the save with 500 "Failed to submit stats for review" |
| PlayerVerification.ObjectFileFailsTheSave | src/routes/verification.js:197-213 | in an open stage, a file given as an empty object answers 500 and saves nothing, while a file given as the number 7 is stored as `"7"` and one given as `{"_id": "f1"}` as `"f1"` |
| PlayerVerification.GetMyStatus | src/routes/verification.js:220-228 | 404 exactly without a profile; otherwise the record and the legacy status and note as stored |
| PlayerVerification.StartThenConfirmEmail | src/routes/verification.js:37-82 | the code emailed by a successful start is accepted for the next ten minutes and moves the profile to `phone_pending` |
| PlayerVerification.ConfirmedCodeCannotBeReplayed | src/routes/verification.js:75-80 | once a code is confirmed, every later confirm is refused until a new code is issued |
| PlayerVerification.CooldownsAreIndependent | src/routes/verification.js:108-121 | an SMS send leaves the email channel's last-send time alone, and an email start leaves the phone channel's |
| PlayerVerification.StatsStageGuard | src/routes/verification.js:188-190 | with a valid body, submission succeeds exactly from `stats_pending` and `needs_updates` and is refused with 400 from the other five statuses |
| AdminVerifications.Get | src/routes/adminVerifications.js:54-58 | 404 exactly when no record has the id; otherwise a stored record with that id |
| AdminVerifications.DecideRecord | src/routes/adminVerifications.js:70-84 | the decided record: status `verified` or `needs_updates`, reviewer and trimmed note set, `stats.verifiedAt` set only by approval, exactly one history entry appended, nothing outside the record changed; a note that cannot be cast or exceeds 2000 characters fails the save with 500 |
| AdminVerifications.Decide | src/routes/adminVerifications.js:103-124 | reject without a note is 400 before any lookup; an unknown id is 404; otherwise the decision on the found record, and only that record of the collection changes |
| AdminVerifications.DecideAt | src/routes/adminVerifications.js:84-94 | a committed decision replaces the record at its position and emits one audit event for that profile id, whose details hold the raw note under `reviewerNote` (approve) or `note` (reject), followed by the user notification |
| AdminVerifications.ApproveVerification | src/routes/adminVerifications.js:65-96 | 404 exactly for an unknown id; on success the record is `verified` |
| AdminVerifications.RejectVerification | src/routes/adminVerifications.js:103-136 | 400 without a note; with one, 404 exactly for an unknown id; on success the record is `needs_updates` |
| AdminVerifications.DecisionKeepsInvariant | src/models/PlayerProfile.js:94-104 | a decision at or after the last history entry keeps the history in time order and the reviewer note within its bound |
| AdminVerifications.DecisionsIgnoreStatus | src/routes/adminVerifications.js:67-71 | with a valid note, both decisions succeed whatever the record's current status |
| AdminVerifications.RepeatedApprovalAppendsTwice | src/routes/adminVerifications.js:77-83 | approving twice appends two history entries; nothing prevents the repeat |
| AdminVerifications.BuildFilter | src/routes/adminVerifications.js:13-28 | the status defaults to `in_review` and an empty status drops the condition; an unparsable date bound fails the query with 500 |
| AdminVerifications.Matching | src/routes/adminVerifications.js:31-36 | the selected records are exactly the stored records that meet every condition of the filter |
| AdminVerifications.Queue | src/routes/adminVerifications.js:30-33 | the matching records, most recently updated first: exactly the stored records that match, as many as there are matches |
| AdminVerifications.List | src/routes/adminVerifications.js:11-47 | a bad date filter is the only error; limit in [1,100] defaulting to 20, page at least 1; the rows are exactly the page's window of the ordered matches, so at most `limit` of them, all matching and most recently updated first; total equal to the number of matches, totalPages = ceil(total/limit) or 1 |
| AdminVerifications.EveryMatchIsListed | src/routes/adminVerifications.js:30-35 | every matching record sits at some position of the ordered matches whose page is within `totalPages` and whose window lists it |
| AdminVerifications.DefaultQueueIsInReview | src/routes/adminVerifications.js:13-19 | with no query parameters every listed record is `in_review` |
| Migration.CountStatus | scripts/migratePhonePending.js:23 | the count is zero exactly when no profile has the status |
| Migration.Migrate | scripts/migratePhonePending.js:18-21 | every `phone_pending` profile becomes `stats_pending` with the shared run timestamp; every other profile is unchanged |
| Migration.RunMigration | scripts/migratePhonePending.js:17-24 | the run computes the migrated collection, reports the number of profiles that were `phone_pending`, and leaves none in that status |
| Migration.MigrationIdempotent | scripts/migratePhonePending.js:19-20 | a second run reports zero and changes nothing |
| Migration.MigrationKeepsHistory | scripts/migratePhonePending.js:20 | the run touches neither the history, the stats nor the owner of any profile |
| Reminders.ReminderAge | scripts/verificationReminder.js:7 | the environment value when it parses to a non-zero integer, otherwise three days; never zero |
| Reminders.Selected | scripts/verificationReminder.js:18-22 | exactly the profiles in one of the three player steps whose record was last updated at or before the cutoff |
| Reminders.SelectedGetSpecificMessage | scripts/verificationReminder.js:27-30 | no selected profile gets the generic fallback message |
| Reminders.RunReminders | scripts/verificationReminder.js:26-41 | one reminder per selected profile, in order, then a summary reporting the number selected exactly when an alert address is set |
| Reminders.DefaultAgeBoundary | scripts/verificationReminder.js:18-21 | with the default age, a player step is reminded exactly when it has been idle for three days or more |
| Reminders.DecidedNeverReminded | scripts/verificationReminder.js:20 | records that are `none`, under review or decided are never selected |
| Normalize.NormalizeInstitutionName | src/utils/normalize.js:1-4 | a missing, empty or non-string value gives `''`; the key has no white space at either end, no upper-case letter, no two adjacent white-space characters, and, with the one-character lower-casing modelled, is no longer than the input |
| Normalize.NormalizedIsFixed | src/utils/normalize.js:3 | a key already in canonical form is its own normalization |
| Normalize.NormalizeIdempotent | src/utils/normalize.js:2-3 | normalizing a key again gives the same key |
| Normalize.CollapseNotLonger | src/utils/normalize.js:3 | replacing each white-space run by one space never lengthens a string |
| Normalize.NormalizedShape | src/utils/normalize.js:3 | lower-casing and collapsing a trimmed string yields the canonical shape |
| Text.LowerChar | src/utils/normalize.js:3 | a covered capital (ASCII, Latin-1, Latin Extended-A, basic Cyrillic) becomes a character that is not one; every other character, white space included, is kept |
| Text.Trim | src/utils/normalize.js:3 | the result has no white space at either end and is no longer than the input |
| Text.CollapseIsCollapsed | src/utils/normalize.js:3 | after collapsing, no two adjacent characters are both white space |
| Text.CollapseOfCollapsed | src/utils/normalize.js:3 | collapsing a string with no two adjacent white-space characters changes nothing |
| Text.WordsOfJoin | src/routes/players.js:167-172 | splitting the words joined by single spaces gives back the same words |
| Players.SanitizePlayerForRole | src/routes/players.js:11-19 | null stays null; a player's view drops exactly the JUCO note and its timestamp; every other role sees the document unchanged |
| Players.HighlightWrite | src/routes/players.js:66-75 | an explicit `highlightUrls` wins; otherwise the legacy pair is written only when one of its fields is present; the written list holds only truthy entries |
| Players.GpaNumericWrite | src/routes/players.js:77-85 | the parsed number when `parseFloat` gives a finite one, `null` otherwise |
| Players.DerivedWrites | src/routes/players.js:55-85 | `positions`, `schoolNormalized`, `highlightUrls`, `gpa` and `gpaNumeric` are written exactly when the body field they come from is present, with truthy-only lists and an empty key written as `undefined` |
| Players.TopLevelWrites | src/routes/players.js:28-101 | each whitelisted and legacy field is written exactly when present and as given; no other top-level path, and neither `verification` nor `user`, is written |
| Players.BuildPlayerUpdate | src/routes/players.js:28-101 | the upsert's `$set`: the top-level writes plus `stats.<f>` exactly for the statistics present; no path reaches into `verification` |
| Players.PathSetsAreDisjoint | src/routes/players.js:28-43 | the copied and derived path sets are disjoint and include neither `verification` nor `user` |
| Players.SchoolKey | src/routes/players.js:370-373 | the stored key when it is set, otherwise the normalized school |
| Players.ProgramCoach | src/routes/players.js:394-397 | the first JUCO coach whose program key is the school key, or none when there is no such coach |
| Players.LinkJucoCoachForPlayer | src/routes/players.js:368-422 | a blank stored key is filled from the school; without a key or a matching coach an existing link is cleared with its note and note time; with a matching coach only the coach is set and the note is kept |
| Players.LinkPlayerIdempotent | src/routes/players.js:368-422 | linking a player twice gives the same profile as linking once |
| Players.PlayerLinkAgreesWithCoachSweep | src/routes/players.js:394-416 | when a coach is the first JUCO coach of its program, a player the coach's sweep linked is left unchanged by the player's own link, so the two agree |
| Players.NoteWords | src/routes/players.js:167 | the note's words: non-empty and free of white space |
| Players.NoteGuard | src/routes/players.js:143-170 | the refusals in the handler's order: no JUCO profile 403, no program 400, no school 400, school not the program 403, another coach 403, more than 200 words 400 |
| Players.WriteNote | src/routes/players.js:172-189 | the caller becomes the coach; no words clears note and time; otherwise the words joined by single spaces are stored with `now`, the note as long as that join |
| Players.DecideNote | src/routes/players.js:143-193 | the guards' refusal leaves the linked player as it is; a joined note over the schema's 2000 characters (PlayerProfile.js line 20) answers 500 "Failed to update JUCO note" and leaves it as it is too; otherwise the written note, so an accepted note is never over 2000 characters |
| Players.UpdateJucoNote | src/routes/players.js:132-194 | 400 without an id, 404 for an unknown player; otherwise the link is saved first and the note decision applies to the linked player, only that record changing; a stored accepted note is at most 2000 characters |
| Players.LongNoteFailsTheSave | src/routes/players.js:172-193 | a single word longer than 2000 characters passes the 200-word guard but fails the save: 500, with the player's refreshed link still saved |
| Players.StoredNoteIsStable | src/routes/players.js:167-179 | sending back the stored note stores the same words |
| Players.PlayerListLimit | src/routes/players.js:310 | the list's page size lies in [1,50] and defaults to 20 |
| Players.RosterLimit | src/routes/players.js:199-200 | the roster's page size lies in [1,100] and a missing limit is 50 |
| Players.RosterLimitOfNumber | src/routes/players.js:199-200 | a written number is used as itself, clamped to [1,100], except that `0` gives 20, not the default 50 |
| Players.RosterOf | src/routes/players.js:205-209 | the caller's players, latest first: exactly the stored profiles whose JUCO coach is the caller, each at most as often as stored |
| Players.Roster | src/routes/players.js:197-223 | the clamped limit and page; the rows are the page's window of the caller's ordered players; total is their number and totalPages = ceil(total/limit) or 1 |
| Players.RosterListsOnlyTheCallersPlayers | src/routes/players.js:205-211 | a roster page holds at most `limit` rows, latest first, each a stored profile linked to the caller |
| Players.EveryLinkedPlayerIsOnAPage | src/routes/players.js:205-221 | every player linked to the caller appears on some page within `totalPages` |
| Players.PlayerListLimitOfNumber | src/routes/players.js:310 | a written number is used as itself, clamped to [1,50], except that `0` gives 20 |
| Coaches.NormalizedWrite | src/routes/coaches.js:62-65 | the normalized program name, or `undefined` exactly when that name is empty |
| Coaches.BuildCoachUpdate | src/routes/coaches.js:16-65 | each whitelisted field is written exactly when present and as given; `priorityPositions` keeps truthy entries, a non-array becoming []; `programNameNormalized` is written exactly when `programName` is present; nothing else, `user` included |
| Coaches.ProgramKey | src/routes/coaches.js:96-104 | the stored key when it is set, otherwise the normalized program name |
| Coaches.LinkPlayersToJucoCoach | src/routes/coaches.js:93-136 | nothing for a non-JUCO coach or an empty key; otherwise players at the program get this coach with their notes kept, and this coach's players elsewhere lose coach, note and note time |
| Coaches.LinkedPlayersAreTheProgram | src/routes/coaches.js:111-132 | after a link, a player has this coach exactly when the player is at the program |
| Coaches.LinkIdempotent | src/routes/coaches.js:93-136 | linking twice gives the same players as linking once |
| Auth.Issue | src/routes/auth.js:17 | the token names the user's id and stored role, is issued in the current second and lasts 24 hours |
| Auth.BearerToken | src/middleware/auth.js:5-6 | the token is what follows the 7-character `Bearer ` prefix; a missing header or another scheme gives no token |
| Auth.Authenticate | src/middleware/auth.js:4-24 | every refusal is 401; success exactly when the token verifies, names an existing user, and the password was not changed after `iat`·1000; the request runs as the stored id and role |
| Auth.IssuedTokenAuthenticates | src/middleware/auth.js:9-20 | a token the application issued authenticates its user while the password is unchanged |
| Auth.RoleComesFromStore | src/middleware/auth.js:19 | two tokens for the same subject give the same request identity, whatever roles they claim |
| Auth.Register | src/routes/auth.js:9-23 | 400 when email, password or role is missing; 409 for an address already stored once trimmed and lower-cased, as the schema's setters treat the lookup too; 500 when the schema refuses the account (an address that trims to nothing, or a role outside the list); otherwise one new account with the trimmed lower-cased address and the hashed password, and a token for it |
| Auth.AnyListedRoleRegisters | src/routes/auth.js:11-16 | every role the schema lists, `admin` included, can be registered |
| Auth.RegisterKeepsEmailsUnique | src/routes/auth.js:13-16 | registration keeps stored addresses unique |
| Auth.Login | src/routes/auth.js:26-39 | success exactly when the address is stored and the password matches; every refusal is either 401 "Invalid credentials" or 500 "Login failed" |
| Auth.LoginDoesNotRevealAccounts | src/routes/auth.js:29-32 | an unknown address and a wrong password give identical answers |
| Auth.SeedAdmin | src/utils/seedAdmin.js:4-24 | nothing when either variable is unset or the address is stored; otherwise exactly one admin account with the lower-cased address is added |
| Auth.SeedAdminIdempotent | src/utils/seedAdmin.js:10-18 | a second seeding changes nothing |
| Gates.Check | src/middleware/requireRecruiter.js:3-30 | 401 without a user; an admin passes without a lookup; other non-coach roles 403; a store error 500; a coach without a profile 403; a coach passes exactly with the gate's coach type, which is handed on |
| Gates.RequireRecruiter | src/middleware/requireRecruiter.js:20-25 | passes exactly an admin or a coach whose profile is NCAA; another coach type is 403 |
| Gates.RequireJucoCoach | src/middleware/requireJucoCoach.js:20-25 | passes exactly an admin or a coach whose profile is JUCO; another coach type is 403 |
| Gates.NoCoachPassesBoth | src/middleware/requireJucoCoach.js:20 | only an admin passes both gates |
| Gates.AdminNeedsNoLookup | src/middleware/requireRecruiter.js:7-9 | an admin's outcome does not depend on the coach store, even an unreachable one |
| Users.EmailKey | src/models/User.js:5 | a stored address is trimmed, has none of the covered capitals and, with the one-character lower-casing modelled, is no longer than the input |
| Favorites.BuildChanges | src/routes/favorites.js:39-41 | `note` is set exactly when supplied (`null` clearing it); `tags` is replaced exactly when an array is given, keeping truthy entries |
| Favorites.Add | src/routes/favorites.js:31-61 | 400 without a player id; 404 for an unknown player; otherwise an upsert on (caller, player): the existing favorite is updated, or one is added |
| Favorites.AddKeepsPairsUnique | src/routes/favorites.js:43-46 | adding keeps one favorite per (coach, player) pair, and the caller then has one for the player |
| Favorites.RepeatedAddDoesNotDuplicate | src/routes/favorites.js:43-46 | a second add for the same pair adds no favorite |
| Favorites.Patch | src/routes/favorites.js:64-93 | only the caller's favorite with that id changes; otherwise 404; other coaches' favorites are untouched |
| Favorites.PatchKeepsPairsUnique | src/routes/favorites.js:73-77 | patching changes no pair, so pairs stay unique |
| Favorites.Delete | src/routes/favorites.js:96-106 | succeeds exactly when the caller has a favorite for the player, 404 otherwise; on success exactly one favorite is removed and every other one is kept |
| Favorites.DeleteRemovesThePair | src/routes/favorites.js:99-100 | with unique pairs, the caller has no favorite for the player afterwards |
| Favorites.OwnNewestFirst | src/routes/favorites.js:12-13 | the caller's favorites newest first: a permutation of exactly those favorites, sorted by `createdAt` descending |
| Favorites.List | src/routes/favorites.js:10-23 | the caller's favorites, newest first, shown with a missing note as `''` |
| Favorites.ListIsTheCallersFavorites | src/routes/favorites.js:12-23 | the list shows every favorite of the caller and only those |
| Announcements.Feed | src/routes/announcements.js:22-38 | an unreadable source gives []; otherwise the items with no expiry or an expiry at or after `now` (all items with `includeExpired`), newest first; each kept item appears as many times as in the file and each dropped one not at all |
| Announcements.ExpiryBoundaryIsKept | src/routes/announcements.js:30 | an item expiring at `now` is shown and one expiring a millisecond earlier is not |
| Announcements.OnlyExactTrueIncludesExpired | src/routes/announcements.js:23 | an expired item is shown exactly when the parameter is the string `true` |
| Announcements.IncludeExpiredKeepsAll | src/routes/announcements.js:27-31 | with `includeExpired=true` the feed is the whole file, reordered |
| AdminAnnouncements.Create | src/routes/adminAnnouncements.js:27-43 | 400 without a title or summary; with both present it saves exactly when the schema accepts every path, 500 otherwise; `publishedAt` is the given date or `now`; `expiresAt` only when given; a failing cast is 500; on success the collection gains exactly the new document |
| AdminAnnouncements.NewAnnouncement | src/models/Announcement.js:5-12 | the document exists exactly when the title and summary cast to non-empty trimmed strings, `type` and `status` cast into their enums (defaults `default` and `draft`), and each given date parses; it carries those values, `publishedAt` defaulting to `now` |
| AdminAnnouncements.DatePath | src/routes/adminAnnouncements.js:34-35 | a falsy or missing date takes its fallback; any other value is accepted exactly when it parses and is stored as parsed |
| AdminAnnouncements.PlainBodyIsCreated | src/routes/adminAnnouncements.js:27-38 | a body holding only a non-blank title and summary is saved trimmed, with type `default`, status `draft`, published `now` and no expiry |
| AdminAnnouncements.BlankTitleFailsTheSave | src/models/Announcement.js:5-7 | a title of blanks passes the handler's check but fails the schema's required check with 500 |
| AdminAnnouncements.List | src/routes/adminAnnouncements.js:10-24 | exactly the stored items with the given status (if any) and, unless `includeExpired` is `true`, no expiry before `now`, each as often as it is stored, newest first |
| AdminAnnouncements.CreatedIsListed | src/routes/adminAnnouncements.js:14-18 | a created announcement appears in the list with no status and `includeExpired=true` |
| AdminAnnouncements.Update | src/routes/adminAnnouncements.js:46-63 | a failing cast is 500; an unknown id is 404; otherwise only that announcement changes, taking the given paths and a new `updatedAt` |
| AdminAnnouncements.EmptyUpdateOnlyStamps | src/routes/adminAnnouncements.js:52-56 | an empty body changes only `updatedAt` |
| AdminAnnouncements.UpdateSkipsTheStatusEnum | src/routes/adminAnnouncements.js:52-56 | the update runs no validators, so a status outside the enum is stored |
| AdminAnnouncements.Delete | src/routes/adminAnnouncements.js:66-75 | 404 exactly when no announcement has the id; otherwise one is removed and every other is kept |
| AdminAnnouncements.DeleteRemovesIt | src/routes/adminAnnouncements.js:68 | with unique ids, no announcement with that id remains |
| Invites.TtlHours | src/routes/adminInvites.js:9 | 168 when the variable is unset or empty, its parsed integer otherwise (NaN when unparsable) |
| Invites.TtlOfNumber | src/routes/adminInvites.js:9 | a variable written as a number of hours gives exactly that number |
| Invites.Create | src/routes/adminInvites.js:23-60 | 400 without an email; otherwise one pending invite with the lower-cased address, the token's hash, expiry now + TTL·3600000, and one audit event whose details hold the address and the expiry; the raw token appears only in the reply |
| Invites.OnlyTheIssuedTokenMatches | src/routes/adminInvites.js:28-34 | the stored hash recognises the token handed out and no other string |
| Invites.DefaultInviteLastsAWeek | src/routes/adminInvites.js:9-30 | with the default TTL the invite expires 604800000 ms after it is made |
| Invites.Revoke | src/routes/adminInvites.js:62-86 | 404 for an unknown id; 400 unless pending; otherwise only the status becomes `revoked` (and `updatedAt`), with one audit event whose details hold the address |
| Invites.RevokeIsFinal | src/routes/adminInvites.js:67-69 | a second revoke is refused with 400 |
| Invites.List | src/routes/adminInvites.js:13-21 | every invite, newest first |
| AdminUsers.Ordered | src/routes/adminUsers.js:23-34 | exactly the accounts with the given role and a matching address, each as often as it is stored, newest first |
| AdminUsers.PageOf | src/routes/adminUsers.js:31-48 | the rows of the window skipping (page−1)·limit accounts, total equal to the number selected, totalPages = ceil(total/limit) or 1 |
| AdminUsers.List | src/routes/adminUsers.js:10-54 | page and limit are the query's, made safe: limit in [1,100] defaulting to 15, page at least 1 defaulting to 1; the page is cut from the ordered selection |
| AdminUsers.LimitOfNumber | src/routes/adminUsers.js:19 | a written limit is used clamped to [1,100], except that `0` gives 15 |
| AdminUsers.EverySelectedUserIsOnAPage | src/routes/adminUsers.js:31-47 | every selected account is listed on page k/limit + 1, a page within totalPages |
| AdminUsers.ListedRowsAreSelected | src/routes/adminUsers.js:31-39 | every listed row is an account that meets the query's conditions |
| AdminUsers.Get | src/routes/adminUsers.js:57-68 | 404 exactly for an unknown id; otherwise that account's selected fields, `createdAt` and `updatedAt` included |
| AdminUsers.ViewsHideThePassword | src/routes/adminUsers.js:33 | neither view depends on the password hash |
| Paging.SafeLimit | src/routes/adminUsers.js:19 | the page size lies in [1,max] and is the requested number when that is in range |
| Paging.SafePage | src/routes/adminUsers.js:20 | the page is at least 1 and is the requested number when that is at least 1 |
| Paging.TotalPages | src/routes/adminUsers.js:47 | at least 1; 1 for no items; otherwise the smallest number of pages holding every item |
| Paging.PagesCoverItems | src/routes/adminUsers.js:21 | every item lies on exactly one page between 1 and totalPages |
| Search.EscapeRegex | src/routes/adminUsers.js:26 | never shorter than the term, and a literal pattern, every metacharacter backslashed, that spells exactly the term |
| Search.EscapeIsTheOnlyLiteral | src/routes/adminUsers.js:26 | every literal pattern is the escape of the text it spells, so escaping is a bijection from terms onto literal patterns |
| Search.SearchTerm | src/routes/adminUsers.js:26 | the term is trimmed and no longer than the query |
| JsNumber.ParseInt | src/routes/adminUsers.js:19 | NaN exactly when no digits follow the leading white space and optional sign |
| JsNumber.ParseShowRoundTrip | src/routes/adminUsers.js:19 | `parseInt` of the decimal form of any integer gives that integer |
| Finance.ComputeNetRevenue | src/routes/adminFinance.js:52-60 | the loop computes Σ(amount − fee − refunded) over charges minus Σ refunds, with missing fields as 0 |
| Finance.SumChargesAppend | src/routes/adminFinance.js:52-57 | the charge sum is additive over concatenation |
| Finance.NetRevenueSteps | src/routes/adminFinance.js:52-60 | one more charge adds its net; one more refund subtracts its amount |
| Finance.Tally | src/routes/adminFinance.js:62-79 | the loop counts active or trialing subscriptions, sums their first unit amounts, and counts those that started within [from, to] |
| Finance.NewAreCountedAsActive | src/routes/adminFinance.js:75-79 | new subscriptions never outnumber active subscribers |
| Finance.NoLiveNoMrr | src/routes/adminFinance.js:62-74 | with no active or trialing subscription MRR is 0 |
| Finance.GetSummary | src/routes/adminFinance.js:22-92 | 400 when either date is missing or unparsable; zeros with a warning when Stripe is not configured; 500 when it fails; otherwise the reference net revenue, MRR and counts |
| Finance.Shown | src/routes/adminFinance.js:217-225 | exactly the charges the status, plan and region filters keep |
| Finance.Cursors | src/routes/adminFinance.js:248-252 | the next cursor is the last charge's id and the previous the first's; none for an empty page |
| Finance.TxRowOf | src/routes/adminFinance.js:228-241 | every column of a row: id; the time in milliseconds, or none for a missing or zero `created`; the billing name, else the customer, else `Customer` (never empty); customer, plan, amount in cents and status with their `''`/0 defaults; the currency upper-cased with `usd` as default; method, country and payment intent or `''`; the expanded invoice's id, else the string id or `''` |
| Finance.TablePage | src/routes/adminFinance.js:228-253 | the rows are the kept charges in order, each mapped by `TxRowOf`, the total is their number, and the cursors come from the unfiltered page |
| Finance.Transactions | src/routes/adminFinance.js:191-258 | 400 on a bad period; with a good period it succeeds exactly when Stripe does not fail (500); page and limit are the query's made safe, limit in [1,100] defaulting to 25; no rows when not configured; otherwise the filtered table |
| Finance.PaidShowsExactlySucceeded | src/routes/adminFinance.js:217-218 | with status `paid` every row succeeded, and every succeeded charge passing the metadata filters is shown |
| Finance.FiltersNeedBothSides | src/routes/adminFinance.js:217-225 | a plan filter drops nothing unless both sides are present; an unknown status keeps everything |
| Finance.CursorsIgnoreFilters | src/routes/adminFinance.js:248-252 | the cursor is the provider page's last id even when the filters hide that charge |
| Payments.ResolvePriceId | src/routes/payments.js:12-15 | the given id when non-empty, else the configured monthly price; a price exists exactly when either does |
| Payments.GetOrCreateCustomer | src/routes/payments.js:17-33 | an existing customer id is returned with nothing created; otherwise the created id is stored on the user, whose `updatedAt` the save stamps with `now` |
| Payments.CustomerIsCreatedOnce | src/routes/payments.js:19-21 | a second call returns the stored customer and creates nothing |
| Payments.Checkout | src/routes/payments.js:35-70 | 400 without a price, 404 for an unknown user, 500 when not configured or the session fails; only the caller's customer id can change |
| Payments.FailedSessionKeepsCustomer | src/routes/payments.js:49-69 | a customer stored before a failed session stays stored |
| Payments.EndOf | src/routes/payments.js:124-126 | no write for a missing or zero period end; otherwise seconds·1000, invalid when outside the range of a `Date` |
| Payments.WriteSubscriptionAt | src/routes/payments.js:112-130 | the payload's present fields and the timestamp `updatedAt = now` are written to that user, and nothing else; an invalid period end makes the update fail |
| Payments.UpdateUserSubscription | src/routes/payments.js:112-131 | nothing without a user id or for an unknown user; otherwise the field writes on that user |
| Payments.WriteIsIdempotent | src/routes/payments.js:112-131 | applying the same payload again changes only the user's `updatedAt`, to the second write's time; at the same instant it changes nothing |
| Payments.ProviderStatusIsStoredUnchecked | src/routes/payments.js:121-130 | a provider status outside the schema enum (`trialing`) is stored as given |
| Payments.CheckoutCompleted | src/routes/payments.js:133-141 | ignored unless both the metadata user id and the subscription are present; otherwise the retrieved subscription is written to that user |
| Payments.SubscriptionChanged | src/routes/payments.js:143-156 | the metadata user id first, then the user holding the customer id; no match changes nothing |
| Payments.PaymentFailed | src/routes/payments.js:158-169 | only the user holding the subscription id changes: it becomes `past_due` with `updatedAt = now` |
| Payments.PaymentFailedTouchesOnlyTheHolder | src/routes/payments.js:160-167 | every other user is unchanged |
| Payments.Dispatch | src/routes/payments.js:189-202 | each handled event type goes to its handler; any other type changes nothing |
| Payments.Webhook | src/routes/payments.js:171-209 | no reply when Stripe is not configured; 500 without a secret; 400 for a bad signature; 500 when a handler fails; otherwise received with the handler's users |
| Payments.UnknownEventsAreAcknowledged | src/routes/payments.js:189-208 | an unknown event type is acknowledged and changes nothing |
| Payments.IncompleteSessionIsIgnored | src/routes/payments.js:133-136 | a session without a user id or subscription is acknowledged with no change |
| Payments.SubscriptionEventIsIdempotent | src/routes/payments.js:143-156 | a redelivered subscription event leaves every account as the first delivery did except for its `updatedAt`; at the same instant it changes nothing |

## Left out

- Delivery and providers (Resend, Twilio Verify, Stripe, `notifyUser`, the admin logger) are not called. Emails, SMS, notifications and audit entries are `Effects.Effect` values listed after the save. Provider answers are parameters. Notification failures never affect state, so they are not modelled.
- The SHA-256 digests, `crypto.randomInt`/`randomBytes`, bcrypt and JWT signing have no model. The digest is a symbolic, injective `Digest.Hash`. Random draws, password hashes and `jwt.verify` are parameters.
- MongoDB query operators, regex matching, projections, `populate` and index enforcement become explicit predicates over sequences. Unique indexes appear only as lemma preconditions (`UniquePairs`, `UniqueIds`, `UniqueEmails`).
- Concurrent requests are not modelled; every handler is one sequential step.
- Floating point is left out:
  - `parseFloat` of `gpa` is a parameter.
  - The `/100` currency conversions are left out; every figure stays in integer cents.
- The player list filters of `GET /players` (positions, GPA and budget bounds, search over four fields) are not modelled, because they rest on float query parsing and Mongo operators. Only its page-size clamp is.
- Fractional division is left out of `Finance.Tally`. `from/1000` in the new-subscription window is compared as `start·1000` against the period in milliseconds, which agrees with the source for whole-second starts.
- The finance time series is left out (`groupKey`, the buckets and `spanDays`, adminFinance.js 14-19 and 95-188). So are the `/100` display figures.
- Stripe list pagination is left out. The summary works on the single page of at most 100 items the source requests.
- The Stripe portal and `/payments/me` routes (payments.js 72-110) are left out, along with the contents of a checkout session. Only its success or failure is modelled.
- A JSON body of the wrong type in `priceId` is left out. Query parameters given as arrays are left out too: every query value is an optional string.
- Loading the announcements JSON file is an input, with `None` for an unreadable file.
- Server errors from Mongo itself (a malformed ObjectId, a lost connection) are left out. The model's ids are strings, and a lookup either finds a document or does not.
- Fields a body carries beyond the modelled ones (the `...payload` spread in announcement create) are not modelled.
- `requireAdmin` (adminAuth.js) and the router wiring in src/index.js are not part of this model. Admin routes take the admin's id as a parameter.
- `passwordChangedAt` is not declared in the User schema, so nothing in the code base sets it. `Auth.Authenticate` still models the comparison for a stored value.
- `Normalize.NormalizeInstitutionName`: lower-casing covers the ASCII, Latin-1, Latin Extended-A and basic Cyrillic capitals, each mapped to one character. JavaScript's `toLowerCase` also lowers Greek (with its context-dependent final sigma) and the other cased scripts, and lowers the dotted capital I (U+0130) to two characters; the length bound holds only for the modelled mapping.
- `Users.EmailKey`: the same lower-casing as `Normalize.NormalizeInstitutionName`, with the same uncovered capitals and the same limit on the length bound.
- The case-insensitive searches (`new RegExp(term, 'i')`) compare lower-cased text with the same coverage, where JavaScript folds case through upper-casing.
- `Finance.TablePage`: the date column is the time in milliseconds rather than its ISO text. A `created` beyond the range of a `Date` would make `toISOString` throw and the route answer 500; that failure is left out. Upper-casing the currency covers the ASCII letters only, as currency codes are three ASCII letters.
- `Finance.TxRowOf`: the same date and currency limits as `Finance.TablePage`.
- `Collection.SortDesc`: MongoDB's `.sort({ key: -1 })` gives no order among documents with equal keys; the model fixes one (the stable order), so which of two tied documents lands on a page boundary is this model's choice, not a promise of the store.
- `Announcements.Feed`: a `publishedAt` is taken to be a valid date. A missing or invalid one makes the sort comparator return `NaN`, which leaves the order up to the engine; that case is left out.
- String lengths, the 2000-character note limit included, count characters, not the UTF-16 code units JavaScript counts; the two differ only outside the Basic Multilingual Plane.
- The JUCO roster (`Players.Roster`) takes the profiles' `updatedAt` ordering as a parameter `stamp`, since the save timestamp Mongoose keeps is not a field of the model. Its field projection and the 500 on a database failure are left out.
- `Favorites.List`: the populated player fields of the view are not modelled. The view carries the player id.
- `Payments.Webhook`: when Stripe is not configured the client constructor throws outside the handler's `try`. The model answers `NoReply` and leaves the framework's error page out.
- The reminder script requires `../models/PlayerProfile` from `scripts/`, a path that does not exist next to it. The model describes the selection and messages the script evidently intends.
- The route writes `phone.serviceSid`, but the schema declares no such path. Mongoose's strict mode drops it on save and nothing reads it, so the phone record does not carry it.

=== FILE: admin_announcements.dfy ===
/** The admin side of announcements, stored in their own collection: list
    with an optional status filter and an expiry filter, create with the
    schema's defaults and checks, update through an unvalidated `$set`, and
    delete. */
module AdminAnnouncements {
  import opened Wrappers
  import opened Json
  import opened Http
  import Text
  import Collection
  import opened Dates

  const Statuses: set<string> := {"draft", "scheduled", "published"}

  const Kinds: set<string> := {"product_update", "sponsor_spotlight", "program_news", "default"}

  /** A stored announcement; `None` is a path that holds `null` or was never
      set. `kind` is the schema's `type` path. */
  datatype Announcement = Announcement(
    id: string,
    title: Option<string>,
    summary: Option<string>,
    kind: Option<string>,
    status: Option<string>,
    publishedAt: Option<Instant>,
    expiresAt: Option<Instant>,
    createdAt: Instant,
    updatedAt: Instant)

  /** `new Date(v)` followed by the schema's date cast: `None` is an invalid
      date, which the cast refuses. */
  type DateParser = JsonValue -> Option<Instant>

  /** The outcome of the schema's cast of one body value. */
  datatype Cast<T> = Cast(value: T) | Refused

  /** A body value written to a `String` path: `null` clears the path, arrays
      and plain objects without a string `_id` are refused, and a path
      declared with `trim` is trimmed. */
  function TextWrite(v: JsonValue, trim: bool): (r: Cast<Option<string>>)
    ensures v.JNull? ==> r == Cast(None)
    ensures v.JArray? || (v.JObject? && !HasStringId(v)) ==> r.Refused?
    ensures HasStringId(v) ==> r == Cast(Some(if trim then Text.Trim(v.fields["_id"].s) else v.fields["_id"].s))
    ensures v.JString? ==> r == Cast(Some(if trim then Text.Trim(v.s) else v.s))
    ensures r.Cast? && r.value.Some? && trim ==> Text.Trimmed(r.value.value)
  {
    if v.JNull? then Cast(None)
    else
      match CastString(v)
      case None => Refused
      case Some(s) => Cast(Some(if trim then Text.Trim(s) else s))
  }

  /** A body value written to a `Date` path: `null` and `''` clear it, and
      every other value goes through the date conversion. */
  function DateWrite(v: JsonValue, parse: DateParser): (r: Cast<Option<Instant>>)
    ensures v.JNull? || v == JString("") ==> r == Cast(None)
    ensures Truthy(v) ==> (r.Refused? <==> parse(v).None?)
    ensures Truthy(v) && r.Cast? ==> r.value == parse(v)
  {
    if v.JNull? || v == JString("") then Cast(None)
    else
      match parse(v)
      case None => Refused
      case Some(t) => Cast(Some(t))
  }

  // ---------------------------------------------------------------------
  // Create
  // ---------------------------------------------------------------------

  /** A path with a default: the default when the body lacks it, the cast
      value otherwise. An explicit `null` is stored as `null`. */
  function WithDefault(body: map<string, JsonValue>, f: string, default: string): (r: Cast<Option<string>>)
    ensures f !in body ==> r == Cast(Some(default))
    ensures f in body ==> r == TextWrite(body[f], false)
  {
    if f in body then TextWrite(body[f], false) else Cast(Some(default))
  }

  /** An enumerated path accepts `null` or one of its values. */
  predicate InEnum(v: Option<string>, values: set<string>) {
    v.None? || v.value in values
  }

  /** A required, trimmed text path: the cast succeeds and leaves a
      non-empty string. */
  predicate FilledText(c: Cast<Option<string>>) {
    c.Cast? && c.value.Some? && c.value.value != ""
  }

  /** An enumerated path: the cast succeeds and the value is allowed. */
  predicate AllowedValue(c: Cast<Option<string>>, values: set<string>) {
    c.Cast? && InEnum(c.value, values)
  }

  /** An optional date path: absent or falsy, or a value that parses. */
  predicate DateAccepted(body: map<string, JsonValue>, f: string, parse: DateParser) {
    f in body ==> !Truthy(body[f]) || parse(body[f]).Some?
  }

  /** An optional date path of a create body: a falsy or missing value takes
      `absent`, anything else goes through the date cast. */
  function DatePath(body: map<string, JsonValue>, f: string, parse: DateParser, absent: Option<Instant>): (r: Cast<Option<Instant>>)
    ensures r.Cast? <==> DateAccepted(body, f, parse)
    ensures r.Cast? ==> r.value == (if Given(Member(body, f)) then parse(body[f]) else absent)
  {
    if Given(Member(body, f)) then DateWrite(body[f], parse) else Cast(absent)
  }

  /** Everything the schema checks of a create body, path by path. */
  predicate SchemaAccepts(body: map<string, JsonValue>, parse: DateParser)
    requires "title" in body && "summary" in body
  {
    && FilledText(TextWrite(body["title"], true))
    && FilledText(TextWrite(body["summary"], true))
    && AllowedValue(WithDefault(body, "type", "default"), Kinds)
    && AllowedValue(WithDefault(body, "status", "draft"), Statuses)
    && DateAccepted(body, "publishedAt", parse)
    && DateAccepted(body, "expiresAt", parse)
  }

  /** The document `Announcement.create` saves from a body that has passed the
      presence check, or `None` when a cast or a validator refuses it. */
  function NewAnnouncement(body: map<string, JsonValue>, parse: DateParser, newId: string, now: Instant): (r: Option<Announcement>)
    requires "title" in body && "summary" in body
    ensures r.Some? <==> SchemaAccepts(body, parse)
    ensures r.Some? ==>
              var a := r.value;
              && a.id == newId && a.createdAt == now && a.updatedAt == now
              && a.title.Some? && a.title.value != "" && Text.Trimmed(a.title.value)
              && a.summary.Some? && a.summary.value != "" && Text.Trimmed(a.summary.value)
              && InEnum(a.kind, Kinds) && InEnum(a.status, Statuses)
              && ("type" !in body ==> a.kind == Some("default"))
              && ("status" !in body ==> a.status == Some("draft"))
              && a.publishedAt == (if Given(Member(body, "publishedAt")) then parse(body["publishedAt"]) else Some(now))
              && a.expiresAt == (if Given(Member(body, "expiresAt")) then parse(body["expiresAt"]) else None)
    ensures Given(Member(body, "publishedAt")) && parse(body["publishedAt"]).None? ==> r.None?
    ensures Given(Member(body, "expiresAt")) && parse(body["expiresAt"]).None? ==> r.None?
    ensures body["title"].JArray? || (body["title"].JObject? && !HasStringId(body["title"])) ==> r.None?
  {
    var title := TextWrite(body["title"], true);
    var summary := TextWrite(body["summary"], true);
    var kind := WithDefault(body, "type", "default");
    var status := WithDefault(body, "status", "draft");
    var published := DatePath(body, "publishedAt", parse, Some(now));
    var expires := DatePath(body, "expiresAt", parse, None);
    if !FilledText(title) || !FilledText(summary) || !AllowedValue(kind, Kinds) || !AllowedValue(status, Statuses) then None
    else if published.Refused? || expires.Refused? then None
    else Some(Announcement(newId, title.value, summary.value, kind.value, status.value, published.value, expires.value, now, now))
  }

  /** A saved announcement and the collection after the save. */
  datatype Saved = Saved(store: seq<Announcement>, doc: Announcement)

  /** `POST /admin/announcements`. */
  function Create(store: seq<Announcement>, body: map<string, JsonValue>, parse: DateParser, newId: string, now: Instant): (r: Result<Saved, Failure>)
    ensures !Given(Member(body, "title")) || !Given(Member(body, "summary")) ==> r == Err(BadRequest("title and summary are required"))
    ensures Given(Member(body, "title")) && Given(Member(body, "summary")) && r.Err? ==> r.error == ServerError("Failed to create announcement")
    ensures Given(Member(body, "publishedAt")) && parse(body["publishedAt"]).None? ==> r.Err?
    ensures Given(Member(body, "title")) && Given(Member(body, "summary")) ==> (r.Ok? <==> SchemaAccepts(body, parse))
    ensures r.Ok? ==>
              && r.value.store == store + [r.value.doc]
              && r.value.doc.publishedAt == (if Given(Member(body, "publishedAt")) then parse(body["publishedAt"]) else Some(now))
              && r.value.doc.expiresAt == (if Given(Member(body, "expiresAt")) then parse(body["expiresAt"]) else None)
              && r.value.doc.title.Some? && r.value.doc.title.value != ""
              && InEnum(r.value.doc.status, Statuses)
  {
    if !Given(Member(body, "title")) || !Given(Member(body, "summary")) then Err(BadRequest("title and summary are required"))
    else
      match NewAnnouncement(body, parse, newId, now)
      case None => Err(ServerError("Failed to create announcement"))
      case Some(a) => Ok(Saved(store + [a], a))
  }

  /** A title of blanks passes the handler's presence check but not the
      schema's: the trimmed title is empty and the save fails. */
  lemma BlankTitleFailsTheSave(store: seq<Announcement>, parse: DateParser, newId: string, now: Instant)
    ensures Create(store, map["title" := JString(" "), "summary" := JString("s")], parse, newId, now)
              == Err(ServerError("Failed to create announcement"))
  {
    var body := map["title" := JString(" "), "summary" := JString("s")];
    assert Given(Member(body, "title")) && Given(Member(body, "summary"));
    Text.TrimOfBlank(" ");
    assert TextWrite(body["title"], true) == Cast(Some(""));
  }

  /** A body with only a title and a summary that are not blank is saved
      with the schema's defaults: type `default`, status `draft`, published
      now and no expiry. */
  lemma PlainBodyIsCreated(store: seq<Announcement>, t: string, s: string, parse: DateParser, newId: string, now: Instant)
    requires Text.Trim(t) != "" && Text.Trim(s) != ""
    ensures var r := Create(store, map["title" := JString(t), "summary" := JString(s)], parse, newId, now);
            && r.Ok?
            && r.value.store == store + [r.value.doc]
            && r.value.doc == Announcement(newId, Some(Text.Trim(t)), Some(Text.Trim(s)), Some("default"), Some("draft"), Some(now), None, now, now)
  {
    var body := map["title" := JString(t), "summary" := JString(s)];
    PlainBodyCasts(t, s, parse, now);
    NonBlankIsGiven(t);
    NonBlankIsGiven(s);
    assert Member(body, "title") == Some(JString(t)) && Member(body, "summary") == Some(JString(s));
  }

  /** The paths a title-and-summary body leaves out take their defaults. */
  lemma PlainBodyCasts(t: string, s: string, parse: DateParser, now: Instant)
    ensures var body := map["title" := JString(t), "summary" := JString(s)];
            && TextWrite(body["title"], true) == Cast(Some(Text.Trim(t)))
            && TextWrite(body["summary"], true) == Cast(Some(Text.Trim(s)))
            && WithDefault(body, "type", "default") == Cast(Some("default"))
            && WithDefault(body, "status", "draft") == Cast(Some("draft"))
            && DatePath(body, "publishedAt", parse, Some(now)) == Cast(Some(now))
            && DatePath(body, "expiresAt", parse, None) == Cast(None)
  {
    var body := map["title" := JString(t), "summary" := JString(s)];
    assert body["title"] == JString(t) && body["summary"] == JString(s);
    assert body.Keys == {"title", "summary"};
    assert "type" !in body && "status" !in body;
    assert "publishedAt" !in body;
    assert "expiresAt" !in body;
  }

  /** A string that is not blank is not empty, so the presence check passes. */
  lemma NonBlankIsGiven(t: string)
    requires Text.Trim(t) != ""
    ensures Given(Some(JString(t)))
  {
    if t == "" { Text.TrimOfBlank(t); }
  }

  // ---------------------------------------------------------------------
  // List
  // ---------------------------------------------------------------------

  /** The sort key: Mongo orders a missing date below every date. */
  function PublishedKey(a: Announcement): int {
    if a.publishedAt.Some? then a.publishedAt.value else -MaxDate - 1
  }

  /** The list's filter: the status when one is given, and, unless
      `includeExpired` is exactly `true`, no expiry before `now`. */
  predicate Listed(a: Announcement, status: Option<string>, includeExpired: Option<string>, now: Instant) {
    && (status.Some? && status.value != "" ==> a.status == status)
    && (includeExpired != Some("true") ==> a.expiresAt.None? || a.expiresAt.value >= now)
  }

  /** `GET /admin/announcements`. */
  function List(store: seq<Announcement>, status: Option<string>, includeExpired: Option<string>, now: Instant): (r: seq<Announcement>)
    ensures Collection.SortedDesc(r, PublishedKey)
    ensures multiset(r) <= multiset(store)
    ensures forall a :: a in store ==> multiset(r)[a] == (if Listed(a, status, includeExpired, now) then multiset(store)[a] else 0)
    ensures forall a :: a in r <==> a in store && Listed(a, status, includeExpired, now)
  {
    var kept := Collection.Filter(store, (a: Announcement) => Listed(a, status, includeExpired, now));
    var sorted := Collection.SortDesc(kept, PublishedKey);
    forall a ensures a in sorted <==> a in kept {
      Collection.SortKeepsMembers(kept, PublishedKey, a);
    }
    sorted
  }

  /** A created announcement is in the unfiltered list; without
      `includeExpired` it is there exactly when it has not expired. */
  lemma CreatedIsListed(store: seq<Announcement>, body: map<string, JsonValue>, parse: DateParser, newId: string, now: Instant, later: Instant)
    requires Create(store, body, parse, newId, now).Ok?
    ensures var s := Create(store, body, parse, newId, now).value;
            && s.doc in List(s.store, None, Some("true"), later)
            && (s.doc in List(s.store, None, None, later) <==> s.doc.expiresAt.None? || s.doc.expiresAt.value >= later)
  {
    var s := Create(store, body, parse, newId, now).value;
    assert s.doc in s.store;
  }

  // ---------------------------------------------------------------------
  // Update and delete
  // ---------------------------------------------------------------------

  /** The first announcement with id `id`. */
  function FindAnnouncement(store: seq<Announcement>, id: string): (r: Option<nat>)
    ensures r.Some? ==> r.value < |store| && store[r.value].id == id
    ensures r.None? <==> forall j :: 0 <= j < |store| ==> store[j].id != id
  {
    Collection.FindFirst(store, (a: Announcement) => a.id == id)
  }

  /** One path of the `$set`: the cast value when the body has the path. */
  datatype Changes = Changes(
    title: Option<Option<string>>,
    summary: Option<Option<string>>,
    kind: Option<Option<string>>,
    status: Option<Option<string>>,
    publishedAt: Option<Option<Instant>>,
    expiresAt: Option<Option<Instant>>)

  function TextChange(body: map<string, JsonValue>, f: string, trim: bool): (r: Cast<Option<Option<string>>>)
    ensures f !in body ==> r == Cast(None)
    ensures f in body ==> (r.Refused? <==> TextWrite(body[f], trim).Refused?)
    ensures f in body && r.Cast? ==> r.value == Some(TextWrite(body[f], trim).value)
  {
    if f !in body then Cast(None)
    else
      match TextWrite(body[f], trim)
      case Refused => Refused
      case Cast(v) => Cast(Some(v))
  }

  function DateChange(body: map<string, JsonValue>, f: string, parse: DateParser): (r: Cast<Option<Option<Instant>>>)
    ensures f !in body ==> r == Cast(None)
    ensures f in body ==> (r.Refused? <==> DateWrite(body[f], parse).Refused?)
    ensures f in body && r.Cast? ==> r.value == Some(DateWrite(body[f], parse).value)
  {
    if f !in body then Cast(None)
    else
      match DateWrite(body[f], parse)
      case Refused => Refused
      case Cast(v) => Cast(Some(v))
  }

  /** The `$set` document cast against the schema. The update runs no
      validators, so neither the enums nor `required` are checked. */
  function CastChanges(body: map<string, JsonValue>, parse: DateParser): (r: Cast<Changes>)
    ensures r.Refused? <==>
              || TextChange(body, "title", true).Refused? || TextChange(body, "summary", true).Refused?
              || TextChange(body, "type", false).Refused? || TextChange(body, "status", false).Refused?
              || DateChange(body, "publishedAt", parse).Refused? || DateChange(body, "expiresAt", parse).Refused?
    ensures r.Cast? ==> r.value == Changes(TextChange(body, "title", true).value, TextChange(body, "summary", true).value,
                                           TextChange(body, "type", false).value, TextChange(body, "status", false).value,
                                           DateChange(body, "publishedAt", parse).value, DateChange(body, "expiresAt", parse).value)
  {
    var title := TextChange(body, "title", true);
    var summary := TextChange(body, "summary", true);
    var kind := TextChange(body, "type", false);
    var status := TextChange(body, "status", false);
    var published := DateChange(body, "publishedAt", parse);
    var expires := DateChange(body, "expiresAt", parse);
    if title.Refused? || summary.Refused? || kind.Refused? || status.Refused? || published.Refused? || expires.Refused? then Refused
    else Cast(Changes(title.value, summary.value, kind.value, status.value, published.value, expires.value))
  }

  function Override<T>(change: Option<T>, current: T): T {
    if change.Some? then change.value else current
  }

  /** The document after the `$set`, stamped by the schema's timestamps. */
  function Apply(a: Announcement, c: Changes, now: Instant): (b: Announcement)
    ensures b.id == a.id && b.createdAt == a.createdAt && b.updatedAt == now
    ensures c.title.None? ==> b.title == a.title
    ensures c.title.Some? ==> b.title == c.title.value
    ensures c.status.None? ==> b.status == a.status
    ensures c.status.Some? ==> b.status == c.status.value
    ensures c.publishedAt.None? ==> b.publishedAt == a.publishedAt
    ensures c.expiresAt.None? ==> b.expiresAt == a.expiresAt
  {
    a.(title := Override(c.title, a.title), summary := Override(c.summary, a.summary),
       kind := Override(c.kind, a.kind), status := Override(c.status, a.status),
       publishedAt := Override(c.publishedAt, a.publishedAt), expiresAt := Override(c.expiresAt, a.expiresAt),
       updatedAt := now)
  }

  /** `PUT /admin/announcements/:id`. The cast of the update fails before the
      lookup, so a bad body gives 500 even for an unknown id. */
  function Update(store: seq<Announcement>, id: string, body: map<string, JsonValue>, parse: DateParser, now: Instant): (r: Result<Saved, Failure>)
    ensures CastChanges(body, parse).Refused? ==> r == Err(ServerError("Failed to update announcement"))
    ensures CastChanges(body, parse).Cast? && FindAnnouncement(store, id).None? ==> r == Err(NotFound("Announcement not found"))
    ensures r.Ok? <==> CastChanges(body, parse).Cast? && FindAnnouncement(store, id).Some?
    ensures r.Ok? ==>
              var i := FindAnnouncement(store, id).value;
              && |r.value.store| == |store|
              && r.value.store[i] == r.value.doc
              && r.value.doc == Apply(store[i], CastChanges(body, parse).value, now)
              && forall j :: 0 <= j < |store| && j != i ==> r.value.store[j] == store[j]
  {
    match CastChanges(body, parse)
    case Refused => Err(ServerError("Failed to update announcement"))
    case Cast(c) =>
      match FindAnnouncement(store, id)
      case None => Err(NotFound("Announcement not found"))
      case Some(i) =>
        var b := Apply(store[i], c, now);
        Ok(Saved(Collection.ReplaceAt(store, i, b), b))
  }

  /** An update with an empty body touches only `updatedAt`. */
  lemma EmptyUpdateOnlyStamps(store: seq<Announcement>, id: string, parse: DateParser, now: Instant)
    requires FindAnnouncement(store, id).Some?
    ensures var r := Update(store, id, map[], parse, now);
            && r.Ok?
            && r.value.doc == store[FindAnnouncement(store, id).value].(updatedAt := now)
  {
  }

  /** The update runs no validators: it stores a status outside the enum,
      which a create would refuse. */
  lemma UpdateSkipsTheStatusEnum(store: seq<Announcement>, id: string, parse: DateParser, now: Instant)
    requires FindAnnouncement(store, id).Some?
    ensures var r := Update(store, id, map["status" := JString("archived")], parse, now);
            && r.Ok?
            && r.value.doc.status == Some("archived")
            && !InEnum(r.value.doc.status, Statuses)
  {
    var body := map["status" := JString("archived")];
    assert TextChange(body, "status", false) == Cast(Some(Some("archived")));
    assert TextChange(body, "title", true) == Cast(None);
    assert TextChange(body, "summary", true) == Cast(None);
    assert TextChange(body, "type", false) == Cast(None);
    assert DateChange(body, "publishedAt", parse) == Cast(None);
    assert DateChange(body, "expiresAt", parse) == Cast(None);
  }

  /** `DELETE /admin/announcements/:id`. */
  function Delete(store: seq<Announcement>, id: string): (r: Result<seq<Announcement>, Failure>)
    ensures r.Err? <==> forall j :: 0 <= j < |store| ==> store[j].id != id
    ensures r.Err? ==> r.error == NotFound("Announcement not found")
    ensures r.Ok? ==> |r.value| == |store| - 1
    ensures r.Ok? ==> forall a :: a in r.value ==> a in store
    ensures r.Ok? ==> forall a :: a in store && a.id != id ==> a in r.value
  {
    match FindAnnouncement(store, id)
    case None => Err(NotFound("Announcement not found"))
    case Some(i) => Ok(Collection.RemoveAt(store, i))
  }

  /** Ids are unique in the collection. */
  predicate UniqueIds(store: seq<Announcement>) {
    forall i, j :: 0 <= i < j < |store| ==> store[i].id != store[j].id
  }

  /** With unique ids, a delete leaves no announcement with that id. */
  lemma DeleteRemovesIt(store: seq<Announcement>, id: string)
    requires UniqueIds(store)
    requires Delete(store, id).Ok?
    ensures forall a :: a in Delete(store, id).value ==> a.id != id
  {
    var i := FindAnnouncement(store, id).value;
    var r := Delete(store, id).value;
    forall j | 0 <= j < |r| ensures r[j].id != id {
      if j < i {
        assert r[j] == store[j];
      } else {
        assert r[j] == store[j + 1];
      }
    }
  }
}

=== FILE: admin_users.dfy ===
/** The admin user directory: a paged, filtered listing of accounts and one
    account's detail. Neither view carries the password hash. */
module AdminUsers {
  import opened Wrappers
  import opened Dates
  import opened Http
  import opened Users
  import opened Profiles
  import Collection
  import Paging
  import Search
  import JsNumber

  /** The fields the listing selects. */
  datatype UserRow = UserRow(id: UserId, email: string, role: string, subscriptionStatus: string, createdAt: Millis)

  function Row(u: User): (r: UserRow)
    ensures r.id == u.id && r.email == u.email && r.role == u.role
    ensures r.subscriptionStatus == u.subscriptionStatus && r.createdAt == u.createdAt
  {
    UserRow(u.id, u.email, u.role, u.subscriptionStatus, u.createdAt)
  }

  /** The query conditions: a role when one is given, an address pattern when
      a search is given. */
  predicate Selected(u: User, role: Option<string>, search: Option<string>) {
    && (role.Some? && role.value != "" ==> u.role == role.value)
    && (search.Some? && search.value != "" ==> Search.Matches(Some(u.email), Search.SearchTerm(search.value)))
  }

  function CreatedKey(u: User): int {
    u.createdAt
  }

  /** The selected accounts, newest first: the sequence the pages are cut from. */
  function Ordered(users: seq<User>, role: Option<string>, search: Option<string>): (r: seq<User>)
    ensures Collection.SortedDesc(r, CreatedKey)
    ensures forall u :: u in r <==> u in users && Selected(u, role, search)
    ensures multiset(r) <= multiset(users)
    ensures forall u :: u in users ==> multiset(r)[u] == (if Selected(u, role, search) then multiset(users)[u] else 0)
  {
    var kept := Collection.Filter(users, (u: User) => Selected(u, role, search));
    var sorted := Collection.SortDesc(kept, CreatedKey);
    forall u ensures u in sorted <==> u in kept {
      Collection.SortKeepsMembers(kept, CreatedKey, u);
    }
    sorted
  }

  datatype UserPage = UserPage(data: seq<UserRow>, page: int, limit: int, total: nat, totalPages: int)

  /** The rows of a window of accounts, in order. */
  function Rows(us: seq<User>): (r: seq<UserRow>)
    ensures |r| == |us|
    ensures forall k :: 0 <= k < |us| ==> r[k] == Row(us[k])
  {
    seq(|us|, k requires 0 <= k < |us| => Row(us[k]))
  }

  /** One page of the listing for a page number and size already made safe:
      the rows of the window that starts `Skip(page, limit)` accounts into
      the ordered selection. */
  function PageOf(users: seq<User>, page: int, limit: int, role: Option<string>, search: Option<string>): (r: UserPage)
    requires page >= 1 && limit >= 1
    ensures var ordered := Ordered(users, role, search);
            && r.page == page && r.limit == limit
            && r.total == |ordered|
            && r.totalPages == Paging.TotalPages(|ordered|, limit)
            && r.data == Rows(Collection.Window(ordered, Paging.Skip(page, limit), limit))
  {
    var ordered := Ordered(users, role, search);
    UserPage(Rows(Collection.Window(ordered, Paging.Skip(page, limit), limit)), page, limit, |ordered|, Paging.TotalPages(|ordered|, limit))
  }

  /** `GET /admin/users`: a page of 15 by default, at most 100. */
  function List(users: seq<User>, page: Option<string>, limit: Option<string>, role: Option<string>, search: Option<string>): (r: UserPage)
    ensures 1 <= r.limit <= 100 && r.page >= 1
    ensures limit.None? ==> r.limit == 15
    ensures page.None? ==> r.page == 1
    ensures r.page == Paging.SafePage(page) && r.limit == Paging.SafeLimit(limit, 15, 15, 100)
    ensures r == PageOf(users, r.page, r.limit, role, search)
  {
    PageOf(users, Paging.SafePage(page), Paging.SafeLimit(limit, 15, 15, 100), role, search)
  }

  /** The size of a written number is itself within [1, 100], except that `0`
      falls back to the default 15. */
  lemma LimitOfNumber(users: seq<User>, n: int, role: Option<string>, search: Option<string>)
    ensures List(users, None, Some(JsNumber.ShowInt(n)), role, search).limit == if n == 0 then 15 else Paging.Clamp(n, 1, 100)
  {
    Paging.RequestedOfNumber(n, 15, 15);
  }

  /** Every selected account is listed on page `k / limit + 1` of the listing,
      a page within `totalPages`. */
  lemma EverySelectedUserIsOnAPage(users: seq<User>, limit: int, role: Option<string>, search: Option<string>, k: nat)
    requires 1 <= limit
    requires k < |Ordered(users, role, search)|
    ensures var p := Paging.PageOfItem(k, limit);
            var r := PageOf(users, p, limit, role, search);
            && p <= r.totalPages
            && Row(Ordered(users, role, search)[k]) in r.data
  {
    var ordered := Ordered(users, role, search);
    var p := Paging.PageOfItem(k, limit);
    Paging.PagesCoverItems(|ordered|, limit, k);
    Collection.InWindow(ordered, Paging.Skip(p, limit), limit, k);
    RowOfMember(Collection.Window(ordered, Paging.Skip(p, limit), limit), ordered[k]);
  }

  lemma RowOfMember(us: seq<User>, u: User)
    requires u in us
    ensures Row(u) in Rows(us)
  {
    var k :| 0 <= k < |us| && us[k] == u;
    assert Rows(us)[k] == Row(u);
  }

  /** A listed row names an account that meets the query's conditions. */
  lemma ListedRowsAreSelected(users: seq<User>, page: int, limit: int, role: Option<string>, search: Option<string>, k: nat)
    requires page >= 1 && limit >= 1
    requires k < |PageOf(users, page, limit, role, search).data|
    ensures exists u :: u in users && Selected(u, role, search) && PageOf(users, page, limit, role, search).data[k] == Row(u)
  {
    var ordered := Ordered(users, role, search);
    var w := Collection.Window(ordered, Paging.Skip(page, limit), limit);
    Collection.WindowOfSorted(ordered, Paging.Skip(page, limit), limit, CreatedKey);
    assert w[k] in w;
  }

  /** The detail view: the listing's fields, the subscription fields and the
      time of the last write. */
  datatype UserDetail = UserDetail(
    id: UserId,
    email: string,
    role: string,
    subscriptionStatus: string,
    subscriptionCurrentPeriodEnd: Option<int>,
    subscriptionPriceId: Option<string>,
    stripeCustomerId: Option<string>,
    stripeSubscriptionId: Option<string>,
    createdAt: Millis,
    updatedAt: Millis)

  function Detail(u: User): UserDetail {
    UserDetail(u.id, u.email, u.role, u.subscriptionStatus, u.subscriptionCurrentPeriodEnd,
               u.subscriptionPriceId, u.stripeCustomerId, u.stripeSubscriptionId, u.createdAt, u.updatedAt)
  }

  /** `GET /admin/users/:id`. */
  function Get(users: seq<User>, id: UserId): (r: Result<UserDetail, Failure>)
    ensures r.Err? <==> forall j :: 0 <= j < |users| ==> users[j].id != id
    ensures r.Err? ==> r.error == NotFound("User not found")
    ensures r.Ok? ==> exists u :: u in users && u.id == id && r.value == Detail(u)
    ensures r.Ok? ==> r.value.id == id && r.value.updatedAt == users[FindUser(users, id).value].updatedAt
  {
    match FindUser(users, id)
    case None => Err(NotFound("User not found"))
    case Some(i) => Ok(Detail(users[i]))
  }

  /** Neither view depends on the password hash or on when the password changed. */
  lemma ViewsHideThePassword(u: User, hash: string, changedAt: Option<int>)
    ensures Row(u.(passwordHash := hash, passwordChangedAt := changedAt)) == Row(u)
    ensures Detail(u.(passwordHash := hash, passwordChangedAt := changedAt)) == Detail(u)
  {
  }
}

=== FILE: admin_verifications.dfy ===
/** The admin half of the verification workflow: the review queue, one profile's
    record, and the approve and reject decisions with their audit trail. The
    profile collection is a sequence in the store's natural order, addressed by
    profile id. */
module AdminVerifications {
  import opened Wrappers
  import opened Dates
  import opened Json
  import opened Http
  import opened Profiles
  import opened Effects
  import Collection
  import Paging
  import Search
  import Text

  /** A committed decision: the whole collection after the save, and the
      deliveries attempted after it. */
  datatype Step = Step(store: seq<PlayerProfile>, effects: seq<Effect>)

  /** One profile's full record for the review screen. */
  function Get(store: seq<PlayerProfile>, id: ProfileId): (r: Result<PlayerProfile, Failure>)
    ensures r.Err? <==> forall j :: 0 <= j < |store| ==> store[j].id != id
    ensures r.Err? ==> r.error == NoRecord
    ensures r.Ok? ==> r.value in store && r.value.id == id
  {
    match FindById(store, id)
    case None => Err(NoRecord)
    case Some(i) => Ok(store[i])
  }

  // ---------------------------------------------------------------------
  // Decisions
  // ---------------------------------------------------------------------

  /** The two decisions share one shape and differ in these constants. */
  datatype Verdict = Approve | Reject
  {
    function Status(): VerificationStatus {
      if this == Approve then Verified else NeedsUpdates
    }
    function Action(): string {
      if this == Approve then "verification_approved" else "verification_rejected"
    }
    /** The key of the note in the audit entry's details. */
    function NoteKey(): string {
      if this == Approve then "reviewerNote" else "note"
    }
    function FailureMessage(): string {
      if this == Approve then "Failed to approve verification" else "Failed to reject verification"
    }
  }

  const NoteRequired: Failure := BadRequest("Rejection note is required")
  const NoRecord: Failure := NotFound("Verification not found")

  /** The note as the handler writes it: approval falls back to `''`
      (`req.body.note || ''`); rejection has already refused a falsy note. */
  function RawNote(verdict: Verdict, note: Option<JsonValue>): JsonValue {
    if Given(note) then note.value else JString("")
  }

  /** The note the schema stores: cast to a string and trimmed. The cast fails
      for arrays and objects. */
  function StoredNote(raw: JsonValue): Option<string> {
    match CastString(raw)
    case None => None
    case Some(s) => Some(Text.Trim(s))
  }

  /** The user notification each decision sends. */
  function Notification(verdict: Verdict, user: UserId, raw: JsonValue): Effect {
    if verdict == Approve then
      NotifyUser(user, "Profile verified", "Congratulations! Your Sportall profile has been verified by our team.")
    else
      NotifyUser(user, "Verification needs updates",
                 "Reviewers left this note: " + ToJsString(raw) + ". Please update your stats and resubmit.")
  }

  /** The record after a decision by `admin` at `now` with the stored note `note`. */
  function Decided(verdict: Verdict, v: Verification, admin: UserId, note: string, now: Millis): Verification {
    var stats := v.stats.(reviewerId := Some(admin), reviewerNote := Some(note),
                          verifiedAt := if verdict == Approve then Some(now) else v.stats.verifiedAt);
    v.(status := verdict.Status(), stats := stats, updatedAt := Some(now),
       history := v.history + [HistoryEntry(verdict.Status(), note, admin, now)])
  }

  /** A decision on one record, given the raw note. The save fails when the note
      cannot be cast to a string or is longer than the schema's bound once trimmed. */
  function DecideRecord(verdict: Verdict, p: PlayerProfile, admin: UserId, raw: JsonValue, now: Millis): (r: Result<PlayerProfile, Failure>)
    ensures r.Ok? <==> StoredNote(raw).Some? && |StoredNote(raw).value| <= MaxNoteLength
    ensures r.Err? ==> r.error == ServerError(verdict.FailureMessage())
    ensures r.Ok? ==>
              var q := r.value;
              var s := q.verification.stats;
              && q == p.(verification := q.verification)
              && q.verification.status == verdict.Status()
              && q.verification.history == p.verification.history + [HistoryEntry(verdict.Status(), StoredNote(raw).value, admin, now)]
              && s == p.verification.stats.(reviewerId := s.reviewerId, reviewerNote := s.reviewerNote, verifiedAt := s.verifiedAt)
              && s.reviewerId == Some(admin)
              && s.reviewerNote == StoredNote(raw)
              && Text.Trimmed(s.reviewerNote.value)
              && s.verifiedAt == (if verdict == Approve then Some(now) else p.verification.stats.verifiedAt)
              && q.verification.email == p.verification.email
              && q.verification.phone == p.verification.phone
              && q.verification.updatedAt == Some(now)
  {
    match StoredNote(raw)
    case None => Err(ServerError(verdict.FailureMessage()))
    case Some(stored) =>
      if |stored| > MaxNoteLength then Err(ServerError(verdict.FailureMessage()))
      else Ok(p.(verification := Decided(verdict, p.verification, admin, stored, now)))
  }

  /** Approve or reject the profile with id `id`. Neither decision checks the
      current status: any record, `in_review` or not, can be decided, and each
      decision appends a history entry. */
  function Decide(verdict: Verdict, store: seq<PlayerProfile>, id: ProfileId, admin: UserId, note: Option<JsonValue>, now: Millis): (r: Result<Step, Failure>)
    ensures verdict == Reject && !Given(note) ==> r == Err(NoteRequired)
    ensures (verdict == Approve || Given(note)) && FindById(store, id).None? ==> r == Err(NoRecord)
    ensures (verdict == Approve || Given(note)) && FindById(store, id).Some? ==>
              r == DecideAt(verdict, store, FindById(store, id).value, admin, RawNote(verdict, note), now)
    ensures r.Ok? ==> OnlyChanged(store, r.value.store, FindById(store, id).value)
  {
    if verdict == Reject && !Given(note) then Err(NoteRequired)
    else
      match FindById(store, id)
      case None => Err(NoRecord)
      case Some(i) => DecideAt(verdict, store, i, admin, RawNote(verdict, note), now)
  }

  /** The decision on the record at index `i`, committed with its audit entry
      and its notification. */
  function DecideAt(verdict: Verdict, store: seq<PlayerProfile>, i: nat, admin: UserId, raw: JsonValue, now: Millis): (r: Result<Step, Failure>)
    requires i < |store|
    ensures var rec := DecideRecord(verdict, store[i], admin, raw, now);
            && (r.Ok? <==> rec.Ok?)
            && (rec.Err? ==> r == Err(rec.error))
            && (r.Ok? ==> r.value.store == store[i := rec.value])
    ensures r.Ok? ==> r.value.effects == [AuditLog(admin, verdict.Action(), "PlayerProfile", store[i].id, map[verdict.NoteKey() := Value(raw)]),
                                          Notification(verdict, store[i].user, raw)]
  {
    match DecideRecord(verdict, store[i], admin, raw, now)
    case Err(e) => Err(e)
    case Ok(q) =>
      Ok(Step(store[i := q], [AuditLog(admin, verdict.Action(), "PlayerProfile", store[i].id, map[verdict.NoteKey() := Value(raw)]),
                              Notification(verdict, store[i].user, raw)]))
  }

  /** `POST /:id/approve`. */
  function ApproveVerification(store: seq<PlayerProfile>, id: ProfileId, admin: UserId, note: Option<JsonValue>, now: Millis): (r: Result<Step, Failure>)
    ensures FindById(store, id).None? <==> r == Err(NoRecord)
    ensures r.Ok? ==> |r.value.store| == |store|
    ensures r.Ok? ==> r.value.store[FindById(store, id).value].verification.status == Verified
  {
    Decide(Approve, store, id, admin, note, now)
  }

  /** `POST /:id/reject`. */
  function RejectVerification(store: seq<PlayerProfile>, id: ProfileId, admin: UserId, note: Option<JsonValue>, now: Millis): (r: Result<Step, Failure>)
    ensures !Given(note) ==> r == Err(NoteRequired)
    ensures Given(note) ==> (FindById(store, id).None? <==> r == Err(NoRecord))
    ensures r.Ok? ==> |r.value.store| == |store|
    ensures r.Ok? ==> r.value.store[FindById(store, id).value].verification.status == NeedsUpdates
  {
    Decide(Reject, store, id, admin, note, now)
  }

  /** The last instant recorded in a history, or 0 for an empty one. */
  function LastDecisionAt(h: seq<HistoryEntry>): Millis {
    if |h| == 0 then 0 else h[|h| - 1].createdAt
  }

  /** A decision keeps the record's invariant whenever the clock has not gone
      back past the last decision: the stored note fits the bound and the
      history stays in time order. */
  lemma DecisionKeepsInvariant(verdict: Verdict, p: PlayerProfile, admin: UserId, raw: JsonValue, now: Millis)
    requires Invariant(p.verification)
    requires LastDecisionAt(p.verification.history) <= now
    ensures DecideRecord(verdict, p, admin, raw, now).Ok? ==>
              Invariant(DecideRecord(verdict, p, admin, raw, now).value.verification)
  {
    var r := DecideRecord(verdict, p, admin, raw, now);
    if r.Ok? {
      AppendInOrder(p.verification.history, HistoryEntry(verdict.Status(), StoredNote(raw).value, admin, now));
    }
  }

  /** An entry no older than the last one keeps a history in time order. */
  lemma AppendInOrder(h: seq<HistoryEntry>, e: HistoryEntry)
    requires HistoryOrdered(h)
    requires LastDecisionAt(h) <= e.createdAt
    ensures HistoryOrdered(h + [e])
  {
    var h' := h + [e];
    forall a, b | 0 <= a < b < |h'| ensures h'[a].createdAt <= h'[b].createdAt {
      if b == |h| {
        assert h'[a] == h[a];
        assert h[a].createdAt <= h[|h| - 1].createdAt;
      } else {
        assert h'[a] == h[a] && h'[b] == h[b];
      }
    }
  }

  /** Neither decision looks at the status: with a present profile and a note
      that fits, both succeed from each of the seven statuses, `verified`
      included. */
  lemma DecisionsIgnoreStatus(verdict: Verdict, store: seq<PlayerProfile>, id: ProfileId, admin: UserId, note: string, now: Millis, status: VerificationStatus)
    requires FindById(store, id).Some?
    requires store[FindById(store, id).value].verification.status == status
    requires note != "" && |Text.Trim(note)| <= MaxNoteLength
    ensures Decide(verdict, store, id, admin, Some(JString(note)), now).Ok?
  {
    assert Given(Some(JString(note)));
    var raw := RawNote(verdict, Some(JString(note)));
    assert raw == JString(note);
    assert CastString(raw) == Some(note);
    assert StoredNote(raw) == Some(Text.Trim(note));
  }

  /** Repeating a decision is not idempotent: each one appends its own entry. */
  lemma RepeatedApprovalAppendsTwice(store: seq<PlayerProfile>, id: ProfileId, admin: UserId, now: Millis, later: Millis)
    requires FindById(store, id).Some?
    ensures var first := ApproveVerification(store, id, admin, None, now);
            first.Ok? &&
            var second := ApproveVerification(first.value.store, id, admin, None, later);
            second.Ok? &&
            |second.value.store[FindById(store, id).value].verification.history| ==
              |store[FindById(store, id).value].verification.history| + 2
  {
    var i := FindById(store, id).value;
    var raw := RawNote(Approve, None);
    assert StoredNote(raw) == Some("");
    var d1 := DecideRecord(Approve, store[i], admin, raw, now);
    var s1 := store[i := d1.value];
    assert ApproveVerification(store, id, admin, None, now).value.store == s1;
    assert FindById(s1, id) == Some(i) by {
      forall j | 0 <= j < i ensures s1[j].id != id {
        assert s1[j] == store[j];
      }
    }
    var d2 := DecideRecord(Approve, s1[i], admin, raw, later);
    assert ApproveVerification(s1, id, admin, None, later).value.store[i] == d2.value;
  }

  // ---------------------------------------------------------------------
  // The review queue
  // ---------------------------------------------------------------------

  /** The query string of `GET /`; each parameter is missing or a string. */
  datatype ListQuery = ListQuery(
    status: Option<string>,
    limit: Option<string>,
    page: Option<string>,
    division: Option<string>,
    jucoProgram: Option<string>,
    search: Option<string>,
    updatedBefore: Option<string>,
    updatedAfter: Option<string>)

  /** The conditions the handler puts into its query; a `None` is a condition left out. */
  datatype Filter = Filter(
    status: Option<string>,
    division: Option<string>,
    jucoCoach: Option<UserId>,
    updatedBefore: Option<Millis>,
    updatedAfter: Option<Millis>,
    search: Option<string>)

  /** A truthy query string: present and non-empty. */
  function Nonempty(q: Option<string>): Option<string> {
    if q.Some? && q.value != "" then q else None
  }

  /** The filter built from the query. The status defaults to `in_review` when
      the parameter is missing; an empty status means no status condition.
      `parseDate` is `new Date(s)`: `None` is an invalid date, which the query
      cast refuses. */
  function BuildFilter(q: ListQuery, parseDate: string -> Option<Millis>): (r: Result<Filter, Failure>)
    ensures q.status.None? && r.Ok? ==> r.value.status == Some("in_review")
    ensures q.status == Some("") && r.Ok? ==> r.value.status.None?
    ensures r.Err? <==>
              || (Nonempty(q.updatedBefore).Some? && parseDate(q.updatedBefore.value).None?)
              || (Nonempty(q.updatedAfter).Some? && parseDate(q.updatedAfter.value).None?)
    ensures r.Err? ==> r.error == ServerError("Failed to load verifications")
  {
    var before := Nonempty(q.updatedBefore);
    var after := Nonempty(q.updatedAfter);
    if (before.Some? && parseDate(before.value).None?) || (after.Some? && parseDate(after.value).None?) then
      Err(ServerError("Failed to load verifications"))
    else
      var status := if q.status.None? then Some("in_review") else Nonempty(q.status);
      var s := Nonempty(q.search);
      Ok(Filter(status, Nonempty(q.division), Nonempty(q.jucoProgram),
                if before.Some? then parseDate(before.value) else None,
                if after.Some? then parseDate(after.value) else None,
                if s.Some? then Some(Search.SearchTerm(s.value)) else None))
  }

  /** Whether a profile meets every condition of the filter. A date bound never
      matches a profile whose record has no `updatedAt`. */
  predicate MatchesFilter(f: Filter, p: PlayerProfile) {
    var u := p.verification.updatedAt;
    && (f.status.Some? ==> p.verification.status.Name() == f.status.value)
    && (f.division.Some? ==> p.division == f.division.value)
    && (f.jucoCoach.Some? ==> p.jucoCoach == f.jucoCoach)
    && (f.updatedBefore.Some? ==> u.Some? && u.value <= f.updatedBefore.value)
    && (f.updatedAfter.Some? ==> u.Some? && f.updatedAfter.value <= u.value)
    && (f.search.Some? ==> Search.Matches(p.fullName, f.search.value) || Search.Matches(p.school, f.search.value))
  }

  /** `sort({ 'verification.updatedAt': -1 })`: records never updated sort last. */
  function UpdatedKey(p: PlayerProfile): int {
    if p.verification.updatedAt.Some? then p.verification.updatedAt.value else -1
  }

  /** The records the query selects, in store order. */
  function Matching(store: seq<PlayerProfile>, f: Filter): (r: seq<PlayerProfile>)
    ensures |r| <= |store|
    ensures forall x :: x in r <==> x in store && MatchesFilter(f, x)
  {
    Collection.Filter(store, (p: PlayerProfile) => MatchesFilter(f, p))
  }

  /** The matching records, most recently updated first: the sequence the
      pages are cut from. */
  function Queue(store: seq<PlayerProfile>, f: Filter): (r: seq<PlayerProfile>)
    ensures Collection.SortedDesc(r, UpdatedKey)
    ensures |r| == |Matching(store, f)|
    ensures forall x :: x in r <==> x in store && MatchesFilter(f, x)
  {
    var matching := Matching(store, f);
    var sorted := Collection.SortDesc(matching, UpdatedKey);
    forall x ensures x in sorted <==> x in matching {
      Collection.SortKeepsMembers(matching, UpdatedKey, x);
    }
    sorted
  }

  datatype ListPage = ListPage(data: seq<PlayerProfile>, page: int, limit: int, total: nat, totalPages: int)

  /** `GET /`: the matching records, most recently updated first, one page of
      them: the window that skips `(page - 1) * limit` records of the queue. */
  function List(store: seq<PlayerProfile>, q: ListQuery, parseDate: string -> Option<Millis>): (r: Result<ListPage, Failure>)
    ensures r.Err? <==> BuildFilter(q, parseDate).Err?
    ensures r.Ok? ==>
              var f := BuildFilter(q, parseDate).value;
              var l := r.value;
              && l.limit == Paging.SafeLimit(q.limit, 20, 20, 100)
              && l.page == Paging.SafePage(q.page)
              && l.data == Collection.Window(Queue(store, f), Paging.Skip(l.page, l.limit), l.limit)
              && |l.data| <= l.limit
              && (forall x :: x in l.data ==> x in store && MatchesFilter(f, x))
              && Collection.SortedDesc(l.data, UpdatedKey)
              && l.total == |Matching(store, f)| <= |store|
              && l.totalPages == Paging.TotalPages(l.total, l.limit)
  {
    match BuildFilter(q, parseDate)
    case Err(e) => Err(e)
    case Ok(f) =>
      var limit := Paging.SafeLimit(q.limit, 20, 20, 100);
      var page := Paging.SafePage(q.page);
      var queue := Queue(store, f);
      var data := Collection.Window(queue, Paging.Skip(page, limit), limit);
      Collection.WindowOfSorted(queue, Paging.Skip(page, limit), limit, UpdatedKey);
      Ok(ListPage(data, page, limit, |Matching(store, f)|, Paging.TotalPages(|Matching(store, f)|, limit)))
  }

  /** Every record that matches the filter is listed on some page of the
      queue, and that page lies within `totalPages`. */
  lemma EveryMatchIsListed(store: seq<PlayerProfile>, f: Filter, limit: int, p: PlayerProfile)
    requires limit >= 1
    requires p in store && MatchesFilter(f, p)
    ensures exists k :: 0 <= k < |Queue(store, f)| && Queue(store, f)[k] == p
              && Paging.PageOfItem(k, limit) <= Paging.TotalPages(|Matching(store, f)|, limit)
              && p in Collection.Window(Queue(store, f), Paging.Skip(Paging.PageOfItem(k, limit), limit), limit)
  {
    var queue := Queue(store, f);
    var k :| 0 <= k < |queue| && queue[k] == p;
    Paging.PagesCoverItems(|queue|, limit, k);
    Collection.InWindow(queue, Paging.Skip(Paging.PageOfItem(k, limit), limit), limit, k);
  }

  /** With no query at all, the queue holds only records awaiting review. */
  lemma DefaultQueueIsInReview(store: seq<PlayerProfile>, parseDate: string -> Option<Millis>)
    ensures var r := List(store, ListQuery(None, None, None, None, None, None, None, None), parseDate);
            r.Ok? && forall x :: x in r.value.data ==> x.verification.status == InReview
  {
    var r := List(store, ListQuery(None, None, None, None, None, None, None, None), parseDate);
    forall x | x in r.value.data ensures x.verification.status == InReview {
      assert x.verification.status.Name() == "in_review";
      InReviewByName(x.verification.status);
    }
  }
}

=== FILE: announcements.dfy ===
/** The public announcements feed. The items come from a JSON file read on
    every request; the model takes the file's contents as an input, `None`
    when it cannot be read or parsed. */
module Announcements {
  import opened Wrappers
  import Collection

  /** `new Date(x).getTime()`: a number of milliseconds, or `NaN`. */
  datatype JsDate = Valid(ms: int) | Invalid

  /** An item of the file. `expiresAt` is `None` when the field is missing or
      falsy; `publishedAt` is taken to be a valid date. */
  datatype Item = Item(id: string, publishedAt: int, expiresAt: Option<JsDate>)

  /** `req.query.includeExpired === 'true'`. */
  predicate IncludeExpired(q: Option<string>) {
    q == Some("true")
  }

  /** `!item.expiresAt || new Date(item.expiresAt).getTime() >= now`: an item
      with an unreadable date is dropped, since `NaN >= now` is false. */
  predicate Live(item: Item, now: int) {
    item.expiresAt.None? || (item.expiresAt.value.Valid? && item.expiresAt.value.ms >= now)
  }

  function PublishedKey(item: Item): int {
    item.publishedAt
  }

  /** The items a request keeps, in file order. */
  function Kept(items: seq<Item>, includeExpired: bool, now: int): (r: seq<Item>)
    ensures forall x :: x in r <==> x in items && (includeExpired || Live(x, now))
    ensures multiset(r) <= multiset(items)
    ensures forall x :: x in items ==> multiset(r)[x] == (if includeExpired || Live(x, now) then multiset(items)[x] else 0)
  {
    Collection.Filter(items, (x: Item) => includeExpired || Live(x, now))
  }

  /** `GET /announcements`. */
  function Feed(source: Option<seq<Item>>, includeExpired: Option<string>, now: int): (r: seq<Item>)
    ensures source.None? ==> r == []
    ensures Collection.SortedDesc(r, PublishedKey)
    ensures source.Some? ==> multiset(r) == multiset(Kept(source.value, IncludeExpired(includeExpired), now))
    ensures source.Some? ==> multiset(r) <= multiset(source.value)
    ensures source.Some? ==> forall x :: x in source.value ==>
              multiset(r)[x] == (if IncludeExpired(includeExpired) || Live(x, now) then multiset(source.value)[x] else 0)
    ensures source.Some? ==> forall x :: x in r <==> x in source.value && (IncludeExpired(includeExpired) || Live(x, now))
  {
    if source.None? then []
    else
      var kept := Kept(source.value, IncludeExpired(includeExpired), now);
      var sorted := Collection.SortDesc(kept, PublishedKey);
      forall x ensures x in sorted <==> x in kept {
        Collection.SortKeepsMembers(kept, PublishedKey, x);
      }
      sorted
  }

  /** An item that expires at the very instant of the request is still shown,
      and one that expired a millisecond earlier is not. */
  lemma ExpiryBoundaryIsKept(source: seq<Item>, now: int, id: string, published: int)
    requires Item(id, published, Some(Valid(now))) in source
    requires Item(id, published, Some(Valid(now - 1))) in source
    ensures Item(id, published, Some(Valid(now))) in Feed(Some(source), None, now)
    ensures Item(id, published, Some(Valid(now - 1))) !in Feed(Some(source), None, now)
  {
  }

  /** Only the exact string `true` shows expired items: `TRUE`, `1` and `yes` do not. */
  lemma OnlyExactTrueIncludesExpired(source: seq<Item>, now: int, q: string, x: Item)
    requires x in source && !Live(x, now)
    ensures x in Feed(Some(source), Some(q), now) <==> q == "true"
  {
  }

  /** With `includeExpired=true` the feed is the whole file, reordered. */
  lemma IncludeExpiredKeepsAll(source: seq<Item>, now: int)
    ensures multiset(Feed(Some(source), Some("true"), now)) == multiset(source)
  {
    var kept := Kept(source, true, now);
    assert kept == source by {
      Collection.FilterAll(source, (x: Item) => true || Live(x, now));
    }
  }
}

=== FILE: auth.dfy ===
/** Accounts and sessions: the bearer-token middleware, registration, login
    and the start-up admin seeding. Password hashing and token signing are
    outside the model: a bcrypt hash is an input, `bcrypt.compare` and
    `jwt.verify` are oracles passed in, and a signed token is represented by
    the claims it carries. */
module Auth {
  import opened Wrappers
  import opened Dates
  import opened Json
  import opened Http
  import opened Profiles
  import opened Users
  import Text

  // ---------------------------------------------------------------------
  // Tokens and the authentication middleware
  // ---------------------------------------------------------------------

  /** Token lifetime: `expiresIn: '24h'`, in seconds. */
  const TokenLifetimeSeconds: int := 86400

  /** The claims of a token the application signs; `iat` and `exp` are in
      seconds, as the JWT library writes them. */
  datatype Claims = Claims(sub: UserId, role: string, iat: int, exp: int)

  /** `jwt.sign({ sub, role }, secret, { expiresIn: '24h' })` at time `now`. */
  function Issue(u: User, now: Millis): (c: Claims)
    ensures c.sub == u.id && c.role == u.role
    ensures c.exp - c.iat == TokenLifetimeSeconds
    ensures c.iat * 1000 <= now < c.iat * 1000 + 1000
  {
    Claims(u.id, u.role, now / 1000, now / 1000 + TokenLifetimeSeconds)
  }

  /** What `jwt.verify` hands back for a token that passes: a payload that may
      lack `sub` or `iat`. */
  datatype Decoded = Decoded(sub: Option<string>, iat: Option<int>)

  /** The payload of a token the application signed. */
  function DecodedOf(c: Claims): Decoded {
    Decoded(Some(c.sub), Some(c.iat))
  }

  /** `req.user`: the id and the role as stored, not as the token claims. */
  datatype AuthUser = AuthUser(id: UserId, role: string)

  /** The token a header carries: what follows `Bearer `, or nothing. */
  function BearerToken(header: Option<string>): (t: string)
    ensures header.Some? && Text.StartsWith(header.value, "Bearer ") ==> header.value == "Bearer " + t
    ensures header.None? || !Text.StartsWith(header.value, "Bearer ") ==> t == ""
  {
    if header.Some? && Text.StartsWith(header.value, "Bearer ") then
      assert header.value == header.value[..7] + header.value[7..];
      header.value[7..]
    else ""
  }

  /** The password was changed after the token was issued. A missing or zero
      `iat` never counts as stale; equal instants do not either. */
  predicate Stale(u: User, d: Decoded) {
    u.passwordChangedAt.Some? && d.iat.Some? && d.iat.value != 0
    && u.passwordChangedAt.value > d.iat.value * 1000
  }

  /** The `auth` middleware. `verify` is `jwt.verify` with the server secret:
      `None` when it throws (bad signature, expired, malformed). */
  function Authenticate(header: Option<string>, verify: string -> Option<Decoded>, users: seq<User>): (r: Result<AuthUser, Failure>)
    ensures BearerToken(header) == "" ==> r == Err(Unauthorized("Unauthorized"))
    ensures r.Err? ==> r.error.Status() == 401
    ensures r.Ok? <==>
              && BearerToken(header) != ""
              && verify(BearerToken(header)).Some?
              && var d := verify(BearerToken(header)).value;
              && d.sub.Some? && d.sub.value != ""
              && FindUser(users, d.sub.value).Some?
              && !Stale(users[FindUser(users, d.sub.value).value], d)
    ensures r.Ok? ==>
              var u := users[FindUser(users, verify(BearerToken(header)).value.sub.value).value];
              r.value == AuthUser(u.id, u.role)
  {
    var token := BearerToken(header);
    if token == "" then Err(Unauthorized("Unauthorized"))
    else
      match verify(token)
      case None => Err(Unauthorized("Invalid token"))
      case Some(d) =>
        if d.sub.None? || d.sub.value == "" then Err(Unauthorized("Invalid token"))
        else
          match FindUser(users, d.sub.value)
          case None => Err(Unauthorized("Unauthorized"))
          case Some(i) =>
            if Stale(users[i], d) then Err(Unauthorized("Invalid token"))
            else Ok(AuthUser(users[i].id, users[i].role))
  }

  /** A token the application issued, presented as `Bearer <token>` to a
      verifier that accepts it, authenticates its user with the stored role,
      unless the password changed after the second it was issued. */
  lemma IssuedTokenAuthenticates(users: seq<User>, i: nat, now: Millis, token: string, verify: string -> Option<Decoded>)
    requires i < |users| && FindUser(users, users[i].id) == Some(i) && users[i].id != ""
    requires token != "" && verify(token) == Some(DecodedOf(Issue(users[i], now)))
    ensures var r := Authenticate(Some("Bearer " + token), verify, users);
            (r.Ok? <==> !Stale(users[i], DecodedOf(Issue(users[i], now))))
            && (r.Ok? ==> r.value == AuthUser(users[i].id, users[i].role))
  {
    var h := "Bearer " + token;
    assert h[..7] == "Bearer ";
    assert h[7..] == token;
  }

  /** The role a request runs with is the stored one: two tokens for the same
      user that claim different roles authenticate identically. */
  lemma RoleComesFromStore(header1: Option<string>, header2: Option<string>, verify: string -> Option<Decoded>, users: seq<User>)
    requires Authenticate(header1, verify, users).Ok? && Authenticate(header2, verify, users).Ok?
    requires verify(BearerToken(header1)).value.sub == verify(BearerToken(header2)).value.sub
    ensures Authenticate(header1, verify, users) == Authenticate(header2, verify, users)
  {
  }

  // ---------------------------------------------------------------------
  // Registration and login
  // ---------------------------------------------------------------------

  /** The session a successful registration or login returns. */
  datatype Session = Session(token: Claims, id: UserId, email: string, role: string)

  datatype Registered = Registered(users: seq<User>, session: Session)

  /** Why a create fails validation: the schema requires a non-empty address
      and a role from its list. */
  predicate CreateValid(email: string, role: Option<string>) {
    EmailKey(email) != "" && role.Some? && role.value in Roles
  }

  /** `POST /auth/register`. `hashed` is `bcrypt.hash(password, 10)`, `newId` the
      id the database assigns. */
  function Register(users: seq<User>, email: Option<JsonValue>, password: Option<JsonValue>, role: Option<JsonValue>,
                    hashed: string, newId: UserId, now: Millis): (r: Result<Registered, Failure>)
    ensures !Given(email) || !Given(password) || !Given(role) ==> r == Err(BadRequest("email, password, role are required"))
    ensures r.Err? ==> r.error == BadRequest("email, password, role are required") || r.error == Conflict("Email already in use")
                       || r.error == ServerError("Registration failed")
    ensures r.Ok? <==>
              && Given(email) && Given(password) && Given(role)
              && email.value.JString? && password.value.JString?
              && FindByEmail(users, email.value.s).None?
              && CreateValid(email.value.s, CastString(role.value))
    ensures Given(email) && Given(password) && Given(role) && email.value.JString? && FindByEmail(users, email.value.s).Some? ==>
              r == Err(Conflict("Email already in use"))
    ensures r.Ok? ==>
              var key := EmailKey(email.value.s);
              var u := NewUser(newId, key, hashed, CastString(role.value).value, now);
              && r.value.users == users + [u]
              && r.value.session == Session(Issue(u, now), newId, key, u.role)
  {
    if !Given(email) || !Given(password) || !Given(role) then Err(BadRequest("email, password, role are required"))
    else if !email.value.JString? then Err(ServerError("Registration failed"))
    else if FindByEmail(users, email.value.s).Some? then Err(Conflict("Email already in use"))
    else if !password.value.JString? then Err(ServerError("Registration failed"))
    else if !CreateValid(email.value.s, CastString(role.value)) then Err(ServerError("Registration failed"))
    else
      var key := EmailKey(email.value.s);
      var u := NewUser(newId, key, hashed, CastString(role.value).value, now);
      Ok(Registered(users + [u], Session(Issue(u, now), newId, key, u.role)))
  }

  /** Registration takes any role the schema lists, `admin` included. */
  lemma AnyListedRoleRegisters(users: seq<User>, email: string, role: string, hashed: string, newId: UserId, now: Millis)
    requires role in Roles && EmailKey(email) != "" && FindByEmail(users, email).None?
    ensures var r := Register(users, Some(JString(email)), Some(JString("x")), Some(JString(role)), hashed, newId, now);
            r.Ok? && r.value.session.role == role && r.value.session.token.role == role
  {
    assert |email| > 0;
    RolesAreNamed();
    assert Given(Some(JString(email))) && Given(Some(JString("x"))) && Given(Some(JString(role)));
    assert CastString(JString(role)) == Some(role);
  }

  /** Registration keeps addresses unique when the new account's address was
      looked up first, as it is. */
  lemma RegisterKeepsEmailsUnique(users: seq<User>, email: Option<JsonValue>, password: Option<JsonValue>, role: Option<JsonValue>,
                                  hashed: string, newId: UserId, now: Millis)
    requires UniqueEmails(users)
    requires Register(users, email, password, role, hashed, newId, now).Ok?
    ensures UniqueEmails(Register(users, email, password, role, hashed, newId, now).value.users)
  {
    var r := Register(users, email, password, role, hashed, newId, now).value.users;
    forall i, j | 0 <= i < j < |r| ensures r[i].email != r[j].email {
      if j == |users| {
        assert r[i] == users[i];
      }
    }
  }

  /** `POST /auth/login`. `matches` is `bcrypt.compare`. */
  function Login(users: seq<User>, email: Option<JsonValue>, password: Option<JsonValue>,
                 matches: (string, string) -> bool, now: Millis): (r: Result<Session, Failure>)
    ensures r.Err? ==> r.error == Unauthorized("Invalid credentials") || r.error == ServerError("Login failed")
    ensures r.Ok? <==>
              var e := if Given(email) then email.value else JString("");
              var p := if Given(password) then password.value else JString("");
              && e.JString? && p.JString?
              && FindByEmail(users, e.s).Some?
              && matches(p.s, users[FindByEmail(users, e.s).value].passwordHash)
    ensures r.Ok? ==>
              var u := users[FindByEmail(users, (if Given(email) then email.value else JString("")).s).value];
              r.value == Session(Issue(u, now), u.id, u.email, u.role)
  {
    var e := if Given(email) then email.value else JString("");
    var p := if Given(password) then password.value else JString("");
    if !e.JString? then Err(ServerError("Login failed"))
    else
      match FindByEmail(users, e.s)
      case None => Err(Unauthorized("Invalid credentials"))
      case Some(i) =>
        if !p.JString? then Err(ServerError("Login failed"))
        else if !matches(p.s, users[i].passwordHash) then Err(Unauthorized("Invalid credentials"))
        else
          var u := users[i];
          Ok(Session(Issue(u, now), u.id, u.email, u.role))
  }

  /** An unknown address and a wrong password give the same answer, so the
      response does not reveal which addresses have accounts. */
  lemma LoginDoesNotRevealAccounts(users: seq<User>, known: string, unknown: string, password: string,
                                   matches: (string, string) -> bool, now: Millis)
    requires FindByEmail(users, known).Some? && FindByEmail(users, unknown).None?
    requires !matches(password, users[FindByEmail(users, known).value].passwordHash)
    ensures Login(users, Some(JString(known)), Some(JString(password)), matches, now)
         == Login(users, Some(JString(unknown)), Some(JString(password)), matches, now)
    ensures Login(users, Some(JString(known)), Some(JString(password)), matches, now) == Err(Unauthorized("Invalid credentials"))
  {
    OrEmptyOfString(known);
    OrEmptyOfString(unknown);
    OrEmptyOfString(password);
  }

  /** `(s || '')` for a string `s` is `s`. */
  lemma OrEmptyOfString(s: string)
    ensures (if Given(Some(JString(s))) then JString(s) else JString("")) == JString(s)
  {
  }

  // ---------------------------------------------------------------------
  // Admin seeding at start-up
  // ---------------------------------------------------------------------

  /** `seedAdmin`: with both variables set and no account for the address,
      create one admin account; otherwise, and on any error, change nothing.
      It never fails: errors are logged and swallowed. */
  function SeedAdmin(users: seq<User>, email: Option<string>, password: Option<string>,
                     hashed: string, newId: UserId, now: Millis): (r: seq<User>)
    ensures email.None? || email.value == "" || password.None? || password.value == "" ==> r == users
    ensures email.Some? && FindByEmail(users, email.value).Some? ==> r == users
    ensures r != users <==>
              && email.Some? && email.value != "" && password.Some? && password.value != ""
              && FindByEmail(users, email.value).None?
              && EmailKey(email.value) != ""
    ensures r != users ==> r == users + [NewUser(newId, EmailKey(email.value), hashed, "admin", now)]
  {
    if email.None? || email.value == "" || password.None? || password.value == "" then users
    else if FindByEmail(users, email.value).Some? then users
    else if EmailKey(email.value) == "" then users
    else users + [NewUser(newId, EmailKey(email.value), hashed, "admin", now)]
  }

  /** Seeding twice is seeding once, whatever hash and id the second run draws. */
  lemma SeedAdminIdempotent(users: seq<User>, email: Option<string>, password: Option<string>,
                            hashed: string, newId: UserId, now: Millis, hashed2: string, newId2: UserId, later: Millis)
    ensures var once := SeedAdmin(users, email, password, hashed, newId, now);
            SeedAdmin(once, email, password, hashed2, newId2, later) == once
  {
    var once := SeedAdmin(users, email, password, hashed, newId, now);
    if once != users {
      EmailKeyIdempotent(email.value);
      assert once[|users|].email == EmailKey(email.value);
    }
  }
}

=== FILE: coaches.dfy ===
/** Coach profiles: the whitelisted upsert, and the sweep that links a JUCO
    coach to every player whose normalized school is the coach's program. */
module Coaches {
  import opened Wrappers
  import opened Json
  import opened Profiles
  import opened Updates
  import Normalize
  import Collection

  /** The fields of a coach profile the modelled operations read or write.
      `coachType` is `JUCO` or `NCAA` once saved. */
  datatype CoachProfile = CoachProfile(
    id: string,
    user: UserId,
    coachType: string,
    programName: Option<string>,
    programNameNormalized: Option<string>)

  /** The body fields `POST /coaches` copies verbatim. */
  const CoachDirectFields: set<string> := {
    "coachType", "firstName", "lastName", "phone", "website", "roleTitle",
    "programName", "programCity", "programState", "bio", "recruitingBudgetRange",
    "minGpa", "otherCriteria", "jucoRole", "jucoProgram", "jucoLeague", "jucoCity",
    "jucoState", "jucoPhone", "jucoEmail", "jucoExperience", "hasCertification",
    "verifyNote", "acceptAccuracy", "acceptLegal", "uniProgram", "division",
    "conference", "position", "uniAddress", "uniPhone"}

  /** `normalized || undefined`: an empty key is written as `undefined`. */
  function NormalizedWrite(v: JsonValue): (w: Write)
    ensures w.Undefined? <==> Normalize.NormalizeInstitutionName(Some(v)) == ""
    ensures w.Set? ==> w.v == JString(Normalize.NormalizeInstitutionName(Some(v)))
  {
    var n := Normalize.NormalizeInstitutionName(Some(v));
    if n == "" then Undefined else Set(JString(n))
  }

  /** The `$set` document of `POST /coaches`. */
  function BuildCoachUpdate(body: map<string, JsonValue>): (u: Update)
    ensures forall f :: f in CoachDirectFields ==> (f in u <==> f in body)
    ensures forall f :: f in CoachDirectFields && f in body ==> u[f] == Set(body[f])
    ensures ("priorityPositions" in u <==> "priorityPositions" in body)
    ensures "priorityPositions" in body ==> u["priorityPositions"] == TruthyArray(body["priorityPositions"])
    ensures ("programNameNormalized" in u <==> "programName" in body)
    ensures "programName" in body ==> u["programNameNormalized"] == NormalizedWrite(body["programName"])
    ensures forall k :: k in u ==> k in CoachDirectFields || k == "priorityPositions" || k == "programNameNormalized"
    ensures "user" !in u
  {
    DerivedKeysAreNotDirect();
    var u1 := WithPositions(body);
    if "programName" in body then Put(u1, "programNameNormalized", NormalizedWrite(body["programName"])) else u1
  }

  /** The copied fields and the cleaned position list. */
  function WithPositions(body: map<string, JsonValue>): (u: Update)
    ensures forall f :: f in CoachDirectFields ==> (f in u <==> f in body)
    ensures forall f :: f in CoachDirectFields && f in body ==> u[f] == Set(body[f])
    ensures ("priorityPositions" in u <==> "priorityPositions" in body)
    ensures "priorityPositions" in body ==> u["priorityPositions"] == TruthyArray(body["priorityPositions"])
    ensures forall k :: k in u ==> k in CoachDirectFields || k == "priorityPositions"
  {
    DerivedKeysAreNotDirect();
    var direct := CopyPresent(body, CoachDirectFields);
    if "priorityPositions" in body then Put(direct, "priorityPositions", TruthyArray(body["priorityPositions"])) else direct
  }

  lemma DerivedKeysAreNotDirect()
    ensures "priorityPositions" !in CoachDirectFields
    ensures "programNameNormalized" !in CoachDirectFields
    ensures "user" !in CoachDirectFields
  {
  }

  /** `CoachProfile.findOne({ user })`: the first profile owned by `user`. */
  function ProfileOf(coaches: seq<CoachProfile>, user: UserId): (r: Option<nat>)
    ensures r.Some? ==> r.value < |coaches| && coaches[r.value].user == user
    ensures r.Some? ==> forall j :: 0 <= j < r.value ==> coaches[j].user != user
    ensures r.None? <==> forall j :: 0 <= j < |coaches| ==> coaches[j].user != user
  {
    Collection.FindFirst(coaches, (c: CoachProfile) => c.user == user)
  }

  /** `!x` for an optional string path. */
  predicate Blank(s: Option<string>) {
    s.None? || s.value == ""
  }

  /** The program key a coach is linked under: the stored key, or the normalized
      program name when no key is stored. */
  function ProgramKey(c: CoachProfile): (k: string)
    ensures !Blank(c.programNameNormalized) ==> k == c.programNameNormalized.value
    ensures Blank(c.programNameNormalized) ==> Normalize.IsNormalized(k)
  {
    if !Blank(c.programNameNormalized) then c.programNameNormalized.value
    else if c.programName.Some? then Normalize.NormalizeInstitutionName(Some(JString(c.programName.value)))
    else ""
  }

  /** The first pass: every player at the program gets this coach. */
  function Claim(p: PlayerProfile, key: string, coach: UserId): PlayerProfile {
    if p.schoolNormalized == Some(key) then p.(jucoCoach := Some(coach)) else p
  }

  /** The second pass: this coach's players elsewhere lose the coach and the note. */
  function Release(p: PlayerProfile, key: string, coach: UserId): PlayerProfile {
    if p.jucoCoach == Some(coach) && p.schoolNormalized != Some(key) then
      p.(jucoCoach := None, jucoCoachNote := None, jucoCoachNoteUpdatedAt := None)
    else p
  }

  datatype Linked = Linked(coach: CoachProfile, players: seq<PlayerProfile>)

  /** `linkPlayersToJucoCoach`: nothing for a non-JUCO coach or one without a
      program key; otherwise the key is saved when it had to be derived, and the
      two `updateMany` passes run over the players. */
  function LinkPlayersToJucoCoach(c: CoachProfile, players: seq<PlayerProfile>): (r: Linked)
    ensures |r.players| == |players|
    ensures c.coachType != "JUCO" ==> r == Linked(c, players)
    ensures c.coachType == "JUCO" && ProgramKey(c) == "" ==> r.players == players
    ensures r.coach == c.(programNameNormalized := r.coach.programNameNormalized)
    ensures c.coachType == "JUCO" && ProgramKey(c) != "" ==>
              var key := ProgramKey(c);
              && r.coach.programNameNormalized == Some(key)
              && forall i :: 0 <= i < |players| ==>
                   var p := players[i];
                   var q := r.players[i];
                   && (p.schoolNormalized == Some(key) ==> q == p.(jucoCoach := Some(c.user)))
                   && (p.schoolNormalized != Some(key) && p.jucoCoach == Some(c.user) ==>
                         q == p.(jucoCoach := None, jucoCoachNote := None, jucoCoachNoteUpdatedAt := None))
                   && (p.schoolNormalized != Some(key) && p.jucoCoach != Some(c.user) ==> q == p)
  {
    if c.coachType != "JUCO" then Linked(c, players)
    else
      var key := ProgramKey(c);
      if key == "" then Linked(c, players)
      else
        var c' := c.(programNameNormalized := Some(key));
        var claimed := seq(|players|, i requires 0 <= i < |players| => Claim(players[i], key, c.user));
        var released := seq(|players|, i requires 0 <= i < |players| => Release(claimed[i], key, c.user));
        Linked(c', released)
  }

  /** After a link, the coach's players are exactly the players at the program. */
  lemma LinkedPlayersAreTheProgram(c: CoachProfile, players: seq<PlayerProfile>, i: nat)
    requires c.coachType == "JUCO" && ProgramKey(c) != "" && i < |players|
    ensures var q := LinkPlayersToJucoCoach(c, players).players[i];
            q.jucoCoach == Some(c.user) <==> q.schoolNormalized == Some(ProgramKey(c))
  {
  }

  /** Linking twice is linking once. */
  lemma LinkIdempotent(c: CoachProfile, players: seq<PlayerProfile>)
    ensures var r := LinkPlayersToJucoCoach(c, players);
            LinkPlayersToJucoCoach(r.coach, r.players) == r
  {
    var r := LinkPlayersToJucoCoach(c, players);
    if c.coachType == "JUCO" && ProgramKey(c) != "" {
      assert ProgramKey(r.coach) == ProgramKey(c);
      var r2 := LinkPlayersToJucoCoach(r.coach, r.players);
      assert r2.players == r.players;
    }
  }
}

=== FILE: codes.dfy ===
/** One-time codes: generation, the stored record, and validation. */
module Codes {
  import opened Wrappers
  import opened Dates
  import opened Digest
  import JsNumber


  const CodeLength: nat := 6
  /** Ten minutes. */
  const CodeTtlMs: nat := 10 * 60 * 1000

  /** Results of `crypto.randomInt(0, 10)`, one per digit. The draws are the
      model's stand-in for the random source. */
  predicate ValidDraws(draws: seq<int>) {
    forall i :: 0 <= i < |draws| ==> 0 <= draws[i] < 10
  }

  /** `generateNumericCode(length)`: one decimal digit per draw. */
  function GenerateNumericCode(length: nat, draws: seq<int>): (code: string)
    requires |draws| == length && ValidDraws(draws)
    ensures |code| == length
    ensures forall i :: 0 <= i < length ==> JsNumber.IsDigit(code[i]) && JsNumber.DigitValue(code[i]) == draws[i]
  {
    seq(length, i requires 0 <= i < length => JsNumber.DigitChar(draws[i]))
  }

  /** The code the verification routes send: the default length of six digits. */
  function GenerateCode(draws: seq<int>): (code: string)
    requires |draws| == CodeLength && ValidDraws(draws)
    ensures |code| == 6
    ensures forall i :: 0 <= i < |code| ==> JsNumber.IsDigit(code[i])
  {
    GenerateNumericCode(CodeLength, draws)
  }

  /** Every digit string of the requested length can be drawn, so no code
      (leading zeros included) is excluded. */
  lemma EveryDigitStringIsGenerated(code: string)
    requires forall i :: 0 <= i < |code| ==> JsNumber.IsDigit(code[i])
    ensures var draws := seq(|code|, i requires 0 <= i < |code| => JsNumber.DigitValue(code[i]) as int);
            ValidDraws(draws) && GenerateNumericCode(|code|, draws) == code
  {
    var draws := seq(|code|, i requires 0 <= i < |code| => JsNumber.DigitValue(code[i]) as int);
    var g := GenerateNumericCode(|code|, draws);
    forall i | 0 <= i < |code| ensures g[i] == code[i] {
      assert JsNumber.DigitValue(g[i]) == JsNumber.DigitValue(code[i]);
    }
  }

  /** `hashCode(code)`: the SHA-256 of the code's string form. */
  function HashCode(code: string): Digest {
    Hash(code)
  }

  /** What `buildCodeRecord` returns; every field is set. */
  datatype CodeRecord = CodeRecord(codeHash: Digest, expiresAt: Millis, lastSentAt: Millis)

  /** `buildCodeRecord(code)` at time `now`. */
  function BuildCodeRecord(code: string, now: Millis): (r: CodeRecord)
    ensures r.codeHash == HashCode(code)
    ensures r.expiresAt == now + 600000
    ensures r.lastSentAt == now
  {
    CodeRecord(HashCode(code), now + CodeTtlMs, now)
  }

  /** `isCodeValid(record, code)` at time `now`, given the record's stored hash
      and expiry (each missing when the record or the field is). */
  function IsCodeValid(codeHash: Option<Digest>, expiresAt: Option<Millis>, code: string, now: Millis): (ok: bool)
    ensures codeHash.None? || expiresAt.None? ==> !ok
    ensures expiresAt.Some? && expiresAt.value < now ==> !ok
    ensures codeHash.Some? && expiresAt.Some? && now <= expiresAt.value ==> (ok <==> HashCode(code) == codeHash.value)
  {
    if codeHash.None? || expiresAt.None? then false
    else if expiresAt.value < now then false
    else HashCode(code) == codeHash.value
  }

  /** A record built at `issuedAt` accepts its own code until the expiry
      instant, inclusive. */
  lemma CodeAcceptedUntilExpiry(code: string, issuedAt: Millis, now: Millis)
    requires issuedAt <= now <= issuedAt + CodeTtlMs
    ensures var r := BuildCodeRecord(code, issuedAt);
            IsCodeValid(Some(r.codeHash), Some(r.expiresAt), code, now)
  {
  }

  /** The same record refuses its own code one millisecond after expiry. */
  lemma CodeRefusedAfterExpiry(code: string, issuedAt: Millis, now: Millis)
    requires now > issuedAt + CodeTtlMs
    ensures var r := BuildCodeRecord(code, issuedAt);
            !IsCodeValid(Some(r.codeHash), Some(r.expiresAt), code, now)
  {
  }

  /** Any other code is refused, whatever the time. */
  lemma OtherCodeRefused(code: string, other: string, issuedAt: Millis, now: Millis)
    requires other != code
    ensures var r := BuildCodeRecord(code, issuedAt);
            !IsCodeValid(Some(r.codeHash), Some(r.expiresAt), other, now)
  {
  }
}

=== FILE: collection.dfy ===
/** A document collection is a sequence of documents in the store's natural
    order. These are the query primitives the handlers use: `findOne` (first
    match), `.sort({ key: -1 })`, and `.skip(n).limit(m)`. */
module Collection {
  import opened Wrappers

  /** `findOne(filter)`: the position of the first document matching `p`. */
  function FindFirst<T>(s: seq<T>, p: T -> bool): (r: Option<nat>)
    ensures r.Some? ==> r.value < |s| && p(s[r.value])
    ensures r.Some? ==> forall j :: 0 <= j < r.value ==> !p(s[j])
    ensures r.None? <==> forall j :: 0 <= j < |s| ==> !p(s[j])
  {
    if |s| == 0 then None
    else if p(s[0]) then Some(0)
    else
      var rest := FindFirst(s[1..], p);
      assert forall j :: 1 <= j < |s| ==> s[j] == s[1..][j - 1];
      if rest.Some? then Some(rest.value + 1) else None
  }

  /** `find(filter)`: every matching document, in store order. */
  function Filter<T>(s: seq<T>, p: T -> bool): (r: seq<T>)
    ensures |r| <= |s|
    ensures forall x :: x in r ==> x in s && p(x)
    ensures forall x :: x in s && p(x) ==> x in r
    ensures multiset(r) <= multiset(s)
    ensures forall x :: x in s ==> multiset(r)[x] == (if p(x) then multiset(s)[x] else 0)
  {
    if |s| == 0 then []
    else
      assert s == [s[0]] + s[1..];
      assert multiset(s) == multiset{s[0]} + multiset(s[1..]);
      (if p(s[0]) then [s[0]] else []) + Filter(s[1..], p)
  }

  /** A filter every element passes is the identity. */
  lemma {:induction false} FilterAll<T>(s: seq<T>, p: T -> bool)
    requires forall k :: 0 <= k < |s| ==> p(s[k])
    ensures Filter(s, p) == s
  {
    if |s| > 0 {
      assert p(s[0]);
      FilterAll(s[1..], p);
      assert Filter(s, p) == [s[0]] + Filter(s[1..], p);
      assert s == [s[0]] + s[1..];
    }
  }

  /** Newest first: `key` never increases along the sequence. */
  predicate SortedDesc<T>(s: seq<T>, key: T -> int) {
    forall i, j :: 0 <= i < j < |s| ==> key(s[i]) >= key(s[j])
  }

  /** Places `x` in front of the first element whose key does not exceed its own. */
  function Insert<T>(x: T, s: seq<T>, key: T -> int): (r: seq<T>)
    requires SortedDesc(s, key)
    ensures SortedDesc(r, key)
    ensures multiset(r) == multiset(s) + multiset{x}
  {
    if |s| == 0 then [x]
    else if key(x) >= key(s[0]) then
      ConsSorted(x, s, key);
      [x] + s
    else
      var tail := Insert(x, s[1..], key);
      assert s == [s[0]] + s[1..];
      forall y | y in tail ensures key(y) <= key(s[0]) {
        assert y in multiset(tail);
        if y != x {
          assert y in multiset(s[1..]);
          var k :| 0 <= k < |s[1..]| && s[1..][k] == y;
          assert s[k + 1] == y;
        }
      }
      ConsSorted(s[0], tail, key);
      [s[0]] + tail
  }

  lemma ConsSorted<T>(h: T, t: seq<T>, key: T -> int)
    requires SortedDesc(t, key)
    requires forall y :: y in t ==> key(y) <= key(h)
    ensures SortedDesc([h] + t, key)
  {
    var r := [h] + t;
    forall i, j | 0 <= i < j < |r| ensures key(r[i]) >= key(r[j]) {
      assert r[j] == t[j - 1];
      if i > 0 {
        assert r[i] == t[i - 1];
      }
    }
  }

  /** The stable descending sort of `Array.prototype.sort((a, b) => key(b) - key(a))`.
      It also stands for `.sort({ key: -1 })`, whose order among equal keys
      the store leaves unspecified: there the model picks this one. */
  function SortDesc<T>(s: seq<T>, key: T -> int): (r: seq<T>)
    ensures SortedDesc(r, key)
    ensures multiset(r) == multiset(s)
    ensures |r| == |s|
  {
    if |s| == 0 then []
    else
      assert s == [s[0]] + s[1..];
      Insert(s[0], SortDesc(s[1..], key), key)
  }

  /** Sorting neither adds nor drops documents. */
  lemma SortKeepsMembers<T>(s: seq<T>, key: T -> int, x: T)
    ensures x in SortDesc(s, key) <==> x in s
  {
    var r := SortDesc(s, key);
    assert x in r <==> x in multiset(r);
    assert x in s <==> x in multiset(s);
  }

  /** `.skip(skip).limit(limit)`. */
  function Window<T>(s: seq<T>, skip: nat, limit: nat): (r: seq<T>)
    ensures |r| <= limit
    ensures skip >= |s| ==> r == []
    ensures skip < |s| ==> |r| == if skip + limit <= |s| then limit else |s| - skip
    ensures skip < |s| ==> r == s[skip..skip + |r|]
  {
    if skip >= |s| then []
    else if skip + limit <= |s| then s[skip..skip + limit]
    else s[skip..]
  }

  /** A window of a sorted sequence is sorted and draws only from it. */
  lemma WindowOfSorted<T>(s: seq<T>, skip: nat, limit: nat, key: T -> int)
    requires SortedDesc(s, key)
    ensures SortedDesc(Window(s, skip, limit), key)
    ensures forall x :: x in Window(s, skip, limit) ==> x in s
  {
    var w := Window(s, skip, limit);
    if skip < |s| {
      forall x | x in w ensures x in s {
        var k :| 0 <= k < |w| && w[k] == x;
        assert s[skip + k] == x;
      }
    }
  }

  /** Position `k` falls in the window that starts at `skip`. */
  lemma InWindow<T>(s: seq<T>, skip: nat, limit: nat, k: nat)
    requires skip <= k < skip + limit && k < |s|
    ensures s[k] in Window(s, skip, limit)
  {
    var w := Window(s, skip, limit);
    assert w[k - skip] == s[k];
  }

  /** Replaces the document at position `i` and nothing else. */
  function ReplaceAt<T>(s: seq<T>, i: nat, x: T): (r: seq<T>)
    requires i < |s|
    ensures |r| == |s| && r[i] == x
    ensures forall j :: 0 <= j < |s| && j != i ==> r[j] == s[j]
  {
    s[i := x]
  }

  /** Removes the document at position `i`, keeping the others in order. */
  function RemoveAt<T>(s: seq<T>, i: nat): (r: seq<T>)
    requires i < |s|
    ensures |r| == |s| - 1
    ensures forall j :: 0 <= j < i ==> r[j] == s[j]
    ensures forall j :: i <= j < |r| ==> r[j] == s[j + 1]
    ensures forall x :: x in r ==> x in s
    ensures forall j :: 0 <= j < |s| && j != i ==> s[j] in r
  {
    var r := s[..i] + s[i + 1..];
    forall x | x in r ensures x in s {
      var k :| 0 <= k < |r| && r[k] == x;
      if k < i {
        assert s[k] == x;
      } else {
        assert s[k + 1] == x;
      }
    }
    forall j | 0 <= j < |s| && j != i ensures s[j] in r {
      if j < i {
        assert r[j] == s[j];
      } else {
        assert r[j - 1] == s[j];
      }
    }
    r
  }
}

=== FILE: cooldown.dfy ===
/** The per-channel resend cooldown of the verification routes. */
module Cooldown {
  import opened Wrappers
  import opened Dates
  import JsNumber


  /** One minute between email codes, and, tracked separately, between SMS codes. */
  const EmailRateLimitMs: nat := 60 * 1000
  const PhoneRateLimitMs: nat := 60 * 1000

  datatype Decision = Allowed | Wait(retryAfter: int)

  /** Refuses while fewer than `windowMs` milliseconds have passed since the last
      send; `retryAfter` is the rest of the window in whole seconds, rounded up. */
  function Check(lastSentAt: Option<Millis>, now: Millis, windowMs: nat): (d: Decision)
    requires windowMs > 0
    ensures d.Allowed? <==> lastSentAt.None? || now - lastSentAt.value >= windowMs
    ensures d.Wait? ==> (d.retryAfter - 1) * 1000 < windowMs - (now - lastSentAt.value) <= d.retryAfter * 1000
  {
    if lastSentAt.Some? && now - lastSentAt.value < windowMs then
      Wait(JsNumber.CeilDiv(windowMs - (now - lastSentAt.value), 1000))
    else
      Allowed
  }

  /** With the one-minute window and a last send in the past, the hint is
      between 1 and 60 seconds. */
  lemma RetryAfterWithinMinute(lastSentAt: Millis, now: Millis)
    requires lastSentAt <= now < lastSentAt + 60000
    ensures Check(Some(lastSentAt), now, EmailRateLimitMs).Wait?
    ensures 1 <= Check(Some(lastSentAt), now, EmailRateLimitMs).retryAfter <= 60
  {
  }

  /** The hint is exact: waiting `retryAfter` seconds is enough, and waiting one
      second less is not. */
  lemma RetryAfterIsTight(lastSentAt: Millis, now: Millis, windowMs: nat)
    requires windowMs > 0
    requires Check(Some(lastSentAt), now, windowMs).Wait?
    ensures var k := Check(Some(lastSentAt), now, windowMs).retryAfter;
            && k >= 1
            && Check(Some(lastSentAt), now + k * 1000, windowMs).Allowed?
            && (k >= 2 ==> Check(Some(lastSentAt), now + (k - 1) * 1000, windowMs).Wait?)
  {
  }
}

=== FILE: dates.dfy ===
/** JavaScript `Date` values as milliseconds since the epoch. */
module Dates {
  import opened Wrappers

  /** A time as the handlers and scripts compare it: milliseconds since the epoch. */
  type Millis = nat

  /** A `Date` holds at most 8.64e15 ms either side of the epoch. */
  const MaxDate: int := 8640000000000000

  type Instant = t: int | -MaxDate <= t <= MaxDate

  /** `new Date(ms)`: `None` is an invalid date, which no `Date` path of a
      schema accepts. */
  function FromMillis(ms: int): (r: Option<Instant>)
    ensures r.Some? <==> -MaxDate <= ms <= MaxDate
    ensures r.Some? ==> r.value == ms
  {
    if -MaxDate <= ms <= MaxDate then Some(ms) else None
  }
}

=== FILE: digest.dfy ===
/** SHA-256 hex digests, used for one-time codes and admin-invite tokens.
    The digest is kept symbolic: it remembers its pre-image, which makes it
    injective by construction. That is the collision-resistance assumption
    the code relies on, and nothing more about SHA-256 is modelled. */
module Digest {

  datatype Digest = Sha256Hex(preimage: string)

  function Hash(s: string): (d: Digest)
    ensures d.preimage == s
  {
    Sha256Hex(s)
  }
}

=== FILE: effects.dfy ===
/** Side effects a handler triggers after it has committed its state change.
    Delivery is fire-and-forget in the source: a failed delivery is caught,
    logged and never undoes the state change, so the model only records which
    deliveries were attempted and in what order. */
module Effects {
  import opened Json
  import opened Dates

  /** A value of an audit entry's `details` object: a JSON value from the
      request, or a date. */
  datatype DetailValue = Value(v: JsonValue) | At(t: Instant)

  datatype Effect =
    | VerificationCodeEmail(to: string, code: string)
    | NotifyUser(user: string, subject: string, message: string)
    | AuditLog(actor: string, action: string, entityType: string, entityId: string, details: map<string, DetailValue>)
    | SummaryEmail(to: string, subject: string, count: nat)
}

=== FILE: favorites.dfy ===
/** A recruiter's saved players: one favorite per (coach, player) pair, with a
    free-text note and tags. Every operation acts only on the caller's own
    favorites. */
module Favorites {
  import opened Wrappers
  import opened Dates
  import opened Json
  import opened Http
  import opened Profiles
  import Text
  import Collection

  datatype Favorite = Favorite(
    id: string,
    coach: UserId,
    player: ProfileId,
    note: Option<string>,
    tags: seq<string>,
    createdAt: Millis,
    updatedAt: Millis)

  /** The unique index on (coach, player). */
  predicate UniquePairs(favs: seq<Favorite>) {
    forall i, j :: 0 <= i < j < |favs| ==> !(favs[i].coach == favs[j].coach && favs[i].player == favs[j].player)
  }

  /** The `$set` a request asks for: `note` when the body has one (`null`
      clears it), `tags` when the body has an array. */
  datatype Changes = Changes(note: Option<Option<string>>, tags: Option<seq<string>>)

  /** A tag or note as the schema stores it: cast to a string and trimmed. */
  function StoredText(v: JsonValue): (r: Option<string>)
    ensures r.Some? <==> CastString(v).Some?
    ensures r.Some? ==> r.value == Text.Trim(CastString(v).value)
  {
    match CastString(v)
    case Some(s) => Some(Text.Trim(s))
    case None => None
  }

  /** Casts every item; `None` when one of them cannot be cast. */
  function StoredTags(items: seq<JsonValue>): (r: Option<seq<string>>)
    ensures r.Some? <==> forall i :: 0 <= i < |items| ==> StoredText(items[i]).Some?
    ensures r.Some? ==> |r.value| == |items| && forall i :: 0 <= i < |items| ==> r.value[i] == StoredText(items[i]).value
  {
    if |items| == 0 then Some([])
    else
      match (StoredText(items[0]), StoredTags(items[1..]))
      case (Some(t), Some(ts)) => Some([t] + ts)
      case _ => None
  }

  /** `if (note !== undefined) update.note = note` and
      `if (Array.isArray(tags)) update.tags = tags.filter(Boolean)`, followed by
      the schema's casts; `None` when a cast fails (the query throws). */
  function BuildChanges(note: Option<JsonValue>, tags: Option<JsonValue>): (r: Option<Changes>)
    ensures r.Some? ==> (r.value.note.None? <==> note.None?)
    ensures r.Some? && note.Some? ==> r.value.note.value == (if note.value.JNull? then None else StoredText(note.value))
    ensures r.Some? ==> (r.value.tags.Some? <==> tags.Some? && tags.value.JArray?)
    ensures r.Some? && r.value.tags.Some? ==> r.value.tags == StoredTags(FilterTruthy(tags.value.items))
    ensures r.None? <==>
              || (note.Some? && !note.value.JNull? && StoredText(note.value).None?)
              || (tags.Some? && tags.value.JArray? && StoredTags(FilterTruthy(tags.value.items)).None?)
  {
    var n: Option<Option<Option<string>>> :=
      if note.None? then Some(None)
      else if note.value.JNull? then Some(Some(None))
      else if StoredText(note.value).Some? then Some(Some(StoredText(note.value)))
      else None;
    var t: Option<Option<seq<string>>> :=
      if tags.None? || !tags.value.JArray? then Some(None)
      else if StoredTags(FilterTruthy(tags.value.items)).Some? then Some(StoredTags(FilterTruthy(tags.value.items)))
      else None;
    if n.None? || t.None? then None else Some(Changes(n.value, t.value))
  }

  /** Applies the changes; the timestamps plugin stamps `updatedAt`. */
  function Apply(f: Favorite, c: Changes, now: Millis): (g: Favorite)
    ensures g.id == f.id && g.coach == f.coach && g.player == f.player && g.createdAt == f.createdAt
    ensures g.updatedAt == now
    ensures g.note == (if c.note.Some? then c.note.value else f.note)
    ensures g.tags == (if c.tags.Some? then c.tags.value else f.tags)
  {
    f.(note := if c.note.Some? then c.note.value else f.note,
       tags := if c.tags.Some? then c.tags.value else f.tags,
       updatedAt := now)
  }

  /** The response shape: `note || ''`, the tags, the timestamps and the player. */
  datatype FavoriteView = FavoriteView(id: string, note: string, tags: seq<string>, createdAt: Millis, updatedAt: Millis, player: ProfileId)

  function View(f: Favorite): (v: FavoriteView)
    ensures v.note == (if f.note.Some? then f.note.value else "")
    ensures v.id == f.id && v.player == f.player && v.tags == f.tags
  {
    FavoriteView(f.id, if f.note.Some? then f.note.value else "", f.tags, f.createdAt, f.updatedAt, f.player)
  }

  /** The caller's favorite for a player. */
  function FindPair(favs: seq<Favorite>, coach: UserId, player: ProfileId): (r: Option<nat>)
    ensures r.Some? ==> r.value < |favs| && favs[r.value].coach == coach && favs[r.value].player == player
    ensures r.None? <==> forall j :: 0 <= j < |favs| ==> !(favs[j].coach == coach && favs[j].player == player)
  {
    Collection.FindFirst(favs, (f: Favorite) => f.coach == coach && f.player == player)
  }

  datatype Saved = Saved(favs: seq<Favorite>, view: FavoriteView)

  /** `POST /favorites`: an upsert keyed on (caller, player). */
  function Add(favs: seq<Favorite>, players: seq<PlayerProfile>, coach: UserId, playerId: Option<string>,
               note: Option<JsonValue>, tags: Option<JsonValue>, newId: string, now: Millis): (r: Result<Saved, Failure>)
    ensures playerId.None? || playerId.value == "" ==> r == Err(BadRequest("playerId is required"))
    ensures playerId.Some? && playerId.value != "" && FindById(players, playerId.value).None? ==> r == Err(NotFound("Player not found"))
    ensures r.Ok? <==> playerId.Some? && playerId.value != "" && FindById(players, playerId.value).Some? && BuildChanges(note, tags).Some?
    ensures r.Ok? ==>
              var pid := playerId.value;
              var c := BuildChanges(note, tags).value;
              match FindPair(favs, coach, pid)
              case Some(i) => r.value.favs == favs[i := Apply(favs[i], c, now)] && r.value.view == View(r.value.favs[i])
              case None =>
                && r.value.favs == favs + [Apply(Favorite(newId, coach, pid, None, [], now, now), c, now)]
                && r.value.view == View(r.value.favs[|favs|])
  {
    if playerId.None? || playerId.value == "" then Err(BadRequest("playerId is required"))
    else if FindById(players, playerId.value).None? then Err(NotFound("Player not found"))
    else
      match BuildChanges(note, tags)
      case None => Err(ServerError("Failed to save favorite"))
      case Some(c) =>
        var pid := playerId.value;
        match FindPair(favs, coach, pid)
        case Some(i) =>
          var g := Apply(favs[i], c, now);
          Ok(Saved(favs[i := g], View(g)))
        case None =>
          var g := Apply(Favorite(newId, coach, pid, None, [], now, now), c, now);
          Ok(Saved(favs + [g], View(g)))
  }

  /** Adding keeps one favorite per pair, and afterwards the caller has exactly
      one favorite for that player. */
  lemma AddKeepsPairsUnique(favs: seq<Favorite>, players: seq<PlayerProfile>, coach: UserId, playerId: Option<string>,
                            note: Option<JsonValue>, tags: Option<JsonValue>, newId: string, now: Millis)
    requires UniquePairs(favs)
    requires Add(favs, players, coach, playerId, note, tags, newId, now).Ok?
    ensures var r := Add(favs, players, coach, playerId, note, tags, newId, now).value.favs;
            && UniquePairs(r)
            && FindPair(r, coach, playerId.value).Some?
            && |r| == |favs| + (if FindPair(favs, coach, playerId.value).Some? then 0 else 1)
  {
    var r := Add(favs, players, coach, playerId, note, tags, newId, now).value.favs;
    var pid := playerId.value;
    match FindPair(favs, coach, pid)
    case Some(i) =>
      forall a, b | 0 <= a < b < |r| ensures !(r[a].coach == r[b].coach && r[a].player == r[b].player) {
        assert r[a].coach == favs[a].coach && r[a].player == favs[a].player;
        assert r[b].coach == favs[b].coach && r[b].player == favs[b].player;
      }
      assert r[i].coach == coach && r[i].player == pid;
    case None =>
      forall a, b | 0 <= a < b < |r| ensures !(r[a].coach == r[b].coach && r[a].player == r[b].player) {
        assert r[a] == favs[a];
        if b < |favs| {
          assert r[b] == favs[b];
        }
      }
      assert r[|favs|].coach == coach && r[|favs|].player == pid;
  }

  /** A second add for the same pair adds no document. */
  lemma RepeatedAddDoesNotDuplicate(favs: seq<Favorite>, players: seq<PlayerProfile>, coach: UserId, playerId: Option<string>,
                                    note: Option<JsonValue>, tags: Option<JsonValue>, newId: string, now: Millis,
                                    note2: Option<JsonValue>, tags2: Option<JsonValue>, newId2: string, later: Millis)
    requires UniquePairs(favs)
    requires Add(favs, players, coach, playerId, note, tags, newId, now).Ok?
    requires Add(Add(favs, players, coach, playerId, note, tags, newId, now).value.favs, players, coach, playerId, note2, tags2, newId2, later).Ok?
    ensures var once := Add(favs, players, coach, playerId, note, tags, newId, now).value.favs;
            |Add(once, players, coach, playerId, note2, tags2, newId2, later).value.favs| == |once|
  {
    AddKeepsPairsUnique(favs, players, coach, playerId, note, tags, newId, now);
  }

  /** `PATCH /favorites/:id`: only the caller's favorite with that id. The cast
      of the update happens before the lookup, so a bad value is a 500 even for
      an unknown id. */
  function Patch(favs: seq<Favorite>, coach: UserId, id: string, note: Option<JsonValue>, tags: Option<JsonValue>, now: Millis): (r: Result<Saved, Failure>)
    ensures BuildChanges(note, tags).None? ==> r == Err(ServerError("Failed to update favorite"))
    ensures BuildChanges(note, tags).Some? ==>
              var hit := Collection.FindFirst(favs, (f: Favorite) => f.id == id && f.coach == coach);
              && (hit.None? ==> r == Err(NotFound("Favorite not found")))
              && (hit.Some? ==>
                    && r.Ok?
                    && favs[hit.value].id == id && favs[hit.value].coach == coach
                    && r.value.favs == favs[hit.value := Apply(favs[hit.value], BuildChanges(note, tags).value, now)]
                    && r.value.view == View(r.value.favs[hit.value]))
    ensures r.Ok? ==> |r.value.favs| == |favs| && forall j :: 0 <= j < |favs| && favs[j].coach != coach ==> r.value.favs[j] == favs[j]
  {
    match BuildChanges(note, tags)
    case None => Err(ServerError("Failed to update favorite"))
    case Some(c) =>
      match Collection.FindFirst(favs, (f: Favorite) => f.id == id && f.coach == coach)
      case None => Err(NotFound("Favorite not found"))
      case Some(i) =>
        var g := Apply(favs[i], c, now);
        Ok(Saved(favs[i := g], View(g)))
  }

  /** Patching changes no pair, so the index stays satisfied. */
  lemma PatchKeepsPairsUnique(favs: seq<Favorite>, coach: UserId, id: string, note: Option<JsonValue>, tags: Option<JsonValue>, now: Millis)
    requires UniquePairs(favs)
    requires Patch(favs, coach, id, note, tags, now).Ok?
    ensures UniquePairs(Patch(favs, coach, id, note, tags, now).value.favs)
  {
    var r := Patch(favs, coach, id, note, tags, now).value.favs;
    forall a, b | 0 <= a < b < |r| ensures !(r[a].coach == r[b].coach && r[a].player == r[b].player) {
      assert r[a].coach == favs[a].coach && r[a].player == favs[a].player;
      assert r[b].coach == favs[b].coach && r[b].player == favs[b].player;
    }
  }

  /** `DELETE /favorites/:playerId`: removes the caller's favorite for the player. */
  function Delete(favs: seq<Favorite>, coach: UserId, playerId: ProfileId): (r: Result<seq<Favorite>, Failure>)
    ensures r.Ok? <==> FindPair(favs, coach, playerId).Some?
    ensures r.Ok? <==> exists j :: 0 <= j < |favs| && favs[j].coach == coach && favs[j].player == playerId
    ensures FindPair(favs, coach, playerId).None? ==> r == Err(NotFound("Favorite not found"))
    ensures r.Ok? ==> |r.value| == |favs| - 1 && FindPair(favs, coach, playerId).Some?
    ensures r.Ok? ==> forall f :: f in favs && !(f.coach == coach && f.player == playerId) ==> f in r.value
    ensures r.Ok? ==> forall f :: f in r.value ==> f in favs
  {
    match FindPair(favs, coach, playerId)
    case None => Err(NotFound("Favorite not found"))
    case Some(i) =>
      Ok(Collection.RemoveAt(favs, i))
  }

  /** With pairs unique, a delete leaves the caller with no favorite for that player. */
  lemma DeleteRemovesThePair(favs: seq<Favorite>, coach: UserId, playerId: ProfileId)
    requires UniquePairs(favs)
    requires Delete(favs, coach, playerId).Ok?
    ensures FindPair(Delete(favs, coach, playerId).value, coach, playerId).None?
  {
    var i := FindPair(favs, coach, playerId).value;
    var r := Delete(favs, coach, playerId).value;
    forall j | 0 <= j < |r| ensures !(r[j].coach == coach && r[j].player == playerId) {
      if j < i {
        assert r[j] == favs[j];
      } else {
        assert r[j] == favs[j + 1];
      }
    }
  }

  function CreatedKey(f: Favorite): int {
    f.createdAt
  }

  /** The caller's favorites, in store order. */
  function Own(favs: seq<Favorite>, coach: UserId): (r: seq<Favorite>)
    ensures forall f :: f in r <==> f in favs && f.coach == coach
  {
    Collection.Filter(favs, (f: Favorite) => f.coach == coach)
  }

  /** The caller's favorites, newest first. */
  function OwnNewestFirst(favs: seq<Favorite>, coach: UserId): (r: seq<Favorite>)
    ensures |r| == |Own(favs, coach)|
    ensures multiset(r) == multiset(Own(favs, coach))
    ensures Collection.SortedDesc(r, CreatedKey)
    ensures forall i :: 0 <= i < |r| ==> r[i] in favs && r[i].coach == coach
  {
    var own := Own(favs, coach);
    var sorted := Collection.SortDesc(own, CreatedKey);
    forall i | 0 <= i < |sorted| ensures sorted[i] in favs && sorted[i].coach == coach {
      Collection.SortKeepsMembers(own, CreatedKey, sorted[i]);
    }
    sorted
  }

  /** `GET /favorites`: the caller's favorites, newest first, as shown. */
  function List(favs: seq<Favorite>, coach: UserId): (r: seq<FavoriteView>)
    ensures var sorted := OwnNewestFirst(favs, coach);
            && |r| == |sorted|
            && forall i :: 0 <= i < |r| ==> r[i] == View(sorted[i])
  {
    var sorted := OwnNewestFirst(favs, coach);
    seq(|sorted|, i requires 0 <= i < |sorted| => View(sorted[i]))
  }

  /** The list shows every favorite of the caller, and only those. */
  lemma ListIsTheCallersFavorites(favs: seq<Favorite>, coach: UserId, f: Favorite)
    ensures f in favs && f.coach == coach ==> View(f) in List(favs, coach)
    ensures forall v :: v in List(favs, coach) ==> exists g :: g in favs && g.coach == coach && View(g) == v
  {
    var own := Own(favs, coach);
    var sorted := OwnNewestFirst(favs, coach);
    var r := List(favs, coach);
    if f in favs && f.coach == coach {
      Collection.SortKeepsMembers(own, CreatedKey, f);
      var k :| 0 <= k < |sorted| && sorted[k] == f;
      assert r[k] == View(f);
    }
    forall v | v in r ensures exists g :: g in favs && g.coach == coach && View(g) == v {
      var k :| 0 <= k < |r| && r[k] == v;
      assert View(sorted[k]) == v;
    }
  }
}

=== FILE: finance.dfy ===
/** The admin finance dashboard: the summary figures and the transactions
    table, computed in integer cents from what the payment provider returns.
    The provider's lists are inputs: the first page of each list call, already
    restricted by the provider to the requested period. */
module Finance {
  import opened Wrappers
  import opened Http
  import opened Dates
  import Collection
  import Paging
  import Text

  /** `x || 0` for an optional integer field. */
  function OrZero(x: Option<int>): int {
    if x.Some? then x.value else 0
  }

  /** `x || ''` for an optional string field. */
  function OrEmpty(x: Option<string>): string {
    if x.Some? then x.value else ""
  }

  /** A present, non-empty string: JavaScript truthiness of a string field. */
  predicate Nonempty(x: Option<string>) {
    x.Some? && x.value != ""
  }

  /** A charge as the provider lists it; `fee` is that of its balance transaction. */
  datatype Charge = Charge(
    id: string,
    amount: Option<int>,
    fee: Option<int>,
    amountRefunded: Option<int>,
    refunded: bool,
    status: Option<string>,
    plan: Option<string>,
    region: Option<string>,
    customer: Option<string>,
    created: Option<int>,
    currency: Option<string>,
    billingName: Option<string>,
    billingCountry: Option<string>,
    methodType: Option<string>,
    invoice: InvoiceRef,
    paymentIntent: Option<string>)

  /** A charge's `invoice`: absent or `null`, the invoice's id as a string, or
      the invoice object the list call expands, whose `id` may be missing. */
  datatype InvoiceRef = NoInvoice | InvoiceId(ref: string) | Expanded(id: Option<string>)

  datatype Refund = Refund(amount: Option<int>)

  /** A subscription: its status, the unit amount of its first item's price,
      and its start in seconds since the epoch. */
  datatype Subscription = Subscription(status: string, firstUnitAmount: Option<int>, startDate: Option<int>)

  /** What asking the provider gave: no client (the secret key is not set), a
      failed call, or the data. */
  datatype Provider<T> = NotConfigured | Failed | Data(value: T)

  /** `parseDate(req.query.x)`: a missing parameter is `new Date(undefined)`,
      which is invalid. */
  function QueryDate(q: Option<string>, parse: string -> Option<Instant>): Option<Instant> {
    if q.None? then None else parse(q.value)
  }

  const DatesRequired := BadRequest("from and to (ISO date) are required")

  // ---------------------------------------------------------------------
  // Net revenue
  // ---------------------------------------------------------------------

  /** What one charge adds: its amount less the fee and the refunded part. */
  function ChargeNet(c: Charge): int {
    OrZero(c.amount) - OrZero(c.fee) - OrZero(c.amountRefunded)
  }

  function SumCharges(cs: seq<Charge>): int {
    if |cs| == 0 then 0 else SumCharges(cs[..|cs| - 1]) + ChargeNet(cs[|cs| - 1])
  }

  function SumRefunds(rs: seq<Refund>): int {
    if |rs| == 0 then 0 else SumRefunds(rs[..|rs| - 1]) + OrZero(rs[|rs| - 1].amount)
  }

  /** Net revenue in cents: the charges' net amounts less the refunds. */
  function NetRevenue(cs: seq<Charge>, rs: seq<Refund>): int {
    SumCharges(cs) - SumRefunds(rs)
  }

  /** The two `forEach` loops of the summary. */
  method ComputeNetRevenue(cs: seq<Charge>, rs: seq<Refund>) returns (net: int)
    ensures net == NetRevenue(cs, rs)
  {
    net := 0;
    var i := 0;
    while i < |cs|
      invariant 0 <= i <= |cs|
      invariant net == SumCharges(cs[..i])
    {
      assert cs[..i + 1][..i] == cs[..i];
      net := net + ChargeNet(cs[i]);
      i := i + 1;
    }
    assert cs[..|cs|] == cs;
    var j := 0;
    while j < |rs|
      invariant 0 <= j <= |rs|
      invariant net == SumCharges(cs) - SumRefunds(rs[..j])
    {
      assert rs[..j + 1][..j] == rs[..j];
      net := net - OrZero(rs[j].amount);
      j := j + 1;
    }
    assert rs[..|rs|] == rs;
  }

  /** Net revenue is additive over the charge list: splitting the list, as
      paging through the provider would, splits the sum. */
  lemma {:induction false} SumChargesAppend(a: seq<Charge>, b: seq<Charge>)
    ensures SumCharges(a + b) == SumCharges(a) + SumCharges(b)
    decreases |b|
  {
    if |b| == 0 {
      assert a + b == a;
    } else {
      var b' := b[..|b| - 1];
      assert (a + b)[..|a + b| - 1] == a + b';
      assert (a + b)[|a + b| - 1] == b[|b| - 1];
      SumChargesAppend(a, b');
    }
  }

  /** A charge with none of its amounts present adds nothing, and each refund
      lowers net revenue by exactly its amount. */
  lemma NetRevenueSteps(cs: seq<Charge>, rs: seq<Refund>, c: Charge, r: Refund)
    requires c.amount.None? && c.fee.None? && c.amountRefunded.None?
    ensures NetRevenue(cs + [c], rs) == NetRevenue(cs, rs)
    ensures NetRevenue(cs, rs + [r]) == NetRevenue(cs, rs) - OrZero(r.amount)
  {
    assert (cs + [c])[..|cs|] == cs;
    assert (rs + [r])[..|rs|] == rs;
  }

  // ---------------------------------------------------------------------
  // Subscriptions
  // ---------------------------------------------------------------------

  /** `['active', 'trialing'].includes(sub.status)`. */
  predicate Live(s: Subscription) {
    s.status == "active" || s.status == "trialing"
  }

  /** `sub.start_date && start_date >= from / 1000 && start_date <= to / 1000`,
      with both sides scaled to milliseconds so that no division is needed. */
  predicate StartsWithin(s: Subscription, from: int, to: int) {
    s.startDate.Some? && s.startDate.value != 0 && from <= s.startDate.value * 1000 <= to
  }

  function CountLive(subs: seq<Subscription>): nat {
    if |subs| == 0 then 0 else CountLive(subs[..|subs| - 1]) + (if Live(subs[|subs| - 1]) then 1 else 0)
  }

  /** Monthly recurring revenue in cents: the first item's unit amount of each
      live subscription. */
  function Mrr(subs: seq<Subscription>): int {
    if |subs| == 0 then 0
    else Mrr(subs[..|subs| - 1]) + (if Live(subs[|subs| - 1]) then OrZero(subs[|subs| - 1].firstUnitAmount) else 0)
  }

  function CountNew(subs: seq<Subscription>, from: int, to: int): nat {
    if |subs| == 0 then 0
    else CountNew(subs[..|subs| - 1], from, to) + (if Live(subs[|subs| - 1]) && StartsWithin(subs[|subs| - 1], from, to) then 1 else 0)
  }

  /** The subscriptions loop of the summary. */
  method Tally(subs: seq<Subscription>, from: int, to: int) returns (active: nat, mrr: int, started: nat)
    ensures active == CountLive(subs)
    ensures mrr == Mrr(subs)
    ensures started == CountNew(subs, from, to)
  {
    active, mrr, started := 0, 0, 0;
    var i := 0;
    while i < |subs|
      invariant 0 <= i <= |subs|
      invariant active == CountLive(subs[..i])
      invariant mrr == Mrr(subs[..i])
      invariant started == CountNew(subs[..i], from, to)
    {
      var s := subs[i];
      assert subs[..i + 1][..i] == subs[..i] && subs[..i + 1][i] == s;
      if Live(s) {
        active := active + 1;
        mrr := mrr + OrZero(s.firstUnitAmount);
      }
      if StartsWithin(s, from, to) {
        if s.status == "active" || s.status == "trialing" {
          started := started + 1;
        }
      }
      i := i + 1;
    }
    assert subs[..|subs|] == subs;
  }

  /** Every new subscription is also counted as active. */
  lemma {:induction false} NewAreCountedAsActive(subs: seq<Subscription>, from: int, to: int)
    ensures CountNew(subs, from, to) <= CountLive(subs)
  {
    if |subs| > 0 {
      NewAreCountedAsActive(subs[..|subs| - 1], from, to);
    }
  }

  /** With no live subscription there is no recurring revenue, whatever the
      other subscriptions' prices. */
  lemma {:induction false} NoLiveNoMrr(subs: seq<Subscription>)
    requires CountLive(subs) == 0
    ensures Mrr(subs) == 0
  {
    if |subs| > 0 {
      NoLiveNoMrr(subs[..|subs| - 1]);
    }
  }

  // ---------------------------------------------------------------------
  // Summary
  // ---------------------------------------------------------------------

  datatype SummaryData = SummaryData(charges: seq<Charge>, subscriptions: seq<Subscription>, refunds: seq<Refund>)

  /** The figures in cents and counts; `warning` marks the empty summary given
      when the provider is not configured. */
  datatype Summary = Summary(netRevenueCents: int, mrrCents: int, activeSubscribers: nat, newSubscriptions: nat, warning: bool)

  /** `GET /admin/finance/summary`. */
  method GetSummary(fromQ: Option<string>, toQ: Option<string>, parse: string -> Option<Instant>, source: Provider<SummaryData>)
    returns (r: Result<Summary, Failure>)
    ensures QueryDate(fromQ, parse).None? || QueryDate(toQ, parse).None? ==> r == Err(DatesRequired)
    ensures QueryDate(fromQ, parse).Some? && QueryDate(toQ, parse).Some? ==>
              match source
              case NotConfigured => r == Ok(Summary(0, 0, 0, 0, true))
              case Failed => r == Err(ServerError("Failed to load finance summary"))
              case Data(d) =>
                var from := QueryDate(fromQ, parse).value;
                var to := QueryDate(toQ, parse).value;
                r == Ok(Summary(NetRevenue(d.charges, d.refunds), Mrr(d.subscriptions), CountLive(d.subscriptions),
                                CountNew(d.subscriptions, from, to), false))
  {
    var from := QueryDate(fromQ, parse);
    var to := QueryDate(toQ, parse);
    if from.None? || to.None? {
      return Err(DatesRequired);
    }
    match source {
      case NotConfigured =>
        r := Ok(Summary(0, 0, 0, 0, true));
      case Failed =>
        r := Err(ServerError("Failed to load finance summary"));
      case Data(d) =>
        var net := ComputeNetRevenue(d.charges, d.refunds);
        var active, mrr, started := Tally(d.subscriptions, from.value, to.value);
        r := Ok(Summary(net, mrr, active, started, false));
    }
  }

  // ---------------------------------------------------------------------
  // Transactions
  // ---------------------------------------------------------------------

  datatype TxQuery = TxQuery(
    from: Option<string>,
    to: Option<string>,
    status: Option<string>,
    page: Option<string>,
    limit: Option<string>,
    plan: Option<string>,
    region: Option<string>)

  /** The status filter: `paid`, `failed` and `refunded` select; any other
      value, or none, keeps every charge. */
  predicate StatusKeeps(filter: Option<string>, c: Charge) {
    if filter == Some("paid") then c.status == Some("succeeded")
    else if filter == Some("failed") then c.status == Some("failed")
    else if filter == Some("refunded") then c.refunded || OrZero(c.amountRefunded) > 0
    else true
  }

  /** A metadata filter drops a charge only when the query and the charge both
      carry a value and the two differ. */
  predicate MetaKeeps(wanted: Option<string>, actual: Option<string>) {
    !(Nonempty(wanted) && Nonempty(actual) && actual != wanted)
  }

  predicate Keeps(q: TxQuery, c: Charge) {
    StatusKeeps(q.status, c) && MetaKeeps(q.plan, c.plan) && MetaKeeps(q.region, c.region)
  }

  /** A row of the table, amounts in cents. `dateMs` is the charge's time in
      milliseconds, `None` where the table shows `null`; `paymentMethod` is
      the `method` column; `invoiceId` is `None` where the column is
      `undefined` (an expanded invoice without an id). */
  datatype TxRow = TxRow(
    id: string,
    dateMs: Option<int>,
    userName: string,
    userId: string,
    plan: string,
    amountCents: int,
    currency: string,
    status: string,
    paymentMethod: string,
    invoiceId: Option<string>,
    country: string,
    providerReference: string)

  /** The invoice column: the expanded invoice's id, else the string id or `''`. */
  function InvoiceColumn(i: InvoiceRef): (r: Option<string>)
    ensures i.NoInvoice? ==> r == Some("")
    ensures i.InvoiceId? ==> r == Some(i.ref)
    ensures i.Expanded? ==> r == i.id
  {
    match i
    case NoInvoice => Some("")
    case InvoiceId(ref) => Some(ref)
    case Expanded(id) => id
  }

  /** The row the table maps a charge to. */
  function TxRowOf(c: Charge): (r: TxRow)
    ensures r.id == c.id && r.userId == OrEmpty(c.customer) && r.plan == OrEmpty(c.plan)
    ensures r.amountCents == OrZero(c.amount) && r.status == OrEmpty(c.status)
    ensures r.dateMs.Some? <==> OrZero(c.created) != 0
    ensures r.dateMs.Some? ==> r.dateMs.value == c.created.value * 1000
    ensures r.userName != ""
    ensures r.userName == (if Nonempty(c.billingName) then c.billingName.value
                           else if Nonempty(c.customer) then c.customer.value else "Customer")
    ensures r.currency == Text.Upper(if Nonempty(c.currency) then c.currency.value else "usd")
    ensures forall k :: 0 <= k < |r.currency| ==> !('a' <= r.currency[k] <= 'z')
    ensures r.paymentMethod == OrEmpty(c.methodType) && r.country == OrEmpty(c.billingCountry)
    ensures r.providerReference == OrEmpty(c.paymentIntent)
    ensures r.invoiceId == InvoiceColumn(c.invoice)
  {
    TxRow(c.id,
          if OrZero(c.created) != 0 then Some(c.created.value * 1000) else None,
          if Nonempty(c.billingName) then c.billingName.value else if Nonempty(c.customer) then c.customer.value else "Customer",
          OrEmpty(c.customer), OrEmpty(c.plan), OrZero(c.amount),
          Text.Upper(if Nonempty(c.currency) then c.currency.value else "usd"),
          OrEmpty(c.status), OrEmpty(c.methodType), InvoiceColumn(c.invoice),
          OrEmpty(c.billingCountry), OrEmpty(c.paymentIntent))
  }

  function TxRows(cs: seq<Charge>): (r: seq<TxRow>)
    ensures |r| == |cs|
    ensures forall k :: 0 <= k < |cs| ==> r[k] == TxRowOf(cs[k])
  {
    seq(|cs|, k requires 0 <= k < |cs| => TxRowOf(cs[k]))
  }

  /** The provider's page of charges and whether more follow. */
  datatype ChargePage = ChargePage(data: seq<Charge>, hasMore: bool)

  /** The cursors are the ids of the provider's first and last charge, before
      any filtering. */
  datatype PageInfo = PageInfo(hasMore: bool, nextCursor: Option<string>, prevCursor: Option<string>)

  datatype TxPage = TxPage(page: int, limit: int, total: nat, rows: seq<TxRow>, pageInfo: Option<PageInfo>)

  /** The charges the table shows, in the provider's order. */
  function Shown(cs: seq<Charge>, q: TxQuery): (r: seq<Charge>)
    ensures forall c :: c in r <==> c in cs && Keeps(q, c)
    ensures |r| <= |cs|
  {
    Collection.Filter(cs, (c: Charge) => Keeps(q, c))
  }

  /** The cursors: the ids of the provider's last and first charge. */
  function Cursors(p: ChargePage): (r: PageInfo)
    ensures r.hasMore == p.hasMore
    ensures |p.data| == 0 <==> r.nextCursor.None? && r.prevCursor.None?
    ensures |p.data| > 0 ==> r.nextCursor == Some(p.data[|p.data| - 1].id) && r.prevCursor == Some(p.data[0].id)
  {
    if |p.data| > 0 then PageInfo(p.hasMore, Some(p.data[|p.data| - 1].id), Some(p.data[0].id))
    else PageInfo(p.hasMore, None, None)
  }

  /** The table for one provider page: the shown rows, counted, and the cursors. */
  function TablePage(p: ChargePage, q: TxQuery, page: int, limit: int): (r: TxPage)
    ensures r.page == page && r.limit == limit
    ensures r.rows == TxRows(Shown(p.data, q)) && r.total == |r.rows|
    ensures r.pageInfo == Some(Cursors(p))
  {
    var rows := TxRows(Shown(p.data, q));
    TxPage(page, limit, |rows|, rows, Some(Cursors(p)))
  }

  /** `GET /admin/finance/transactions`: a page of 25 by default, at most 100. */
  function Transactions(q: TxQuery, parse: string -> Option<Instant>, source: Provider<ChargePage>): (r: Result<TxPage, Failure>)
    ensures QueryDate(q.from, parse).None? || QueryDate(q.to, parse).None? ==> r == Err(DatesRequired)
    ensures r.Err? ==> r.error == DatesRequired || (source.Failed? && r.error == ServerError("Failed to load transactions"))
    ensures QueryDate(q.from, parse).Some? && QueryDate(q.to, parse).Some? ==> (r.Ok? <==> !source.Failed?)
    ensures r.Ok? ==> 1 <= r.value.limit <= 100 && r.value.page >= 1
    ensures r.Ok? ==> r.value.page == Paging.SafePage(q.page) && r.value.limit == Paging.SafeLimit(q.limit, 25, 25, 100)
    ensures r.Ok? && q.limit.None? ==> r.value.limit == 25
    ensures r.Ok? ==> r.value.total == |r.value.rows|
    ensures source.NotConfigured? && r.Ok? ==> r.value.rows == [] && r.value.pageInfo.None?
    ensures source.Data? && r.Ok? ==>
              r.value.rows == TxRows(Shown(source.value.data, q)) && r.value.pageInfo == Some(Cursors(source.value))
  {
    var page := Paging.SafePage(q.page);
    var limit := Paging.SafeLimit(q.limit, 25, 25, 100);
    if QueryDate(q.from, parse).None? || QueryDate(q.to, parse).None? then Err(DatesRequired)
    else
      match source
      case NotConfigured => Ok(TxPage(page, limit, 0, [], None))
      case Failed => Err(ServerError("Failed to load transactions"))
      case Data(p) => Ok(TablePage(p, q, page, limit))
  }

  /** Under `status=paid` every row is a succeeded charge, and every succeeded
      charge the provider returned whose plan and region pass is a row. */
  lemma PaidShowsExactlySucceeded(q: TxQuery, parse: string -> Option<Instant>, p: ChargePage, c: Charge)
    requires q.status == Some("paid")
    requires Transactions(q, parse, Data(p)).Ok?
    ensures forall row :: row in Transactions(q, parse, Data(p)).value.rows ==> row.status == "succeeded"
    ensures c in p.data && c.status == Some("succeeded") && MetaKeeps(q.plan, c.plan) && MetaKeeps(q.region, c.region) ==>
              TxRowOf(c) in Transactions(q, parse, Data(p)).value.rows
  {
    var shown := Shown(p.data, q);
    var rows := TxRows(shown);
    forall row | row in rows ensures row.status == "succeeded" {
      var k :| 0 <= k < |rows| && rows[k] == row;
      assert shown[k] in shown;
    }
    if c in p.data && c.status == Some("succeeded") && MetaKeeps(q.plan, c.plan) && MetaKeeps(q.region, c.region) {
      assert c in shown;
      var k :| 0 <= k < |shown| && shown[k] == c;
      assert rows[k] == TxRowOf(c);
    }
  }

  /** A charge without plan metadata, or a query without a plan, is never
      dropped by the plan filter; nor is any charge by an unknown status. */
  lemma FiltersNeedBothSides(q: TxQuery, c: Charge)
    ensures !Nonempty(q.plan) || !Nonempty(c.plan) ==> MetaKeeps(q.plan, c.plan)
    ensures q.status !in {Some("paid"), Some("failed"), Some("refunded")} ==> StatusKeeps(q.status, c)
  {
  }

  /** The cursors come from the provider's page, so a filter that hides every
      row still lets the caller page on. */
  lemma CursorsIgnoreFilters(q: TxQuery, parse: string -> Option<Instant>, p: ChargePage)
    requires Transactions(q, parse, Data(p)).Ok?
    requires |p.data| > 0
    ensures Transactions(q, parse, Data(p)).value.pageInfo.value.nextCursor == Some(p.data[|p.data| - 1].id)
  {
  }
}

=== FILE: gates.dfy ===
/** The two coach gates that sit behind authentication: `requireRecruiter`
    (four-year NCAA/NAIA programs) and `requireJucoCoach` (junior colleges).
    Both let an admin through without looking anything up, refuse every role
    but `coach`, and otherwise decide on the caller's coach profile. */
module Gates {
  import opened Wrappers
  import opened Http
  import opened Coaches
  import opened Auth

  /** The coach-profile collection as a gate's query sees it: unreachable (the
      query throws), or its documents. */
  datatype CoachStore = Unavailable | Available(coaches: seq<CoachProfile>)

  /** What a gate hands to the next handler: `None` for an admin, the coach
      type it attached to `req.user` otherwise. */
  type Pass = Option<string>

  /** A gate parameterised by what differs between the two. */
  datatype Gate = Gate(coachType: string, roleMessage: string, noProfileMessage: string, typeMessage: string, errorMessage: string)

  const Recruiter := Gate("NCAA", "Recruiter access required", "Recruiter profile not found",
                          "NCAA/NAIA recruiter access required", "Failed to verify recruiter access")

  const JucoCoach := Gate("JUCO", "JUCO coach access required", "Coach profile not found",
                          "JUCO coach access required", "Failed to verify JUCO coach access")

  /** The caller's coach type, when the store answers and holds a profile. */
  function CoachTypeOf(store: CoachStore, user: AuthUser): Option<string> {
    if store.Available? && ProfileOf(store.coaches, user.id).Some? then
      Some(store.coaches[ProfileOf(store.coaches, user.id).value].coachType)
    else None
  }

  function Check(g: Gate, user: Option<AuthUser>, store: CoachStore): (r: Result<Pass, Failure>)
    ensures user.None? ==> r == Err(Unauthorized("Unauthorized"))
    ensures user.Some? && user.value.role == "admin" ==> r == Ok(None)
    ensures user.Some? && user.value.role != "admin" && user.value.role != "coach" ==> r == Err(Forbidden(g.roleMessage))
    ensures user.Some? && user.value.role == "coach" && store.Unavailable? ==> r == Err(ServerError(g.errorMessage))
    ensures user.Some? && user.value.role == "coach" && store.Available? && ProfileOf(store.coaches, user.value.id).None? ==>
              r == Err(Forbidden(g.noProfileMessage))
    ensures r.Ok? <==> user.Some? && (user.value.role == "admin" || (user.value.role == "coach" && CoachTypeOf(store, user.value) == Some(g.coachType)))
    ensures r.Ok? && user.value.role == "coach" ==> r.value == Some(g.coachType)
    ensures r.Err? ==> r.error.Status() in {401, 403, 500}
  {
    if user.None? then Err(Unauthorized("Unauthorized"))
    else if user.value.role == "admin" then Ok(None)
    else if user.value.role != "coach" then Err(Forbidden(g.roleMessage))
    else
      match store
      case Unavailable => Err(ServerError(g.errorMessage))
      case Available(coaches) =>
        match ProfileOf(coaches, user.value.id)
        case None => Err(Forbidden(g.noProfileMessage))
        case Some(i) =>
          if coaches[i].coachType != g.coachType then Err(Forbidden(g.typeMessage))
          else Ok(Some(coaches[i].coachType))
  }

  /** `requireRecruiter`. */
  function RequireRecruiter(user: Option<AuthUser>, store: CoachStore): (r: Result<Pass, Failure>)
    ensures r.Ok? <==> user.Some? && (user.value.role == "admin" || (user.value.role == "coach" && CoachTypeOf(store, user.value) == Some("NCAA")))
    ensures user.Some? && user.value.role == "admin" ==> r == Ok(None)
    ensures user.Some? && user.value.role == "coach" && CoachTypeOf(store, user.value).Some? && CoachTypeOf(store, user.value) != Some("NCAA") ==>
              r == Err(Forbidden("NCAA/NAIA recruiter access required"))
  {
    Check(Recruiter, user, store)
  }

  /** `requireJucoCoach`. */
  function RequireJucoCoach(user: Option<AuthUser>, store: CoachStore): (r: Result<Pass, Failure>)
    ensures r.Ok? <==> user.Some? && (user.value.role == "admin" || (user.value.role == "coach" && CoachTypeOf(store, user.value) == Some("JUCO")))
    ensures user.Some? && user.value.role == "admin" ==> r == Ok(None)
    ensures user.Some? && user.value.role == "coach" && CoachTypeOf(store, user.value).Some? && CoachTypeOf(store, user.value) != Some("JUCO") ==>
              r == Err(Forbidden("JUCO coach access required"))
  {
    Check(JucoCoach, user, store)
  }

  /** Only an admin passes both gates: a coach has one profile type. */
  lemma NoCoachPassesBoth(user: Option<AuthUser>, store: CoachStore)
    requires RequireRecruiter(user, store).Ok? && RequireJucoCoach(user, store).Ok?
    ensures user.Some? && user.value.role == "admin"
  {
  }

  /** An admin's passage does not depend on the coach store at all, not even
      on whether it can be reached. */
  lemma AdminNeedsNoLookup(admin: AuthUser, s1: CoachStore, s2: CoachStore)
    requires admin.role == "admin"
    ensures RequireRecruiter(Some(admin), s1) == RequireRecruiter(Some(admin), s2)
    ensures RequireJucoCoach(Some(admin), s1) == RequireJucoCoach(Some(admin), s2)
  {
  }
}

=== FILE: http.dfy ===
/** The error responses the route handlers send, one constructor per HTTP status the code uses. */
module Http {

  datatype Failure =
    | BadRequest(message: string)
    | Unauthorized(message: string)
    | Forbidden(message: string)
    | NotFound(message: string)
    | Conflict(message: string)
    | TooManyRequests(message: string, retryAfter: int)
    | ServerError(message: string)
  {
    /** The numeric status line of the response. */
    function Status(): int {
      match this
      case BadRequest(_) => 400
      case Unauthorized(_) => 401
      case Forbidden(_) => 403
      case NotFound(_) => 404
      case Conflict(_) => 409
      case TooManyRequests(_, _) => 429
      case ServerError(_) => 500
    }
  }

  /** A failure reported by an outside provider (SMS, payments). The handlers
      answer 400 when the provider error carries a `code` and 500 otherwise. */
  datatype ProviderError = ProviderError(hasCode: bool, message: string)

  function ProviderFailure(e: ProviderError, message: string): (f: Failure)
    ensures f.Status() == (if e.hasCode then 400 else 500)
  {
    if e.hasCode then BadRequest(message) else ServerError(message)
  }
}

=== FILE: invites.dfy ===
/** Admin invites: a pending invite carries the hash of a random token that is
    handed out once, in the response that creates it, and an admin can revoke
    it while it is still pending. */
module Invites {
  import opened Wrappers
  import opened Json
  import opened Http
  import opened Effects
  import opened Dates
  import Digest
  import JsNumber
  import Users
  import Collection

  /** A stored invite. The raw token is not a field: only its hash is kept. */
  datatype Invite = Invite(
    id: string,
    email: string,
    tokenHash: Digest.Digest,
    expiresAt: Instant,
    status: string,
    createdBy: string,
    createdAt: Instant,
    updatedAt: Instant)

  const HourMillis: int := 60 * 60 * 1000

  /** The default lifetime, one week. */
  const DefaultTtlHours: int := 168

  /** `parseInt(ADMIN_INVITE_TTL_HOURS || '168', 10)`, read once at start-up:
      the default when the variable is unset or empty, its parsed value
      otherwise; `None` is `NaN`. */
  function TtlHours(env: Option<string>): (h: Option<int>)
    ensures env.None? || env.value == "" ==> h == Some(DefaultTtlHours)
    ensures env.Some? && env.value != "" ==> h == JsNumber.ParseInt(env.value)
  {
    if env.None? || env.value == "" then Some(DefaultTtlHours) else JsNumber.ParseInt(env.value)
  }

  /** Setting the variable to the decimal form of a number of hours gives
      invites that lifetime, negative ones included. */
  lemma TtlOfNumber(n: int)
    ensures TtlHours(Some(JsNumber.ShowInt(n))) == Some(n)
  {
    JsNumber.ParseShowRoundTrip(n);
    assert |JsNumber.ShowInt(n)| > 0;
  }

  /** `new Date(now + TTL * 60 * 60 * 1000)`: `None` when the TTL is `NaN` or
      the instant is beyond the range of a `Date`. */
  function Expiry(now: Instant, ttlEnv: Option<string>): (e: Option<Instant>)
    ensures TtlHours(ttlEnv).None? ==> e.None?
    ensures TtlHours(ttlEnv).Some? ==> e == FromMillis(now + TtlHours(ttlEnv).value * HourMillis)
  {
    match TtlHours(ttlEnv)
    case None => None
    case Some(hours) => FromMillis(now + hours * HourMillis)
  }

  /** The create response: the only place the raw token appears. */
  datatype InviteReply = InviteReply(id: string, email: string, expiresAt: Instant, createdAt: Instant, token: string)

  /** A committed create: the collection, the deliveries, the response. */
  datatype Created = Created(store: seq<Invite>, effects: seq<Effect>, reply: InviteReply)

  /** `POST /admin/invites` by the admin `actor`, with `token` the freshly
      generated random token. The address is lower-cased by the handler and
      lower-cased and trimmed by the schema; a non-string address makes
      `toLowerCase` throw. An unparsable TTL or an expiry outside the range of
      a `Date` makes the save fail. */
  function Create(store: seq<Invite>, actor: string, email: Option<JsonValue>, ttlEnv: Option<string>,
                  token: string, newId: string, now: Instant): (r: Result<Created, Failure>)
    ensures !Given(email) ==> r == Err(BadRequest("Email is required"))
    ensures Given(email) && !email.value.JString? ==> r == Err(ServerError("Failed to create invite"))
    ensures Given(email) && TtlHours(ttlEnv).None? ==> r == Err(ServerError("Failed to create invite"))
    ensures r.Err? ==> r.error == BadRequest("Email is required") || r.error == ServerError("Failed to create invite")
    ensures r.Ok? <==>
              && Given(email) && email.value.JString?
              && Users.EmailKey(email.value.s) != ""
              && Expiry(now, ttlEnv).Some?
    ensures r.Ok? ==>
              var inv := Invite(newId, Users.EmailKey(email.value.s), Digest.Hash(token),
                                Expiry(now, ttlEnv).value, "pending", actor, now, now);
              && r.value.store == store + [inv]
              && r.value.reply == InviteReply(newId, inv.email, inv.expiresAt, now, token)
              && r.value.effects == [AuditLog(actor, "admin_invite_created", "AdminInvite", newId, map["email" := Value(JString(inv.email)), "expiresAt" := At(inv.expiresAt)])]
  {
    if !Given(email) then Err(BadRequest("Email is required"))
    else if !email.value.JString? then Err(ServerError("Failed to create invite"))
    else
      var address := Users.EmailKey(email.value.s);
      match Expiry(now, ttlEnv)
      case None => Err(ServerError("Failed to create invite"))
      case Some(expiresAt) =>
        if address == "" then Err(ServerError("Failed to create invite"))
        else
          var inv := Invite(newId, address, Digest.Hash(token), expiresAt, "pending", actor, now, now);
          Ok(Created(store + [inv], [AuditLog(actor, "admin_invite_created", "AdminInvite", newId, map["email" := Value(JString(address)), "expiresAt" := At(expiresAt)])], InviteReply(newId, address, expiresAt, now, token)))
  }

  /** The stored hash recognises the token handed out and no other string. */
  lemma OnlyTheIssuedTokenMatches(store: seq<Invite>, actor: string, email: Option<JsonValue>, ttlEnv: Option<string>,
                                  token: string, newId: string, now: Instant, presented: string)
    requires Create(store, actor, email, ttlEnv, token, newId, now).Ok?
    ensures var c := Create(store, actor, email, ttlEnv, token, newId, now).value;
            var inv := c.store[|c.store| - 1];
            && inv.status == "pending"
            && (Digest.Hash(presented) == inv.tokenHash <==> presented == c.reply.token)
  {
  }

  /** With the default TTL an invite expires exactly one week after it was made. */
  lemma DefaultInviteLastsAWeek(store: seq<Invite>, actor: string, address: string, token: string, newId: string, now: Instant)
    requires Users.EmailKey(address) != ""
    requires now + 604800000 <= MaxDate
    ensures var r := Create(store, actor, Some(JString(address)), None, token, newId, now);
            r.Ok? && r.value.reply.expiresAt == now + 604800000
  {
    assert HourMillis == 3600000;
    assert 168 * HourMillis == 604800000;
    assert TtlHours(None) == Some(168);
    assert Expiry(now, None) == Some(now + 604800000);
    assert Given(Some(JString(address))) by {
      assert |Users.EmailKey(address)| <= |address|;
    }
  }

  // ---------------------------------------------------------------------
  // Revoke and list
  // ---------------------------------------------------------------------

  function FindInvite(store: seq<Invite>, id: string): (r: Option<nat>)
    ensures r.Some? ==> r.value < |store| && store[r.value].id == id
    ensures r.None? <==> forall j :: 0 <= j < |store| ==> store[j].id != id
  {
    Collection.FindFirst(store, (v: Invite) => v.id == id)
  }

  /** A committed revoke: the collection and the deliveries. */
  datatype Revoked = Revoked(store: seq<Invite>, effects: seq<Effect>)

  /** `POST /admin/invites/:id/revoke` by the admin `actor`. The save stamps
      `updatedAt`; nothing else on the invite changes. */
  function Revoke(store: seq<Invite>, actor: string, id: string, now: Instant): (r: Result<Revoked, Failure>)
    ensures FindInvite(store, id).None? ==> r == Err(NotFound("Invite not found"))
    ensures FindInvite(store, id).Some? && store[FindInvite(store, id).value].status != "pending" ==>
              r == Err(BadRequest("Only pending invites can be revoked"))
    ensures r.Ok? <==> FindInvite(store, id).Some? && store[FindInvite(store, id).value].status == "pending"
    ensures r.Ok? ==>
              var i := FindInvite(store, id).value;
              && |r.value.store| == |store|
              && r.value.store[i] == store[i].(status := "revoked", updatedAt := now)
              && (forall j :: 0 <= j < |store| && j != i ==> r.value.store[j] == store[j])
              && r.value.effects == [AuditLog(actor, "admin_invite_revoked", "AdminInvite", id, map["email" := Value(JString(store[i].email))])]
  {
    match FindInvite(store, id)
    case None => Err(NotFound("Invite not found"))
    case Some(i) =>
      if store[i].status != "pending" then Err(BadRequest("Only pending invites can be revoked"))
      else
        Ok(Revoked(Collection.ReplaceAt(store, i, store[i].(status := "revoked", updatedAt := now)),
                   [AuditLog(actor, "admin_invite_revoked", "AdminInvite", id, map["email" := Value(JString(store[i].email))])]))
  }

  /** A revoke cannot be repeated: the second one is refused and changes nothing. */
  lemma RevokeIsFinal(store: seq<Invite>, actor: string, id: string, now: Instant, later: Instant)
    requires Revoke(store, actor, id, now).Ok?
    ensures Revoke(Revoke(store, actor, id, now).value.store, actor, id, later) == Err(BadRequest("Only pending invites can be revoked"))
  {
    var i := FindInvite(store, id).value;
    var s := Revoke(store, actor, id, now).value.store;
    assert FindInvite(s, id) == Some(i) by {
      forall j | 0 <= j < i ensures s[j].id != id {
        assert s[j] == store[j];
      }
    }
  }

  function CreatedKey(v: Invite): int {
    v.createdAt
  }

  /** `GET /admin/invites`: every invite, newest first. */
  function List(store: seq<Invite>): (r: seq<Invite>)
    ensures Collection.SortedDesc(r, CreatedKey)
    ensures multiset(r) == multiset(store)
  {
    Collection.SortDesc(store, CreatedKey)
  }
}

=== FILE: jsnumber.dfy ===
/** The integer arithmetic and number parsing the handlers perform through
    JavaScript built-ins: `Math.ceil` of a quotient, `parseInt(s, 10)` and the
    decimal rendering `String(n)`. Numbers are integers throughout the model. */
module JsNumber {
  import opened Wrappers
  import Text

  /** `Math.ceil(a / b)` for a positive divisor. */
  function CeilDiv(a: int, b: int): (q: int)
    requires b > 0
    ensures (q - 1) * b < a <= q * b
  {
    var q := (a + b - 1) / b;
    assert q * b + (a + b - 1) % b == a + b - 1;
    q
  }

  predicate IsDigit(c: char) {
    '0' <= c <= '9'
  }

  function DigitValue(c: char): (d: nat)
    requires IsDigit(c)
    ensures d < 10
  {
    c as int - '0' as int
  }

  function DigitChar(d: nat): (c: char)
    requires d < 10
    ensures IsDigit(c) && DigitValue(c) == d
  {
    (d + '0' as int) as char
  }

  /** The longest prefix made of decimal digits. */
  function DigitPrefix(s: string): (d: string)
    ensures |d| <= |s| && d == s[..|d|]
    ensures forall i :: 0 <= i < |d| ==> IsDigit(d[i])
    ensures |d| < |s| ==> !IsDigit(s[|d|])
  {
    if |s| > 0 && IsDigit(s[0]) then [s[0]] + DigitPrefix(s[1..]) else ""
  }

  /** The value of a digit string, most significant digit first. */
  function DigitsValue(d: string): (n: nat)
    requires forall i :: 0 <= i < |d| ==> IsDigit(d[i])
  {
    if |d| == 0 then 0 else DigitsValue(d[..|d| - 1]) * 10 + DigitValue(d[|d| - 1])
  }

  /** `parseInt(s, 10)`: skip leading white space, read an optional sign and the
      longest run of digits after it; `None` is `NaN` (no digit at all). */
  function ParseInt(s: string): (r: Option<int>)
    ensures r.None? <==> |DigitPrefix(SignedBody(Text.TrimStart(s)))| == 0
  {
    var t := Text.TrimStart(s);
    var digits := DigitPrefix(SignedBody(t));
    if |digits| == 0 then None
    else if |t| > 0 && t[0] == '-' then Some(0 - DigitsValue(digits))
    else Some(DigitsValue(digits))
  }

  /** What follows an optional leading sign. */
  function SignedBody(t: string): string {
    if |t| > 0 && (t[0] == '-' || t[0] == '+') then t[1..] else t
  }

  /** `String(n)` for a natural number. */
  function ShowNat(n: nat): (s: string)
    ensures |s| > 0
    ensures forall i :: 0 <= i < |s| ==> IsDigit(s[i])
  {
    if n < 10 then [DigitChar(n)] else ShowNat(n / 10) + [DigitChar(n % 10)]
  }

  /** `String(n)` for an integer. */
  function ShowInt(n: int): string {
    if n < 0 then "-" + ShowNat(-n) else ShowNat(n)
  }

  lemma {:induction false} ShowNatValue(n: nat)
    ensures DigitsValue(ShowNat(n)) == n
  {
    if n >= 10 {
      var s := ShowNat(n);
      assert s[..|s| - 1] == ShowNat(n / 10);
      ShowNatValue(n / 10);
    }
  }

  /** `parseInt` reads back what `String` wrote. */
  lemma ParseShowRoundTrip(n: int)
    ensures ParseInt(ShowInt(n)) == Some(n)
  {
    var s := ShowInt(n);
    var body := ShowNat(if n < 0 then -n else n);
    assert Text.TrimStart(s) == s;
    assert SignedBody(s) == body;
    assert DigitPrefix(body) == body by {
      DigitPrefixOfDigits(body);
    }
    ShowNatValue(if n < 0 then -n else n);
  }

  lemma {:induction false} DigitPrefixOfDigits(d: string)
    requires forall i :: 0 <= i < |d| ==> IsDigit(d[i])
    ensures DigitPrefix(d) == d
  {
    if |d| > 0 {
      DigitPrefixOfDigits(d[1..]);
      assert d == [d[0]] + d[1..];
    }
  }
}

=== FILE: json.dfy ===
/** Request bodies and query values as parsed JSON, with JavaScript's notion
    of truthiness (`if (!x)`) and the string conversion `String(x)`. */
module Json {
  import opened Wrappers
  import JsNumber

  datatype JsonValue =
    | JNull
    | JBool(b: bool)
    | JNumber(n: int)
    | JString(s: string)
    | JArray(items: seq<JsonValue>)
    | JObject(fields: map<string, JsonValue>)

  /** JavaScript truthiness. Numbers are integers here, so `NaN` never arises. */
  predicate Truthy(v: JsonValue) {
    match v
    case JNull => false
    case JBool(b) => b
    case JNumber(n) => n != 0
    case JString(s) => s != ""
    case _ => true
  }

  /** Truthiness of a body field that may be missing (`undefined` is falsy). */
  predicate Given(v: Option<JsonValue>) {
    v.Some? && Truthy(v.value)
  }

  /** `body[f]`: the member's value, or `None` for `undefined`. */
  function Member(body: map<string, JsonValue>, f: string): (v: Option<JsonValue>)
    ensures v.Some? <==> f in body
    ensures v.Some? ==> v.value == body[f]
  {
    if f in body then Some(body[f]) else None
  }

  /** `items.filter(Boolean)`: the truthy items, in their original order. */
  function FilterTruthy(items: seq<JsonValue>): (r: seq<JsonValue>)
    ensures forall i :: 0 <= i < |r| ==> Truthy(r[i])
    ensures forall v :: multiset(r)[v] == if Truthy(v) then multiset(items)[v] else 0
  {
    if |items| == 0 then []
    else
      assert items == [items[0]] + items[1..];
      (if Truthy(items[0]) then [items[0]] else []) + FilterTruthy(items[1..])
  }

  /** `Array.isArray(v) ? v.filter(Boolean) : []`. */
  function TruthyItems(v: JsonValue): (r: seq<JsonValue>)
    ensures !v.JArray? ==> r == []
    ensures v.JArray? ==> r == FilterTruthy(v.items)
  {
    if v.JArray? then FilterTruthy(v.items) else []
  }

  /** `String(v)`. */
  function ToJsString(v: JsonValue): string
    decreases v, 1
  {
    match v
    case JNull => "null"
    case JBool(b) => if b then "true" else "false"
    case JNumber(n) => JsNumber.ShowInt(n)
    case JString(s) => s
    case JArray(items) => ArrayToString(v, items)
    case JObject(_) => "[object Object]"
  }

  /** `Array.prototype.toString`: the items joined by commas, `null` as empty. */
  function ArrayToString(parent: JsonValue, items: seq<JsonValue>): string
    requires forall x :: x in items ==> x < parent
    decreases parent, 0, |items|
  {
    if |items| == 0 then ""
    else
      assert items[0] in items;
      assert forall x :: x in items[1..] ==> x in items;
      var head := if items[0].JNull? then "" else ToJsString(items[0]);
      if |items| == 1 then head else head + "," + ArrayToString(parent, items[1..])
  }

  /** A plain object that reads as a document reference: its `_id` member is a
      non-empty string. */
  predicate HasStringId(v: JsonValue) {
    v.JObject? && "_id" in v.fields && v.fields["_id"].JString? && v.fields["_id"].s != ""
  }

  /** The schema's cast of a body value into a `String` path: strings are kept,
      numbers and booleans take their `String(x)` form, a plain object with a
      non-empty string `_id` is taken as that id, and arrays and every other
      plain object are refused (the save fails). `null` unsets the path. */
  function CastString(v: JsonValue): (r: Option<string>)
    ensures v.JString? ==> r == Some(v.s)
    ensures HasStringId(v) ==> r == Some(v.fields["_id"].s)
    ensures r.None? <==> v.JArray? || (v.JObject? && !HasStringId(v)) || v.JNull?
    ensures r.Some? && !v.JObject? ==> r.value == ToJsString(v)
  {
    match v
    case JString(s) => Some(s)
    case JNumber(_) => Some(ToJsString(v))
    case JBool(_) => Some(ToJsString(v))
    case JObject(fields) => if HasStringId(v) then Some(fields["_id"].s) else None
    case _ => None
  }
}

=== FILE: migration.dfy ===
/** The one-off migration that retires the old phone step: every profile in
    `phone_pending` moves to `stats_pending`, stamped with the run's time. */
module Migration {
  import opened Wrappers
  import opened Dates
  import opened Profiles

  /** How many profiles are in status `st`. */
  function CountStatus(store: seq<PlayerProfile>, st: VerificationStatus): (n: nat)
    ensures n <= |store|
    ensures n == 0 <==> forall i :: 0 <= i < |store| ==> store[i].verification.status != st
  {
    if |store| == 0 then 0
    else (if store[|store| - 1].verification.status == st then 1 else 0) + CountStatus(store[..|store| - 1], st)
  }

  /** The update applied to one matching profile. */
  function Migrated(p: PlayerProfile, now: Millis): PlayerProfile {
    p.(verification := p.verification.(status := StatsPending, updatedAt := Some(now)))
  }

  /** The collection after `updateMany({ status: 'phone_pending' }, { $set: ... })`. */
  function Migrate(store: seq<PlayerProfile>, now: Millis): (r: seq<PlayerProfile>)
    ensures |r| == |store|
    ensures forall i :: 0 <= i < |store| ==>
              r[i] == if store[i].verification.status == PhonePending then Migrated(store[i], now) else store[i]
  {
    seq(|store|, i requires 0 <= i < |store| =>
      if store[i].verification.status == PhonePending then Migrated(store[i], now) else store[i])
  }

  /** The run: the migrated collection and the modified count it reports. */
  method RunMigration(store: seq<PlayerProfile>, now: Millis) returns (migrated: seq<PlayerProfile>, modified: nat)
    ensures migrated == Migrate(store, now)
    ensures modified == CountStatus(store, PhonePending)
    ensures forall i :: 0 <= i < |migrated| ==> migrated[i].verification.status != PhonePending
  {
    migrated := [];
    modified := 0;
    var i := 0;
    while i < |store|
      invariant 0 <= i <= |store|
      invariant migrated == Migrate(store[..i], now)
      invariant modified == CountStatus(store[..i], PhonePending)
    {
      MigrateStep(store, i, now);
      if store[i].verification.status == PhonePending {
        migrated := migrated + [Migrated(store[i], now)];
        modified := modified + 1;
      } else {
        migrated := migrated + [store[i]];
      }
      i := i + 1;
    }
    assert store[..|store|] == store;
  }

  /** Extending the scanned prefix by one profile extends the migrated prefix
      by its image and the count by whether it matched. */
  lemma MigrateStep(store: seq<PlayerProfile>, i: nat, now: Millis)
    requires i < |store|
    ensures var p := store[i];
            && Migrate(store[..i + 1], now) == Migrate(store[..i], now) + [if p.verification.status == PhonePending then Migrated(p, now) else p]
            && CountStatus(store[..i + 1], PhonePending) == CountStatus(store[..i], PhonePending) + (if p.verification.status == PhonePending then 1 else 0)
  {
    var prefix := store[..i + 1];
    assert prefix[..i] == store[..i] && prefix[i] == store[i];
    var m := Migrate(prefix, now);
    var m' := Migrate(store[..i], now) + [if store[i].verification.status == PhonePending then Migrated(store[i], now) else store[i]];
    forall k | 0 <= k <= i ensures m[k] == m'[k] {
      if k < i {
        assert m'[k] == Migrate(store[..i], now)[k];
      }
    }
  }

  /** A second run finds nothing to do: it reports zero and changes nothing. */
  lemma MigrationIdempotent(store: seq<PlayerProfile>, now: Millis, later: Millis)
    ensures CountStatus(Migrate(store, now), PhonePending) == 0
    ensures Migrate(Migrate(store, now), later) == Migrate(store, now)
  {
  }

  /** The migration touches only the status and the update time of the matching
      profiles, and adds no history entry. */
  lemma MigrationKeepsHistory(store: seq<PlayerProfile>, now: Millis, i: nat)
    requires i < |store|
    ensures Migrate(store, now)[i].verification.history == store[i].verification.history
    ensures Migrate(store, now)[i].verification.stats == store[i].verification.stats
    ensures Migrate(store, now)[i].user == store[i].user
  {
  }
}

=== FILE: normalize.dfy ===
/** `normalizeInstitutionName`: the comparison key stored next to a school or
    program name, so that spelling variants in case and spacing meet. */
module Normalize {
  import opened Wrappers
  import opened Json
  import Text

  /** The canonical shape of a key: no white space at either end, none of the
      capitals `Text.LowerChar` covers, and single ASCII spaces between words. */
  predicate IsNormalized(s: string) {
    Text.Trimmed(s) && Text.NoUpper(s) && Text.Collapsed(s)
  }

  /** Anything but a non-empty string gives `''`; a string is trimmed,
      lower-cased, and its white-space runs collapsed to one space. */
  function NormalizeInstitutionName(value: Option<JsonValue>): (r: string)
    ensures IsNormalized(r)
    ensures !(value.Some? && value.value.JString? && value.value.s != "") ==> r == ""
    ensures |r| <= (if value.Some? && value.value.JString? then |value.value.s| else 0)
  {
    if value.Some? && value.value.JString? && value.value.s != "" then
      var t := Text.Trim(value.value.s);
      var l := Text.Lower(t);
      var r := Text.CollapseWhitespace(l);
      NormalizedShape(t);
      CollapseNotLonger(l);
      r
    else ""
  }

  /** `replace(/\s+/g, ' ')` never lengthens a string. */
  lemma {:induction false} CollapseNotLonger(s: string)
    ensures |Text.CollapseWhitespace(s)| <= |s|
    decreases |s|
  {
    if |s| > 0 {
      if Text.IsWhitespace(s[0]) {
        CollapseNotLonger(Text.TrimStart(s));
      } else {
        CollapseNotLonger(s[1..]);
      }
    }
  }

  /** The three steps applied to a trimmed string give the canonical shape. */
  lemma NormalizedShape(t: string)
    requires Text.Trimmed(t)
    ensures IsNormalized(Text.CollapseWhitespace(Text.Lower(t)))
  {
    var l := Text.Lower(t);
    var r := Text.CollapseWhitespace(l);
    Text.LowerKeepsTrimmed(t);
    Text.CollapseIsCollapsed(l);
    Text.CollapseChars(l);
    if |l| > 0 {
      Text.CollapseFirst(l);
      Text.CollapseLast(l);
    }
    forall i | 0 <= i < |r| ensures !Text.IsUpper(r[i]) {
      if r[i] != ' ' {
        var k :| 0 <= k < |l| && l[k] == r[i];
      }
    }
  }

  /** A key already in canonical form is its own normalization. */
  lemma NormalizedIsFixed(s: string)
    requires IsNormalized(s)
    ensures NormalizeInstitutionName(Some(JString(s))) == s
  {
    if s != "" {
      Text.TrimOfTrimmed(s);
      Text.LowerOfNoUpper(s);
      Text.CollapseOfCollapsed(s);
    }
  }

  /** Normalizing twice is normalizing once, so a stored key can be compared
      against a freshly normalized query. */
  lemma NormalizeIdempotent(value: Option<JsonValue>)
    ensures NormalizeInstitutionName(Some(JString(NormalizeInstitutionName(value)))) == NormalizeInstitutionName(value)
  {
    NormalizedIsFixed(NormalizeInstitutionName(value));
  }
}

=== FILE: paging.dfy ===
/** Page/limit clamping shared by every list endpoint:
    `Math.min(Math.max(parseInt(limit, 10) || d, 1), max)`,
    `Math.max(parseInt(page, 10) || 1, 1)`, `skip = (page - 1) * limit` and
    `Math.ceil(total / limit) || 1`. */
module Paging {
  import opened Wrappers
  import JsNumber

  /** `parseInt(q, 10) || fallback`, where a missing query parameter takes the
      destructuring default `absent` (a number, so `parseInt` returns it). */
  function Requested(q: Option<string>, absent: int, fallback: int): int {
    var parsed := if q.None? then Some(absent) else JsNumber.ParseInt(q.value);
    if parsed.None? || parsed.value == 0 then fallback else parsed.value
  }

  function Clamp(n: int, lo: int, hi: int): (r: int)
    requires lo <= hi
    ensures lo <= r <= hi
    ensures lo <= n <= hi ==> r == n
    ensures n < lo ==> r == lo
    ensures n > hi ==> r == hi
  {
    if n < lo then lo else if n > hi then hi else n
  }

  /** The page size a list endpoint uses. */
  function SafeLimit(q: Option<string>, absent: int, fallback: int, max: int): (r: int)
    requires 1 <= max
    ensures 1 <= r <= max
    ensures var n := Requested(q, absent, fallback); (1 <= n <= max ==> r == n) && (n > max ==> r == max) && (n < 1 ==> r == 1)
  {
    Clamp(Requested(q, absent, fallback), 1, max)
  }

  /** The page number a list endpoint uses: the request's, or 1 when it is missing,
      unparsable, zero or negative. */
  function SafePage(q: Option<string>): (r: int)
    ensures r >= 1
    ensures var n := Requested(q, 1, 1); (n >= 1 ==> r == n) && (n < 1 ==> r == 1)
  {
    var n := Requested(q, 1, 1);
    if n < 1 then 1 else n
  }

  /** How many documents the query skips before the page starts. */
  function Skip(page: int, limit: int): (r: nat)
    requires page >= 1 && limit >= 1
    ensures r == (page - 1) * limit
  {
    (page - 1) * limit
  }
  /** A parameter written as the decimal form of a number asks for that
      number, except that `0` is falsy and asks for the fallback. */
  lemma RequestedOfNumber(n: int, absent: int, fallback: int)
    ensures Requested(Some(JsNumber.ShowInt(n)), absent, fallback) == if n == 0 then fallback else n
  {
    JsNumber.ParseShowRoundTrip(n);
  }

  /** `Math.ceil(total / limit) || 1`: enough pages for every item, and one empty
      page when there are none. */
  function TotalPages(total: nat, limit: int): (r: int)
    requires limit >= 1
    ensures r >= 1
    ensures total == 0 ==> r == 1
    ensures total > 0 ==> (r - 1) * limit < total <= r * limit
  {
    var c := JsNumber.CeilDiv(total, limit);
    if c == 0 then 1 else c
  }

  lemma MulMonotone(a: int, b: int, c: int)
    requires a <= b && c >= 0
    ensures a * c <= b * c
  {
    assert b * c - a * c == (b - a) * c;
  }

  /** The quotient is the only multiple of the divisor that brackets `i`. */
  lemma UniqueQuotient(i: nat, limit: int, k: int)
    requires limit >= 1 && k >= 0
    requires k * limit <= i < k * limit + limit
    ensures k == i / limit
  {
    var q := i / limit;
    assert i == q * limit + i % limit && 0 <= i % limit < limit;
    if k < q {
      assert (k + 1) * limit == k * limit + limit;
      MulMonotone(k + 1, q, limit);
    } else if k > q {
      assert (q + 1) * limit == q * limit + limit;
      MulMonotone(q + 1, k, limit);
    }
  }

  /** The page that lists the item at position `i` (from 0) of the ordered listing. */
  function PageOfItem(i: nat, limit: int): (p: int)
    requires limit >= 1
    ensures p >= 1
  {
    i / limit + 1
  }

  /** Every item of a listing lies on exactly one page between 1 and `TotalPages`. */
  lemma PagesCoverItems(total: nat, limit: int, i: nat)
    requires limit >= 1 && i < total
    ensures var p := PageOfItem(i, limit); p <= TotalPages(total, limit) && Skip(p, limit) <= i < Skip(p, limit) + limit
    ensures forall p :: 1 <= p && Skip(p, limit) <= i < Skip(p, limit) + limit ==> p == PageOfItem(i, limit)
  {
    var q := i / limit;
    var p := q + 1;
    var t := TotalPages(total, limit);
    assert i == q * limit + i % limit && 0 <= i % limit < limit;
    assert Skip(p, limit) == q * limit;
    assert total <= t * limit;
    if q >= t {
      MulMonotone(t, q, limit);
      assert false;
    }
    forall p' | 1 <= p' && Skip(p', limit) <= i < Skip(p', limit) + limit
      ensures p' == p
    {
      UniqueQuotient(i, limit, p' - 1);
    }
  }
}

=== FILE: payments.dfy ===
/** Billing glue: choosing the price of a checkout, attaching a payment
    provider customer to an account, and copying subscription state from the
    provider's webhook events onto the account. The provider's answers are
    inputs; a `None` answer is a provider call that failed. */
module Payments {
  import opened Wrappers
  import opened Http
  import opened Users
  import opened Dates
  import opened Profiles
  import Collection

  /** JavaScript truthiness of an optional string. */
  predicate Nonempty(x: Option<string>) {
    x.Some? && x.value != ""
  }

  /** `resolvePriceId`: the price the client asked for, else the configured
      monthly price. */
  function ResolvePriceId(input: Option<string>, monthly: Option<string>): (r: Option<string>)
    ensures Nonempty(input) ==> r == input
    ensures !Nonempty(input) ==> r == monthly
    ensures Nonempty(r) <==> Nonempty(input) || Nonempty(monthly)
  {
    if Nonempty(input) then input else monthly
  }

  /** `getOrCreateCustomer` for the account at index `i`: the account's
      customer id when it has one; otherwise the id the provider assigns
      (`created`, `None` when the call fails), saved on the account, which
      stamps it with the time of the save. */
  function GetOrCreateCustomer(users: seq<User>, i: nat, created: Option<string>, now: Millis): (r: Result<(seq<User>, string), Failure>)
    requires i < |users|
    ensures Nonempty(users[i].stripeCustomerId) ==> r == Ok((users, users[i].stripeCustomerId.value))
    ensures !Nonempty(users[i].stripeCustomerId) ==> (r.Ok? <==> created.Some?)
    ensures !Nonempty(users[i].stripeCustomerId) && r.Ok? ==>
              && r.value.1 == created.value
              && |r.value.0| == |users|
              && r.value.0[i] == users[i].(stripeCustomerId := created, updatedAt := now)
              && (forall j :: 0 <= j < |users| && j != i ==> r.value.0[j] == users[j])
  {
    if Nonempty(users[i].stripeCustomerId) then Ok((users, users[i].stripeCustomerId.value))
    else if created.None? then Err(ServerError("Failed to create checkout session"))
    else Ok((Collection.ReplaceAt(users, i, users[i].(stripeCustomerId := created, updatedAt := now)), created.value))
  }

  /** Once an account has a customer, a second checkout reuses it and never
      asks the provider again, whatever the provider would answer. */
  lemma CustomerIsCreatedOnce(users: seq<User>, i: nat, created: string, other: Option<string>, now: Millis, later: Millis)
    requires i < |users| && !Nonempty(users[i].stripeCustomerId) && created != ""
    ensures var first := GetOrCreateCustomer(users, i, Some(created), now);
            && first.Ok?
            && GetOrCreateCustomer(first.value.0, i, other, later) == Ok((first.value.0, created))
  {
  }

  /** The account collection after a checkout request and the response. */
  datatype CheckoutOutcome = CheckoutOutcome(users: seq<User>, reply: Result<string, Failure>)

  /** `POST /payments/checkout` by account `caller`. `configured` is whether the
      provider's secret key is set; `created` is the customer the provider
      would create; `session` is the checkout page address the provider
      returns, `None` when that call fails. A customer saved before the session
      call fails stays saved. */
  function Checkout(users: seq<User>, caller: UserId, priceInput: Option<string>, monthly: Option<string>,
                    configured: bool, created: Option<string>, session: Option<string>, now: Millis): (r: CheckoutOutcome)
    ensures !Nonempty(ResolvePriceId(priceInput, monthly)) ==>
              r == CheckoutOutcome(users, Err(BadRequest("Stripe price ID is required")))
    ensures Nonempty(ResolvePriceId(priceInput, monthly)) && FindUser(users, caller).None? ==>
              r == CheckoutOutcome(users, Err(NotFound("User not found")))
    ensures !configured ==> r.users == users && r.reply.Err?
    ensures r.reply.Err? ==> r.reply.error in {BadRequest("Stripe price ID is required"), NotFound("User not found"),
                                               ServerError("Failed to create checkout session")}
    ensures r.reply.Ok? <==>
              && Nonempty(ResolvePriceId(priceInput, monthly)) && FindUser(users, caller).Some? && configured
              && (Nonempty(users[FindUser(users, caller).value].stripeCustomerId) || created.Some?)
              && session.Some?
    ensures r.reply.Ok? ==> r.reply.value == session.value
    ensures |r.users| == |users|
    ensures forall j :: 0 <= j < |users| && r.users[j] != users[j] ==>
              && FindUser(users, caller) == Some(j)
              && r.users[j] == users[j].(stripeCustomerId := created, updatedAt := now)
  {
    if !Nonempty(ResolvePriceId(priceInput, monthly)) then CheckoutOutcome(users, Err(BadRequest("Stripe price ID is required")))
    else match FindUser(users, caller)
      case None => CheckoutOutcome(users, Err(NotFound("User not found")))
      case Some(i) =>
        if !configured then CheckoutOutcome(users, Err(ServerError("Failed to create checkout session")))
        else match GetOrCreateCustomer(users, i, created, now)
          case Err(e) => CheckoutOutcome(users, Err(e))
          case Ok((saved, _)) =>
            if session.None? then CheckoutOutcome(saved, Err(ServerError("Failed to create checkout session")))
            else CheckoutOutcome(saved, Ok(session.value))
  }

  /** The customer is kept when the session call fails, so the retry reuses it. */
  lemma FailedSessionKeepsCustomer(users: seq<User>, caller: UserId, price: string, created: string, now: Millis)
    requires price != "" && created != ""
    requires FindUser(users, caller).Some? && !Nonempty(users[FindUser(users, caller).value].stripeCustomerId)
    ensures var first := Checkout(users, caller, Some(price), None, true, Some(created), None, now);
            var i := FindUser(users, caller).value;
            && first.reply == Err(ServerError("Failed to create checkout session"))
            && first.users[i].stripeCustomerId == Some(created)
  {
  }

  // ---------------------------------------------------------------------
  // Subscription state from provider objects
  // ---------------------------------------------------------------------

  /** The fields of a provider object (subscription, checkout session or
      invoice) that the handlers read; absent fields are `None`.
      `currentPeriodEnd` is in seconds; `firstPriceId` is
      `items.data[0].price.id`; `subscription` is the subscription id a
      session or an invoice refers to. */
  datatype Payload = Payload(
    metadataUserId: Option<string>,
    customer: Option<string>,
    id: Option<string>,
    status: Option<string>,
    currentPeriodEnd: Option<int>,
    firstPriceId: Option<string>,
    subscription: Option<string>)

  /** What to do with the period end: nothing when it is absent or zero,
      write the instant `× 1000`, or fail the update when that instant is not
      a valid `Date`. */
  datatype EndWrite = Keep | Write(at: Instant) | Invalid

  function SecondsToMillis(s: int): int {
    s * 1000
  }

  function EndOf(p: Payload): (w: EndWrite)
    ensures (p.currentPeriodEnd.None? || p.currentPeriodEnd.value == 0) <==> w.Keep?
    ensures w.Write? ==> w.at == SecondsToMillis(p.currentPeriodEnd.value)
    ensures w.Invalid? <==> !w.Keep? && FromMillis(SecondsToMillis(p.currentPeriodEnd.value)).None?
  {
    if p.currentPeriodEnd.None? || p.currentPeriodEnd.value == 0 then Keep
    else match FromMillis(SecondsToMillis(p.currentPeriodEnd.value))
      case None => Invalid
      case Some(at) => Write(at)
  }

  /** A field the payload carries overrides the stored one. */
  function Over<T>(present: bool, given: T, stored: T): T {
    if present then given else stored
  }

  /** The account with the payload's present fields written over it, stamped
      by the update's timestamp. */
  function Applied(u: User, p: Payload, now: Millis): User {
    u.(stripeCustomerId := Over(Nonempty(p.customer), p.customer, u.stripeCustomerId),
       stripeSubscriptionId := Over(Nonempty(p.id), p.id, u.stripeSubscriptionId),
       subscriptionStatus := Over(Nonempty(p.status), if p.status.Some? then p.status.value else "", u.subscriptionStatus),
       subscriptionCurrentPeriodEnd := if EndOf(p).Write? then Some(EndOf(p).at) else u.subscriptionCurrentPeriodEnd,
       subscriptionPriceId := Over(Nonempty(p.firstPriceId), p.firstPriceId, u.subscriptionPriceId),
       updatedAt := now)
  }

  /** The fields that are not subscription state are the same. */
  predicate SameAccount(a: User, b: User) {
    a.id == b.id && a.email == b.email && a.passwordHash == b.passwordHash && a.role == b.role
    && a.passwordChangedAt == b.passwordChangedAt && a.createdAt == b.createdAt
  }

  /** The update of the account at index `i`; `None` is the cast error thrown
      for an invalid period end. No schema validator runs on this update, so a
      provider status outside the schema's list is stored as it is. The
      schema's timestamps add `updatedAt` to every update. */
  function WriteSubscriptionAt(users: seq<User>, i: nat, p: Payload, now: Millis): (r: Option<seq<User>>)
    requires i < |users|
    ensures r.None? <==> EndOf(p).Invalid?
    ensures r.Some? ==> |r.value| == |users|
    ensures r.Some? ==>
              var u := r.value[i];
              && (forall j :: 0 <= j < |users| && j != i ==> r.value[j] == users[j])
              && SameAccount(u, users[i])
              && u.stripeCustomerId == (if Nonempty(p.customer) then p.customer else users[i].stripeCustomerId)
              && u.stripeSubscriptionId == (if Nonempty(p.id) then p.id else users[i].stripeSubscriptionId)
              && u.subscriptionStatus == (if Nonempty(p.status) then p.status.value else users[i].subscriptionStatus)
              && u.subscriptionPriceId == (if Nonempty(p.firstPriceId) then p.firstPriceId else users[i].subscriptionPriceId)
              && (EndOf(p).Keep? ==> u.subscriptionCurrentPeriodEnd == users[i].subscriptionCurrentPeriodEnd)
              && (EndOf(p).Write? ==> u.subscriptionCurrentPeriodEnd == Some(p.currentPeriodEnd.value * 1000))
              && u.updatedAt == now
  {
    if EndOf(p).Invalid? then None
    else Some(Collection.ReplaceAt(users, i, Applied(users[i], p, now)))
  }

  /** `updateUserSubscription(userId, payload)`: nothing without a user id or
      when no account has that id. */
  function UpdateUserSubscription(users: seq<User>, userId: Option<string>, p: Payload, now: Millis): (r: Option<seq<User>>)
    ensures !Nonempty(userId) ==> r == Some(users)
    ensures Nonempty(userId) && EndOf(p).Invalid? ==> r.None?
    ensures Nonempty(userId) && !EndOf(p).Invalid? && FindUser(users, userId.value).None? ==> r == Some(users)
    ensures Nonempty(userId) && FindUser(users, userId.value).Some? ==>
              r == WriteSubscriptionAt(users, FindUser(users, userId.value).value, p, now)
  {
    if !Nonempty(userId) then Some(users)
    else if EndOf(p).Invalid? then None
    else match FindUser(users, userId.value)
      case None => Some(users)
      case Some(i) => WriteSubscriptionAt(users, i, p, now)
  }

  /** A redelivered payload changes nothing but the account's `updatedAt`,
      which the second update stamps again; delivered at the same instant, the
      second write is no write at all. */
  lemma WriteIsIdempotent(users: seq<User>, i: nat, p: Payload, now: Millis, later: Millis)
    requires i < |users| && WriteSubscriptionAt(users, i, p, now).Some?
    ensures var once := WriteSubscriptionAt(users, i, p, now).value;
            WriteSubscriptionAt(once, i, p, later) == Some(once[i := once[i].(updatedAt := later)])
    ensures later == now ==> WriteSubscriptionAt(WriteSubscriptionAt(users, i, p, now).value, i, p, later) == WriteSubscriptionAt(users, i, p, now)
  {
    var once := WriteSubscriptionAt(users, i, p, now).value;
    var twice := WriteSubscriptionAt(once, i, p, later).value;
    assert Applied(once[i], p, later) == once[i].(updatedAt := later);
    assert twice == once[i := once[i].(updatedAt := later)] by {
      assert |twice| == |once|;
      forall j | 0 <= j < |once| ensures twice[j] == once[i := once[i].(updatedAt := later)][j] {
        if j == i {
          assert twice[j] == Applied(once[i], p, later);
        }
      }
    }
    if later == now {
      assert once[i].(updatedAt := later) == once[i];
      assert once[i := once[i]] == once;
    }
  }

  /** A provider status the schema does not list, such as `trialing`, is
      stored as it is. */
  lemma ProviderStatusIsStoredUnchecked(users: seq<User>, i: nat, p: Payload, now: Millis)
    requires i < |users| && p.status == Some("trialing") && EndOf(p).Keep?
    ensures WriteSubscriptionAt(users, i, p, now).Some?
    ensures WriteSubscriptionAt(users, i, p, now).value[i].subscriptionStatus == "trialing"
    ensures "trialing" !in {"none", "active", "past_due", "canceled"}
  {
  }

  // ---------------------------------------------------------------------
  // Event handlers
  // ---------------------------------------------------------------------

  /** `User.findOne({ stripeCustomerId })`. */
  function FindByCustomer(users: seq<User>, customer: string): (r: Option<nat>)
    ensures r.Some? ==> r.value < |users| && users[r.value].stripeCustomerId == Some(customer)
    ensures r.None? <==> forall j :: 0 <= j < |users| ==> users[j].stripeCustomerId != Some(customer)
  {
    Collection.FindFirst(users, (u: User) => u.stripeCustomerId == Some(customer))
  }

  /** `User.findOne({ stripeSubscriptionId })`. */
  function FindBySubscription(users: seq<User>, subscription: string): (r: Option<nat>)
    ensures r.Some? ==> r.value < |users| && users[r.value].stripeSubscriptionId == Some(subscription)
    ensures r.None? <==> forall j :: 0 <= j < |users| ==> users[j].stripeSubscriptionId != Some(subscription)
  {
    Collection.FindFirst(users, (u: User) => u.stripeSubscriptionId == Some(subscription))
  }

  /** `checkout.session.completed`: the subscription the session created is
      fetched from the provider (`retrieve`, `None` when the call fails) and
      written onto the account named in the session's metadata. */
  function CheckoutCompleted(users: seq<User>, session: Payload, retrieve: string -> Option<Payload>, now: Millis): (r: Option<seq<User>>)
    ensures !Nonempty(session.metadataUserId) || !Nonempty(session.subscription) ==> r == Some(users)
    ensures Nonempty(session.metadataUserId) && Nonempty(session.subscription) ==>
              (retrieve(session.subscription.value).None? ==> r.None?)
              && (retrieve(session.subscription.value).Some? ==>
                    r == UpdateUserSubscription(users, session.metadataUserId, retrieve(session.subscription.value).value, now))
  {
    if !Nonempty(session.metadataUserId) || !Nonempty(session.subscription) then Some(users)
    else match retrieve(session.subscription.value)
      case None => None
      case Some(sub) => UpdateUserSubscription(users, session.metadataUserId, sub, now)
  }

  /** `customer.subscription.updated` and `.deleted`: the account named in the
      metadata, else the account holding the subscription's customer. The
      `_id` is the primary key, so the account found is the account updated. */
  function SubscriptionChanged(users: seq<User>, sub: Payload, now: Millis): (r: Option<seq<User>>)
    ensures Nonempty(sub.metadataUserId) ==> r == UpdateUserSubscription(users, sub.metadataUserId, sub, now)
    ensures !Nonempty(sub.metadataUserId) && Nonempty(sub.customer) && FindByCustomer(users, sub.customer.value).Some? ==>
              r == WriteSubscriptionAt(users, FindByCustomer(users, sub.customer.value).value, sub, now)
    ensures !Nonempty(sub.metadataUserId) && (!Nonempty(sub.customer) || FindByCustomer(users, sub.customer.value).None?) ==>
              r == Some(users)
  {
    if Nonempty(sub.metadataUserId) then UpdateUserSubscription(users, sub.metadataUserId, sub, now)
    else if !Nonempty(sub.customer) then Some(users)
    else match FindByCustomer(users, sub.customer.value)
      case None => Some(users)
      case Some(i) => WriteSubscriptionAt(users, i, sub, now)
  }

  /** `invoice.payment_failed`: the account holding the invoice's subscription
      becomes `past_due`, stamped with the update's time; nothing else changes. */
  function PaymentFailed(users: seq<User>, invoice: Payload, now: Millis): (r: seq<User>)
    ensures |r| == |users|
    ensures forall j :: 0 <= j < |users| && r[j] != users[j] ==>
              && Nonempty(invoice.subscription)
              && FindBySubscription(users, invoice.subscription.value) == Some(j)
              && r[j] == users[j].(subscriptionStatus := "past_due", updatedAt := now)
    ensures Nonempty(invoice.subscription) && FindBySubscription(users, invoice.subscription.value).Some? ==>
              r[FindBySubscription(users, invoice.subscription.value).value].subscriptionStatus == "past_due"
  {
    if !Nonempty(invoice.subscription) then users
    else match FindBySubscription(users, invoice.subscription.value)
      case None => users
      case Some(i) => Collection.ReplaceAt(users, i, users[i].(subscriptionStatus := "past_due", updatedAt := now))
  }

  /** An account whose subscription id differs from the invoice's keeps its status. */
  lemma PaymentFailedTouchesOnlyTheHolder(users: seq<User>, invoice: Payload, j: nat, now: Millis)
    requires j < |users| && users[j].stripeSubscriptionId != invoice.subscription
    ensures PaymentFailed(users, invoice, now)[j] == users[j]
  {
  }

  // ---------------------------------------------------------------------
  // Webhook
  // ---------------------------------------------------------------------

  datatype Event = Event(kind: string, data: Payload)

  /** The signature check: the event, or the provider library's error message. */
  datatype Signature = Signed(event: Event) | Rejected(message: string)

  /** The webhook's answer. `NoReply`: the provider client could not be made,
      which throws before the handler's first `try`, so no response is sent. */
  datatype WebhookReply = NoReply | Refused(failure: Failure) | Received

  datatype WebhookOutcome = WebhookOutcome(users: seq<User>, reply: WebhookReply)

  /** The four event kinds the webhook acts on. */
  const HandledKinds: set<string> := {"checkout.session.completed", "customer.subscription.updated",
                                      "customer.subscription.deleted", "invoice.payment_failed"}

  /** The handler the event's kind selects; `None` is a handler that threw. */
  function Dispatch(users: seq<User>, e: Event, retrieve: string -> Option<Payload>, now: Millis): (r: Option<seq<User>>)
    ensures e.kind !in HandledKinds ==> r == Some(users)
    ensures e.kind == "invoice.payment_failed" ==> r == Some(PaymentFailed(users, e.data, now))
    ensures e.kind == "checkout.session.completed" ==> r == CheckoutCompleted(users, e.data, retrieve, now)
    ensures e.kind in {"customer.subscription.updated", "customer.subscription.deleted"} ==> r == SubscriptionChanged(users, e.data, now)
  {
    match e.kind
    case "checkout.session.completed" => CheckoutCompleted(users, e.data, retrieve, now)
    case "customer.subscription.updated" => SubscriptionChanged(users, e.data, now)
    case "customer.subscription.deleted" => SubscriptionChanged(users, e.data, now)
    case "invoice.payment_failed" => Some(PaymentFailed(users, e.data, now))
    case _ => Some(users)
  }

  /** `POST /payments/webhook`. `configured` is whether the provider's secret
      key is set, `secret` the webhook signing secret. */
  function Webhook(users: seq<User>, configured: bool, secret: Option<string>, verified: Signature,
                   retrieve: string -> Option<Payload>, now: Millis): (r: WebhookOutcome)
    ensures r.reply != Received ==> r.users == users
    ensures !configured <==> r.reply.NoReply?
    ensures configured && !Nonempty(secret) ==> r.reply == Refused(ServerError("Webhook secret not configured"))
    ensures configured && Nonempty(secret) && verified.Rejected? ==>
              r.reply == Refused(BadRequest("Webhook Error: " + verified.message))
    ensures configured && Nonempty(secret) && verified.Signed? ==>
              match Dispatch(users, verified.event, retrieve, now)
              case None => r.reply == Refused(ServerError("Webhook handler failed"))
              case Some(after) => r == WebhookOutcome(after, Received)
  {
    if !configured then WebhookOutcome(users, NoReply)
    else if !Nonempty(secret) then WebhookOutcome(users, Refused(ServerError("Webhook secret not configured")))
    else match verified
      case Rejected(message) => WebhookOutcome(users, Refused(BadRequest("Webhook Error: " + message)))
      case Signed(e) =>
        match Dispatch(users, e, retrieve, now)
        case None => WebhookOutcome(users, Refused(ServerError("Webhook handler failed")))
        case Some(after) => WebhookOutcome(after, Received)
  }

  /** An event of a kind the webhook does not handle is acknowledged and changes nothing. */
  lemma UnknownEventsAreAcknowledged(users: seq<User>, secret: string, e: Event, retrieve: string -> Option<Payload>, now: Millis)
    requires secret != "" && e.kind !in HandledKinds
    ensures Webhook(users, true, Some(secret), Signed(e), retrieve, now) == WebhookOutcome(users, Received)
  {
  }

  /** A session without a user id, or without a subscription, is acknowledged
      without asking the provider for anything. */
  lemma IncompleteSessionIsIgnored(users: seq<User>, secret: string, session: Payload, retrieve: string -> Option<Payload>, now: Millis)
    requires secret != "" && (!Nonempty(session.metadataUserId) || !Nonempty(session.subscription))
    ensures Webhook(users, true, Some(secret), Signed(Event("checkout.session.completed", session)), retrieve, now)
              == WebhookOutcome(users, Received)
  {
  }

  /** A subscription event redelivered by the provider changes nothing but
      the `updatedAt` stamp; delivered at the same instant, nothing at all. */
  lemma SubscriptionEventIsIdempotent(users: seq<User>, sub: Payload, now: Millis, later: Millis)
    requires SubscriptionChanged(users, sub, now).Some?
    ensures var once := SubscriptionChanged(users, sub, now).value;
            var twice := SubscriptionChanged(once, sub, later);
            && twice.Some? && |twice.value| == |once|
            && (forall j :: 0 <= j < |once| ==> twice.value[j] == once[j].(updatedAt := twice.value[j].updatedAt))
            && (later == now ==> twice == SubscriptionChanged(users, sub, now))
  {
    var once := SubscriptionChanged(users, sub, now).value;
    if Nonempty(sub.metadataUserId) {
      var id := sub.metadataUserId.value;
      if FindUser(users, id).Some? {
        var i := FindUser(users, id).value;
        SameIdsFindTheSame(users, once, i, id);
        WriteIsIdempotent(users, i, sub, now, later);
      }
    } else if Nonempty(sub.customer) && FindByCustomer(users, sub.customer.value).Some? {
      var i := FindByCustomer(users, sub.customer.value).value;
      CustomerStaysFirst(users, i, sub, now);
      WriteIsIdempotent(users, i, sub, now, later);
    }
  }

  /** A write at `i` keeps every id, so the same account is found by id. */
  lemma SameIdsFindTheSame(users: seq<User>, after: seq<User>, i: nat, id: UserId)
    requires FindUser(users, id) == Some(i)
    requires |after| == |users|
    requires forall j :: 0 <= j < |users| ==> after[j].id == users[j].id
    ensures FindUser(after, id) == Some(i)
  {
    assert forall j :: 0 <= j < i ==> after[j].id != id by {
      assert forall j :: 0 <= j < i ==> users[j].id != id;
    }
  }

  /** After the write at the first holder of the customer, that account is
      still the first holder. */
  lemma CustomerStaysFirst(users: seq<User>, i: nat, sub: Payload, now: Millis)
    requires Nonempty(sub.customer) && FindByCustomer(users, sub.customer.value) == Some(i)
    requires WriteSubscriptionAt(users, i, sub, now).Some?
    ensures FindByCustomer(WriteSubscriptionAt(users, i, sub, now).value, sub.customer.value) == Some(i)
  {
    var after := WriteSubscriptionAt(users, i, sub, now).value;
    assert forall j :: 0 <= j < i ==> after[j] == users[j];
  }
}

=== FILE: player_verification.dfy ===
/** The player-facing half of the verification workflow: start and confirm the
    email channel, send and confirm the phone channel, submit stats for review.
    Each handler reads the caller's profile (`found`, absent when the caller has
    none), checks its guards in the source's order, and either answers with an
    error and saves nothing, or saves the changed profile and then attempts the
    deliveries listed in the step. */
module PlayerVerification {
  import opened Wrappers
  import opened Dates
  import opened Json
  import opened Http
  import opened Profiles
  import opened Effects
  import Codes
  import Cooldown
  import Text

  /** A committed change: the saved profile, and the deliveries attempted after the save. */
  datatype Step = Step(profile: PlayerProfile, effects: seq<Effect>)

  /** Only the verification record differs between the two profiles. */
  predicate OnlyVerificationChanged(p: PlayerProfile, q: PlayerProfile) {
    q == p.(verification := q.verification)
  }

  /** Start (or restart) email verification. There is no stage guard: any status,
      `verified` included, goes back to `email_pending`. */
  function StartEmail(found: Option<PlayerProfile>, userEmail: Option<string>, draws: seq<int>, now: Millis): (r: Result<Step, Failure>)
    requires |draws| == Codes.CodeLength && Codes.ValidDraws(draws)
    ensures found.None? ==> r == Err(NotFound("Profile not found"))
    ensures found.Some? && userEmail.None? ==> r == Err(NotFound("User not found"))
    ensures found.Some? && userEmail.Some? ==>
              var last := found.value.verification.email.lastSentAt;
              && (r.Err? <==> last.Some? && now - last.value < Cooldown.EmailRateLimitMs)
              && (r.Err? ==> r.error.TooManyRequests?)
    ensures r.Err? && r.error.TooManyRequests? ==> found.value.verification.email.lastSentAt.value <= now ==> 1 <= r.error.retryAfter <= 60
    ensures r.Ok? ==>
              var p := found.value;
              var q := r.value.profile;
              var e := q.verification.email;
              && OnlyVerificationChanged(p, q)
              && q.verification.status == EmailPending
              && |r.value.effects| == 1
              && r.value.effects[0].VerificationCodeEmail?
              && r.value.effects[0].to == userEmail.value
              && e.codeHash == Some(Codes.HashCode(r.value.effects[0].code))
              && e.expiresAt == Some(now + Codes.CodeTtlMs)
              && e.lastSentAt == Some(now)
              && e.verifiedAt == p.verification.email.verifiedAt
              && q.verification.phone == p.verification.phone
              && q.verification.stats == p.verification.stats
              && q.verification.history == p.verification.history
              && q.verification.updatedAt == Some(now)
              && (Invariant(p.verification) ==> Invariant(q.verification))
  {
    if found.None? then Err(NotFound("Profile not found"))
    else if userEmail.None? then Err(NotFound("User not found"))
    else
      var p := found.value;
      var v := p.verification;
      match Cooldown.Check(v.email.lastSentAt, now, Cooldown.EmailRateLimitMs)
      case Wait(k) =>
        Err(TooManyRequests("Please wait before requesting another code", k))
      case Allowed =>
        var code := Codes.GenerateCode(draws);
        var rec := Codes.BuildCodeRecord(code, now);
        var email := v.email.(codeHash := Some(rec.codeHash), expiresAt := Some(rec.expiresAt), lastSentAt := Some(rec.lastSentAt));
        var v' := v.(status := EmailPending, email := email, updatedAt := Some(now));
        Ok(Step(p.(verification := v'), [VerificationCodeEmail(userEmail.value, code)]))
  }

  /** The notifications the flow sends, one per completed step. */
  function EmailVerifiedNotice(user: UserId): Effect {
    NotifyUser(user, "Email verified", "Your email address has been verified. Next, confirm your phone number.")
  }

  function PhoneVerifiedNotice(user: UserId): Effect {
    NotifyUser(user, "Phone verified", "Your phone number has been verified. Submit your stats to finish verification.")
  }

  function StatsSubmittedNotice(user: UserId): Effect {
    NotifyUser(user, "Stats submitted", "Thanks! Your stats are now under review.")
  }

  /** Confirm the emailed code. The code is the only guard; the stage is not checked. */
  function ConfirmEmail(found: Option<PlayerProfile>, code: Option<JsonValue>, now: Millis): (r: Result<Step, Failure>)
    ensures !Given(code) ==> r == Err(BadRequest("Code is required"))
    ensures Given(code) && found.None? ==> r == Err(NotFound("Profile not found"))
    ensures Given(code) && found.Some? ==>
              var e := found.value.verification.email;
              (r.Ok? <==> Codes.IsCodeValid(e.codeHash, e.expiresAt, ToJsString(code.value), now))
    ensures r.Err? && Given(code) && found.Some? ==> r.error == BadRequest("Invalid or expired code")
    ensures r.Ok? ==>
              && r.value.profile == EmailConfirmed(found.value, now)
              && r.value.effects == [EmailVerifiedNotice(found.value.user)]
  {
    if !Given(code) then Err(BadRequest("Code is required"))
    else if found.None? then Err(NotFound("Profile not found"))
    else
      var p := found.value;
      var v := p.verification;
      if !Codes.IsCodeValid(v.email.codeHash, v.email.expiresAt, ToJsString(code.value), now) then
        Err(BadRequest("Invalid or expired code"))
      else
        Ok(Step(EmailConfirmed(p, now),
                [EmailVerifiedNotice(p.user)]))
  }

  /** The record once the emailed code is accepted: the code is spent, the
      address verified, and the flow moves on to the phone. */
  function EmailConfirmed(p: PlayerProfile, now: Millis): (q: PlayerProfile)
    ensures OnlyVerificationChanged(p, q)
    ensures q.verification.email == p.verification.email.(codeHash := None, expiresAt := None, verifiedAt := Some(now))
    ensures q.verification.status == PhonePending
    ensures q.verification.phone == p.verification.phone
    ensures q.verification.stats == p.verification.stats
    ensures q.verification.history == p.verification.history
    ensures q.verification.updatedAt == Some(now)
    ensures Invariant(p.verification) ==> Invariant(q.verification)
  {
    var v := p.verification;
    var email := v.email.(codeHash := None, expiresAt := None, verifiedAt := Some(now));
    p.(verification := v.(status := PhonePending, email := email, updatedAt := Some(now)))
  }

  /** Send an SMS code through the provider. `sent` is the provider's answer
      (the session id, or the error it threw); it is consulted only once every
      guard has passed, and nothing is saved when it failed. The number goes
      through the schema's `String` cast, so an array or a plain object without
      a string `_id` makes the save fail. */
  function SendPhone(found: Option<PlayerProfile>, phone: Option<JsonValue>, sent: Result<string, ProviderError>, now: Millis): (r: Result<Step, Failure>)
    ensures !Given(phone) ==> r == Err(BadRequest("Phone number is required"))
    ensures Given(phone) && found.None? ==> r == Err(NotFound("Profile not found"))
    ensures Given(phone) && found.Some? ==>
              var last := found.value.verification.phone.lastSentAt;
              (r.Err? && r.error.TooManyRequests? <==> last.Some? && now - last.value < Cooldown.PhoneRateLimitMs)
    ensures r.Err? && r.error.TooManyRequests? ==> found.value.verification.phone.lastSentAt.value <= now ==> 1 <= r.error.retryAfter <= 60
    ensures Given(phone) && found.Some? && sent.Err? ==> r.Err?
    ensures Given(phone) && found.Some? ==>
              var last := found.value.verification.phone.lastSentAt;
              var waiting := last.Some? && now - last.value < Cooldown.PhoneRateLimitMs;
              && (r.Ok? <==> !waiting && sent.Ok? && CastString(phone.value).Some?)
              && (!waiting && sent.Ok? && CastString(phone.value).None? ==> r == Err(ServerError("Failed to send SMS verification code")))
    ensures r.Ok? ==>
              var p := found.value;
              var q := r.value.profile;
              && sent.Ok?
              && CastString(phone.value).Some?
              && OnlyVerificationChanged(p, q)
              && q.verification.phone == PhoneRecord(Some(Text.Trim(CastString(phone.value).value)), None, None, None, Some(now))
              && q.verification.status == PhonePending
              && q.verification.email == p.verification.email
              && q.verification.stats == p.verification.stats
              && q.verification.history == p.verification.history
              && q.verification.updatedAt == Some(now)
              && r.value.effects == []
              && (Invariant(p.verification) ==> Invariant(q.verification))
  {
    if !Given(phone) then Err(BadRequest("Phone number is required"))
    else if found.None? then Err(NotFound("Profile not found"))
    else
      var p := found.value;
      var v := p.verification;
      match Cooldown.Check(v.phone.lastSentAt, now, Cooldown.PhoneRateLimitMs)
      case Wait(k) =>
        Err(TooManyRequests("Please wait before requesting another code", k))
      case Allowed =>
        if sent.Err? then Err(ProviderFailure(sent.error, "Failed to send SMS verification code"))
        else
          // The provider's session id is written too, but the schema declares no
          // such path, so the saved document does not keep it.
          match CastString(phone.value)
          case None => Err(ServerError("Failed to send SMS verification code"))
          case Some(number) =>
            var record := PhoneRecord(Some(Text.Trim(number)), None, None, None, Some(now));
            var v' := v.(status := PhonePending, phone := record, updatedAt := Some(now));
            Ok(Step(p.(verification := v'), []))
  }

  /** Confirm the SMS code. `approved` is the provider's verdict on (number, code),
      or the error it threw. */
  function ConfirmPhone(found: Option<PlayerProfile>, code: Option<JsonValue>, approved: Result<bool, ProviderError>, now: Millis): (r: Result<Step, Failure>)
    ensures !Given(code) ==> r == Err(BadRequest("Code is required"))
    ensures Given(code) && found.None? ==> r == Err(NotFound("Profile not found"))
    ensures Given(code) && found.Some? ==> r == PhoneDecision(found.value, approved, now)
  {
    if !Given(code) then Err(BadRequest("Code is required"))
    else if found.None? then Err(NotFound("Profile not found"))
    else PhoneDecision(found.value, approved, now)
  }

  /** The SMS confirmation once a code and a profile are present: a number
      must have been registered, and only the provider's approval confirms it. */
  function PhoneDecision(p: PlayerProfile, approved: Result<bool, ProviderError>, now: Millis): (r: Result<Step, Failure>)
    ensures var number := p.verification.phone.number;
            && (number.None? || number.value == "" ==> r == Err(BadRequest("Phone verification not started")))
            && (r.Ok? <==> number.Some? && number.value != "" && approved == Ok(true))
    ensures r.Ok? ==>
              && r.value.profile == PhoneConfirmed(p, now)
              && r.value.effects == [PhoneVerifiedNotice(p.user)]
  {
    var v := p.verification;
    if v.phone.number.None? || v.phone.number.value == "" then Err(BadRequest("Phone verification not started"))
    else if approved.Err? then Err(ProviderFailure(approved.error, "Failed to confirm phone verification code"))
    else if !approved.value then Err(BadRequest("Invalid or expired code"))
    else
      Ok(Step(PhoneConfirmed(p, now),
              [PhoneVerifiedNotice(p.user)]))
  }

  /** The record once the provider approves the SMS code: the number is
      verified and the flow moves on to the statistics. */
  function PhoneConfirmed(p: PlayerProfile, now: Millis): (q: PlayerProfile)
    ensures OnlyVerificationChanged(p, q)
    ensures q.verification.phone == p.verification.phone.(verifiedAt := Some(now))
    ensures q.verification.status == StatsPending
    ensures q.verification.email == p.verification.email
    ensures q.verification.stats == p.verification.stats
    ensures q.verification.history == p.verification.history
    ensures q.verification.updatedAt == Some(now)
    ensures Invariant(p.verification) ==> Invariant(q.verification)
  {
    var v := p.verification;
    p.(verification := v.(status := StatsPending, phone := v.phone.(verifiedAt := Some(now)), updatedAt := Some(now)))
  }

  /** `supportingFiles = []` then `Array.isArray(f) ? f.slice(0, 5) : []`. */
  function FirstFiles(files: Option<JsonValue>): (r: seq<JsonValue>)
    ensures |r| <= 5
    ensures files.Some? && files.value.JArray? ==> |r| == if |files.value.items| < 5 then |files.value.items| else 5
    ensures files.Some? && files.value.JArray? ==> r == files.value.items[..|r|]
    ensures !(files.Some? && files.value.JArray?) ==> r == []
  {
    if files.Some? && files.value.JArray? then
      var items := files.value.items;
      if |items| <= 5 then items else items[..5]
    else []
  }

  /** The schema's cast of the files into its `[String]` path, item by item:
      strings are kept, numbers and booleans take their string form, `null`
      stays `null`, an object with a string `_id` is taken as that id, and an
      array or any other object item makes the save fail. */
  function CastFiles(items: seq<JsonValue>): (r: Option<seq<Option<string>>>)
    ensures r.Some? <==> forall i :: 0 <= i < |items| ==> !items[i].JArray? && !(items[i].JObject? && !HasStringId(items[i]))
    ensures r.Some? ==> |r.value| == |items|
    ensures r.Some? ==> forall i :: 0 <= i < |items| ==> r.value[i] == CastString(items[i])
    ensures r.Some? ==> forall i :: 0 <= i < |items| && items[i].JString? ==> r.value[i] == Some(items[i].s)
  {
    if |items| == 0 then Some([])
    else if items[0].JArray? || (items[0].JObject? && !HasStringId(items[0])) then None
    else
      match CastFiles(items[1..])
      case None => None
      case Some(rest) => Some([CastString(items[0])] + rest)
  }

  /** `typeof x === 'object'` for a truthy value: an array or a plain object. */
  predicate IsObjectSnapshot(snapshot: Option<JsonValue>) {
    snapshot.Some? && (snapshot.value.JArray? || snapshot.value.JObject?)
  }

  /** Submit stats for review: the one player step with a stage guard. */
  function SubmitStats(found: Option<PlayerProfile>, snapshot: Option<JsonValue>, attested: Option<JsonValue>, files: Option<JsonValue>, now: Millis): (r: Result<Step, Failure>)
    ensures !IsObjectSnapshot(snapshot) ==> r == Err(BadRequest("Stats snapshot is required"))
    ensures IsObjectSnapshot(snapshot) && !Given(attested) ==> r == Err(BadRequest("You must certify your stats are accurate"))
    ensures IsObjectSnapshot(snapshot) && Given(attested) && found.None? ==> r == Err(NotFound("Profile not found"))
    ensures IsObjectSnapshot(snapshot) && Given(attested) && found.Some? ==>
              (r.Ok? <==> found.value.verification.status in {StatsPending, NeedsUpdates} && CastFiles(FirstFiles(files)).Some?)
    ensures IsObjectSnapshot(snapshot) && Given(attested) && found.Some? && found.value.verification.status in {StatsPending, NeedsUpdates}
              && CastFiles(FirstFiles(files)).None? ==>
              r == Err(ServerError("Failed to submit stats for review"))
    ensures r.Ok? ==>
              var p := found.value;
              var q := r.value.profile;
              var s := q.verification.stats;
              && OnlyVerificationChanged(p, q)
              && q.verification.status == InReview
              && s.snapshot == snapshot
              && s.attested
              && s.supportingFiles == CastFiles(FirstFiles(files)).value
              && s.submittedAt == Some(now)
              && s.reviewerId.None? && s.reviewerNote.None? && s.verifiedAt.None?
              && q.verification.email == p.verification.email
              && q.verification.phone == p.verification.phone
              && q.verification.history == p.verification.history
              && q.verification.updatedAt == Some(now)
              && r.value.effects == [StatsSubmittedNotice(p.user)]
              && (Invariant(p.verification) ==> Invariant(q.verification))
  {
    if !IsObjectSnapshot(snapshot) then Err(BadRequest("Stats snapshot is required"))
    else if !Given(attested) then Err(BadRequest("You must certify your stats are accurate"))
    else if found.None? then Err(NotFound("Profile not found"))
    else
      var p := found.value;
      var v := p.verification;
      if v.status != StatsPending && v.status != NeedsUpdates then Err(BadRequest("Stats cannot be submitted at this stage"))
      else
        match CastFiles(FirstFiles(files))
        case None => Err(ServerError("Failed to submit stats for review"))
        case Some(stored) =>
          var stats := StatsRecord(snapshot, true, stored, Some(now), None, None, None);
          var v' := v.(status := InReview, stats := stats, updatedAt := Some(now));
          Ok(Step(p.(verification := v'), [StatsSubmittedNotice(p.user)]))
  }

  /** What the status endpoint returns: the record and the legacy status and note. */
  datatype MyStatus = MyStatus(verification: Verification, legacyStatus: string, legacyNote: Option<string>)

  function GetMyStatus(found: Option<PlayerProfile>): (r: Result<MyStatus, Failure>)
    ensures found.None? <==> r == Err(NotFound("Profile not found"))
    ensures r.Ok? ==>
              && r.value.verification == found.value.verification
              && r.value.legacyStatus == found.value.verificationStatus
              && r.value.legacyNote == found.value.verificationNote
  {
    if found.None? then Err(NotFound("Profile not found"))
    else Ok(MyStatus(found.value.verification, found.value.verificationStatus, found.value.verificationNote))
  }

  // ---------------------------------------------------------------------
  // Properties relating several steps
  // ---------------------------------------------------------------------

  /** The code emailed by a successful start is accepted by the confirm step for
      the next ten minutes, and moves the profile to `phone_pending`. */
  lemma StartThenConfirmEmail(found: PlayerProfile, userEmail: string, draws: seq<int>, sentAt: Millis, now: Millis)
    requires |draws| == Codes.CodeLength && Codes.ValidDraws(draws)
    requires sentAt <= now <= sentAt + Codes.CodeTtlMs
    requires StartEmail(Some(found), Some(userEmail), draws, sentAt).Ok?
    ensures var s := StartEmail(Some(found), Some(userEmail), draws, sentAt).value;
            var c := ConfirmEmail(Some(s.profile), Some(JString(s.effects[0].code)), now);
            c.Ok? && c.value.profile.verification.status == PhonePending
  {
    var s := StartEmail(Some(found), Some(userEmail), draws, sentAt).value;
    var code := s.effects[0].code;
    assert code == Codes.GenerateCode(draws);
    assert |code| == 6;
    assert Given(Some(JString(code)));
  }

  /** A confirmed email code is single-use: once confirmed, every code is
      refused until a new one is issued. */
  lemma ConfirmedCodeCannotBeReplayed(found: PlayerProfile, code: Option<JsonValue>, now: Millis, replay: Option<JsonValue>, later: Millis)
    requires ConfirmEmail(Some(found), code, now).Ok?
    ensures ConfirmEmail(Some(ConfirmEmail(Some(found), code, now).value.profile), replay, later).Err?
  {
  }

  /** Email and phone cooldowns are tracked separately: an SMS send leaves the
      email channel's last-sent time as it was, and an email start leaves the
      phone channel's. */
  lemma CooldownsAreIndependent(found: PlayerProfile, phone: Option<JsonValue>, sent: Result<string, ProviderError>, userEmail: Option<string>, draws: seq<int>, now: Millis)
    requires |draws| == Codes.CodeLength && Codes.ValidDraws(draws)
    ensures SendPhone(Some(found), phone, sent, now).Ok? ==>
              SendPhone(Some(found), phone, sent, now).value.profile.verification.email.lastSentAt == found.verification.email.lastSentAt
    ensures StartEmail(Some(found), userEmail, draws, now).Ok? ==>
              StartEmail(Some(found), userEmail, draws, now).value.profile.verification.phone.lastSentAt == found.verification.phone.lastSentAt
  {
  }

  /** The stage guard of stats submission, stated over all seven statuses: with a
      valid body, it succeeds exactly from `stats_pending` and `needs_updates`. */
  lemma StatsStageGuard(found: PlayerProfile, snapshot: JsonValue, attested: JsonValue, files: Option<JsonValue>, now: Millis)
    requires snapshot.JObject? && Truthy(attested)
    requires CastFiles(FirstFiles(files)).Some?
    ensures SubmitStats(Some(found), Some(snapshot), Some(attested), files, now).Ok? <==>
              found.verification.status == StatsPending || found.verification.status == NeedsUpdates
    ensures SubmitStats(Some(found), Some(snapshot), Some(attested), files, now).Err? ==>
              SubmitStats(Some(found), Some(snapshot), Some(attested), files, now).error == BadRequest("Stats cannot be submitted at this stage")
  {
  }

  /** A supporting file that is an object fails the save with 500 from either
      open stage, and nothing is saved; a number is stored as its string form. */
  lemma ObjectFileFailsTheSave(found: PlayerProfile, snapshot: JsonValue, attested: JsonValue, now: Millis)
    requires snapshot.JObject? && Truthy(attested)
    requires found.verification.status in {StatsPending, NeedsUpdates}
    ensures SubmitStats(Some(found), Some(snapshot), Some(attested), Some(JArray([JObject(map[])])), now)
              == Err(ServerError("Failed to submit stats for review"))
    ensures var r := SubmitStats(Some(found), Some(snapshot), Some(attested), Some(JArray([JNumber(7)])), now);
            r.Ok? && r.value.profile.verification.stats.supportingFiles == [Some("7")]
    ensures var r := SubmitStats(Some(found), Some(snapshot), Some(attested), Some(JArray([JObject(map["_id" := JString("f1")])])), now);
            r.Ok? && r.value.profile.verification.stats.supportingFiles == [Some("f1")]
  {
    assert FirstFiles(Some(JArray([JObject(map[])]))) == [JObject(map[])];
    assert FirstFiles(Some(JArray([JNumber(7)]))) == [JNumber(7)];
    var ref := JObject(map["_id" := JString("f1")]);
    assert FirstFiles(Some(JArray([ref]))) == [ref];
    assert HasStringId(ref);
  }

  /** With the cooldown over and the provider answering, a number sent as an
      array fails the save with 500, while one sent as a JSON number is stored
      in its decimal form. */
  lemma UncastablePhoneFailsTheSave(found: PlayerProfile, sid: string, now: Millis)
    requires found.verification.phone.lastSentAt.None?
    ensures SendPhone(Some(found), Some(JArray([JString("555")])), Ok(sid), now)
              == Err(ServerError("Failed to send SMS verification code"))
    ensures var r := SendPhone(Some(found), Some(JNumber(555)), Ok(sid), now);
            r.Ok? && r.value.profile.verification.phone.number == Some("555")
  {
    assert CastString(JArray([JString("555")])).None?;
    assert CastString(JNumber(555)) == Some("555") by {
      assert JsNumber.ShowInt(555) == "555";
    }
    assert Text.Trim("555") == "555" by {
      Text.TrimOfTrimmed("555");
    }
    assert Cooldown.Check(None, now, Cooldown.PhoneRateLimitMs).Allowed?;
  }
}

=== FILE: players.dfy ===
/** Player profiles outside the verification workflow: the role-based view, the
    whitelisted upsert, the JUCO coach link, the JUCO coach's note and
    roster, and the page size of the player list. */
module Players {
  import opened Wrappers
  import opened Dates
  import opened Json
  import opened Http
  import opened Profiles
  import opened Updates
  import opened Coaches
  import Normalize
  import Text
  import Paging
  import JsNumber
  import Collection

  // ---------------------------------------------------------------------
  // The view a role gets
  // ---------------------------------------------------------------------

  /** The fields only coaches and admins may see. */
  const CoachOnlyFields: set<string> := {"jucoCoachNote", "jucoCoachNoteUpdatedAt"}

  /** `sanitizePlayerForRole`: a player sees the document without the JUCO
      coach's note; every other role sees it whole. */
  function SanitizePlayerForRole(profile: Option<map<string, JsonValue>>, role: string): (r: Option<map<string, JsonValue>>)
    ensures r.None? <==> profile.None?
    ensures r.Some? ==> forall k :: k in r.value <==> k in profile.value && !(role == "player" && k in CoachOnlyFields)
    ensures r.Some? ==> forall k :: k in r.value ==> r.value[k] == profile.value[k]
  {
    if profile.None? then None
    else if role == "player" then Some(profile.value - CoachOnlyFields)
    else profile
  }

  // ---------------------------------------------------------------------
  // The upsert document of `POST /players`
  // ---------------------------------------------------------------------

  /** Fields copied verbatim when the body has them. */
  const PlayerDirectFields: set<string> := {
    "fullName", "dob", "city", "state", "country", "heightFeet", "heightInches",
    "weightLbs", "school", "division", "budget", "preferredLocation", "avatarUrl",
    "coverUrl", "bio"}

  /** The two legacy verification fields, also copied verbatim. */
  const LegacyVerificationFields: set<string> := {"verificationStatus", "verificationNote"}

  /** Season statistics, written under `stats.`. */
  const StatsFields: set<string> := {"games", "gamesStarted", "goals", "assists", "points"}

  /** The paths derived from the body rather than copied. */
  const DerivedPaths: set<string> := {"positions", "schoolNormalized", "highlightUrls", "gpa", "gpaNumeric"}

  /** A body field that may be missing; `undefined` is falsy, like `null`. */
  function Field(body: map<string, JsonValue>, f: string): JsonValue {
    if f in body then body[f] else JNull
  }

  /** `highlightUrls`: an explicit list wins; otherwise the legacy pair, when
      either half is present, becomes the list of its truthy halves. */
  function HighlightWrite(body: map<string, JsonValue>): (w: Option<Write>)
    ensures w.Some? <==> "highlightUrls" in body || "highlightUrl1" in body || "highlightUrl2" in body
    ensures "highlightUrls" in body ==> w == Some(TruthyArray(body["highlightUrls"]))
    ensures w.Some? ==> w.value.Set? && w.value.v.JArray?
    ensures w.Some? && "highlightUrls" !in body ==>
              forall v :: v in w.value.v.items <==> Truthy(v) && (v == Field(body, "highlightUrl1") || v == Field(body, "highlightUrl2"))
  {
    if "highlightUrls" in body then Some(TruthyArray(body["highlightUrls"]))
    else if "highlightUrl1" in body || "highlightUrl2" in body then
      var pair := [Field(body, "highlightUrl1"), Field(body, "highlightUrl2")];
      var items := FilterTruthy(pair);
      assert forall v :: v in items <==> multiset(items)[v] > 0;
      assert forall v :: v in pair <==> multiset(pair)[v] > 0;
      Some(Set(JArray(items)))
    else None
  }

  /** `gpaNumeric`: the parsed number when it is finite, `null` otherwise.
      `parseFloat` returns `None` for a non-finite result. */
  function GpaNumericWrite(v: JsonValue, parseFloat: JsonValue -> Option<real>): (w: Write)
    ensures w.SetNumber? <==> parseFloat(v).Some?
    ensures w.SetNumber? ==> w.x == parseFloat(v).value
    ensures w.Set? ==> w.v == JNull
  {
    match parseFloat(v)
    case Some(x) => SetNumber(x)
    case None => Set(JNull)
  }

  /** The derived path `k` when the body yields one. */
  function DerivedWrite(body: map<string, JsonValue>, parseFloat: JsonValue -> Option<real>, k: string): Option<Write> {
    if k == "positions" then
      if "positions" in body then Some(TruthyArray(body["positions"])) else None
    else if k == "schoolNormalized" then
      if "school" in body then Some(NormalizedWrite(body["school"])) else None
    else if k == "highlightUrls" then HighlightWrite(body)
    else if k == "gpa" then
      if "gpa" in body then Some(Set(body["gpa"])) else None
    else if k == "gpaNumeric" then
      if "gpa" in body then Some(GpaNumericWrite(body["gpa"], parseFloat)) else None
    else None
  }

  /** The derived paths, each present exactly when the field it comes from is. */
  function DerivedWrites(body: map<string, JsonValue>, parseFloat: JsonValue -> Option<real>): (u: Update)
    ensures u.Keys <= DerivedPaths
    ensures "positions" in u <==> "positions" in body
    ensures "positions" in body ==> u["positions"] == TruthyArray(body["positions"])
    ensures "schoolNormalized" in u <==> "school" in body
    ensures "school" in body ==> u["schoolNormalized"] == NormalizedWrite(body["school"])
    ensures "highlightUrls" in u <==> HighlightWrite(body).Some?
    ensures "highlightUrls" in u ==> u["highlightUrls"] == HighlightWrite(body).value
    ensures ("gpa" in u <==> "gpa" in body) && ("gpaNumeric" in u <==> "gpa" in body)
    ensures "gpa" in body ==> u["gpa"] == Set(body["gpa"]) && u["gpaNumeric"] == GpaNumericWrite(body["gpa"], parseFloat)
  {
    map k | k in DerivedPaths && DerivedWrite(body, parseFloat, k).Some? :: DerivedWrite(body, parseFloat, k).value
  }

  /** A top-level path: no `.` in it. */
  predicate Plain(k: string) {
    forall i :: 0 <= i < |k| ==> k[i] != '.'
  }

  lemma WhitelistsArePlain()
    ensures forall k :: k in PlayerDirectFields ==> Plain(k)
    ensures forall k :: k in LegacyVerificationFields + DerivedPaths ==> Plain(k)
  {
  }

  lemma PathSetsAreDisjoint()
    ensures PlayerDirectFields !! DerivedPaths
    ensures LegacyVerificationFields !! DerivedPaths
    ensures "verification" !in PlayerDirectFields + LegacyVerificationFields + DerivedPaths
    ensures "user" !in PlayerDirectFields + LegacyVerificationFields + DerivedPaths
  {
  }

  /** Neither a plain path nor a statistics path reaches into `verification`. */
  lemma NotVerificationPath(k: string)
    requires Plain(k) || Text.StartsWith(k, "stats.")
    ensures !Text.StartsWith(k, "verification.")
  {
    if |k| >= 13 {
      if Plain(k) {
        assert k[12] != '.';
      } else {
        assert k[0] == 's';
      }
    }
  }

  /** The top-level paths of the update: the whitelisted fields and the
      derived paths. */
  function TopLevelWrites(body: map<string, JsonValue>, parseFloat: JsonValue -> Option<real>): (u: Update)
    ensures forall f :: f in PlayerDirectFields + LegacyVerificationFields ==> (f in u <==> f in body)
    ensures forall f :: f in PlayerDirectFields + LegacyVerificationFields && f in body ==> u[f] == Set(body[f])
    ensures forall k :: k in DerivedPaths ==> (k in u <==> k in DerivedWrites(body, parseFloat))
    ensures forall k :: k in DerivedPaths && k in u ==> u[k] == DerivedWrites(body, parseFloat)[k]
    ensures forall k :: k in u ==> Plain(k) && k in PlayerDirectFields + LegacyVerificationFields + DerivedPaths
    ensures "verification" !in u && "user" !in u
  {
    PathSetsAreDisjoint();
    WhitelistsArePlain();
    DerivedWrites(body, parseFloat) + CopyPresent(body, PlayerDirectFields + LegacyVerificationFields)
  }

  /** The `$set` document of `POST /players`: the whitelisted fields the body
      has, the derived paths, and the statistics under `stats.`; never the
      owner and never the verification sub-document. */
  function BuildPlayerUpdate(body: map<string, JsonValue>, parseFloat: JsonValue -> Option<real>): (u: Update)
    ensures forall k :: Plain(k) ==> (k in u <==> k in TopLevelWrites(body, parseFloat))
    ensures forall k :: Plain(k) && k in u ==> u[k] == TopLevelWrites(body, parseFloat)[k]
    ensures forall f :: f in StatsFields ==> ("stats." + f in u <==> f in body)
    ensures forall f :: f in StatsFields && f in body ==> u["stats." + f] == Set(body[f])
    ensures forall k :: k in u && !Plain(k) ==> Text.StartsWith(k, "stats.") && k[6..] in StatsFields
    ensures "verification" !in u && "user" !in u
    ensures forall k :: k in u ==> !Text.StartsWith(k, "verification.")
  {
    var stats := CopyPrefixed(body, StatsFields, "stats.");
    var top := TopLevelWrites(body, parseFloat);
    var u := stats + top;
    assert forall k :: k in stats ==> !Plain(k) by {
      forall k | k in stats ensures !Plain(k) {
        assert k[5] == '.';
      }
    }
    forall k | Plain(k) && k in u ensures u[k] == top[k] {
      assert k !in stats;
    }
    forall f | f in StatsFields
      ensures "stats." + f in u <==> f in body
      ensures f in body ==> u["stats." + f] == Set(body[f])
    {
      assert ("stats." + f)[5] == '.';
    }
    assert "verification" !in stats && "user" !in stats by {
      assert "verification"[0] != 's' && "user"[0] != 's';
    }
    forall k | k in u ensures !Text.StartsWith(k, "verification.") {
      NotVerificationPath(k);
    }
    u
  }

  // ---------------------------------------------------------------------
  // Linking a player to the JUCO coach of their school
  // ---------------------------------------------------------------------

  /** The school key a player is linked under: the stored key, or the
      normalized school name when no key is stored. */
  function SchoolKey(p: PlayerProfile): (k: string)
    ensures !Blank(p.schoolNormalized) ==> k == p.schoolNormalized.value
    ensures Blank(p.schoolNormalized) ==> Normalize.IsNormalized(k)
  {
    if !Blank(p.schoolNormalized) then p.schoolNormalized.value
    else if !Blank(p.school) then Normalize.NormalizeInstitutionName(Some(JString(p.school.value)))
    else ""
  }

  /** The JUCO coach whose program key is `key`: the first one in store order. */
  function ProgramCoach(coaches: seq<CoachProfile>, key: string): (r: Option<nat>)
    ensures r.Some? ==> r.value < |coaches| && coaches[r.value].coachType == "JUCO" && coaches[r.value].programNameNormalized == Some(key)
    ensures r.None? <==> forall j :: 0 <= j < |coaches| ==> !(coaches[j].coachType == "JUCO" && coaches[j].programNameNormalized == Some(key))
  {
    Collection.FindFirst(coaches, (c: CoachProfile) => c.coachType == "JUCO" && c.programNameNormalized == Some(key))
  }

  /** The player with coach, note and note time removed. */
  function Unlinked(p: PlayerProfile): PlayerProfile {
    p.(jucoCoach := None, jucoCoachNote := None, jucoCoachNoteUpdatedAt := None)
  }

  /** `linkJucoCoachForPlayer`: save the derived school key when there was none;
      with no key, or no JUCO coach for it, drop any coach together with the
      note; otherwise make that coach the player's coach, keeping the note. */
  function LinkJucoCoachForPlayer(p: PlayerProfile, coaches: seq<CoachProfile>): (q: PlayerProfile)
    ensures var key := SchoolKey(p);
            && q.schoolNormalized == (if Blank(p.schoolNormalized) && key != "" then Some(key) else p.schoolNormalized)
            && (key == "" || ProgramCoach(coaches, key).None? ==>
                  if p.jucoCoach.Some? then q == Unlinked(p).(schoolNormalized := q.schoolNormalized)
                  else q == p.(schoolNormalized := q.schoolNormalized))
            && (key != "" && ProgramCoach(coaches, key).Some? ==>
                  q == p.(schoolNormalized := q.schoolNormalized, jucoCoach := Some(coaches[ProgramCoach(coaches, key).value].user)))
  {
    var key := SchoolKey(p);
    var p1 := if Blank(p.schoolNormalized) && key != "" then p.(schoolNormalized := Some(key)) else p;
    if key == "" then
      if p1.jucoCoach.Some? then Unlinked(p1) else p1
    else
      match ProgramCoach(coaches, key)
      case None => if p1.jucoCoach.Some? then Unlinked(p1) else p1
      case Some(j) =>
        var next := coaches[j].user;
        if p1.jucoCoach != Some(next) then p1.(jucoCoach := Some(next)) else p1
  }

  /** Linking a player twice is linking once. */
  lemma LinkPlayerIdempotent(p: PlayerProfile, coaches: seq<CoachProfile>)
    ensures LinkJucoCoachForPlayer(LinkJucoCoachForPlayer(p, coaches), coaches) == LinkJucoCoachForPlayer(p, coaches)
  {
    var q := LinkJucoCoachForPlayer(p, coaches);
    assert SchoolKey(q) == SchoolKey(p);
  }

  /** The player side and the coach side agree: when a coach's sweep has run and
      that coach is the first JUCO coach for the program, linking any player at
      the program from the player side leaves the player as the sweep did. */
  lemma PlayerLinkAgreesWithCoachSweep(c: CoachProfile, coaches: seq<CoachProfile>, players: seq<PlayerProfile>, i: nat)
    requires c.coachType == "JUCO" && !Blank(c.programNameNormalized)
    requires i < |players|
    requires players[i].schoolNormalized == c.programNameNormalized
    requires ProgramCoach(coaches, c.programNameNormalized.value).Some?
    requires coaches[ProgramCoach(coaches, c.programNameNormalized.value).value].user == c.user
    ensures var swept := LinkPlayersToJucoCoach(c, players).players[i];
            LinkJucoCoachForPlayer(swept, coaches) == swept
  {
  }

  // ---------------------------------------------------------------------
  // The JUCO coach's note on a player
  // ---------------------------------------------------------------------

  const NoteWordLimit: nat := 200

  /** The schema's `maxlength` on the stored note. */
  const NoteMaxLength: nat := 2000

  /** Whether the note the words make fits the schema's `maxlength`; a longer
      one makes the save fail. */
  predicate NoteFits(words: seq<string>) {
    |Text.JoinWords(words)| <= NoteMaxLength
  }

  /** `String(note || '').trim().split(/\s+/).filter(Boolean)`. */
  function NoteWords(note: Option<JsonValue>): (ws: seq<string>)
    ensures forall i :: 0 <= i < |ws| ==> Text.IsWord(ws[i])
  {
    Text.Words(Text.Trim(ToJsString(if Given(note) then note.value else JString(""))))
  }

  datatype NoteReply = NoteReply(note: string, updatedAt: Option<Millis>)

  /** The handler's outcome. The collection is returned on failures too: the
      link step saves the player before the guards that can still refuse. */
  datatype NoteOutcome = NoteOutcome(store: seq<PlayerProfile>, reply: Result<NoteReply, Failure>)

  /** The guards after the link, in the handler's order; `None` when all pass. */
  function NoteGuard(linked: PlayerProfile, coaches: seq<CoachProfile>, caller: UserId, words: seq<string>): (e: Option<Failure>)
    ensures ProfileOf(coaches, caller).None? ==> e == Some(Forbidden("JUCO coach profile required"))
    ensures e.None? <==>
              && ProfileOf(coaches, caller).Some?
              && var c := coaches[ProfileOf(coaches, caller).value];
              && c.coachType == "JUCO"
              && !Blank(c.programNameNormalized)
              && SchoolKey(linked) == c.programNameNormalized.value
              && (linked.jucoCoach.None? || linked.jucoCoach == Some(caller))
              && |words| <= NoteWordLimit
  {
    match ProfileOf(coaches, caller)
    case None => Some(Forbidden("JUCO coach profile required"))
    case Some(j) =>
      var c := coaches[j];
      var school := SchoolKey(linked);
      var program := if c.programNameNormalized.Some? then c.programNameNormalized.value else "";
      if c.coachType != "JUCO" then Some(Forbidden("JUCO coach profile required"))
      else if program == "" then Some(BadRequest("Coach program name is required to set notes"))
      else if school == "" then Some(BadRequest("Player must have a school on file before adding notes"))
      else if school != program then Some(Forbidden("Player does not belong to your program"))
      else if linked.jucoCoach.Some? && linked.jucoCoach.value != caller then Some(Forbidden("Another coach manages this player"))
      else if |words| > NoteWordLimit then Some(BadRequest("Note exceeds 200-word limit"))
      else None
  }

  /** The player once the guards have passed: the caller becomes the coach and
      the note, its words joined by single spaces, is stored with the time; an
      empty note clears both. */
  function WriteNote(linked: PlayerProfile, caller: UserId, words: seq<string>, now: Millis): (r: (PlayerProfile, NoteReply))
    requires forall i :: 0 <= i < |words| ==> Text.IsWord(words[i])
    ensures var q := r.0;
            && q == linked.(jucoCoach := q.jucoCoach, jucoCoachNote := q.jucoCoachNote, jucoCoachNoteUpdatedAt := q.jucoCoachNoteUpdatedAt)
            && q.jucoCoach == Some(caller)
            && (|words| == 0 ==> q.jucoCoachNote.None? && q.jucoCoachNoteUpdatedAt.None? && r.1 == NoteReply("", None))
            && (|words| > 0 ==>
                  && q.jucoCoachNote.Some?
                  && Text.Words(q.jucoCoachNote.value) == words
                  && Text.Trimmed(q.jucoCoachNote.value)
                  && |q.jucoCoachNote.value| == |Text.JoinWords(words)|
                  && q.jucoCoachNoteUpdatedAt == Some(now)
                  && r.1 == NoteReply(q.jucoCoachNote.value, Some(now)))
  {
    if |words| == 0 then
      (linked.(jucoCoach := Some(caller), jucoCoachNote := None, jucoCoachNoteUpdatedAt := None), NoteReply("", None))
    else
      var body := Text.JoinWords(words);
      Text.WordsOfJoin(words);
      Text.JoinWordsTrimmed(words);
      (linked.(jucoCoach := Some(caller), jucoCoachNote := Some(body), jucoCoachNoteUpdatedAt := Some(now)), NoteReply(body, Some(now)))
  }

  /** The note request against the linked player: the guards' refusal with
      the player as linked; a note over the schema's `maxlength`, whose save
      fails, with the player as linked; or the written note and its reply. */
  function DecideNote(linked: PlayerProfile, coaches: seq<CoachProfile>, caller: UserId, note: Option<JsonValue>, now: Millis): (r: (PlayerProfile, Result<NoteReply, Failure>))
    ensures var words := NoteWords(note);
            var guard := NoteGuard(linked, coaches, caller, words);
            && (guard.Some? ==> r == (linked, Err(guard.value)))
            && (guard.None? && !NoteFits(words) ==> r == (linked, Err(ServerError("Failed to update JUCO note"))))
            && (guard.None? && NoteFits(words) ==> r == (WriteNote(linked, caller, words, now).0, Ok(WriteNote(linked, caller, words, now).1)))
    ensures r.1.Ok? ==> r.0.jucoCoachNote.None? || |r.0.jucoCoachNote.value| <= NoteMaxLength
  {
    var words := NoteWords(note);
    match NoteGuard(linked, coaches, caller, words)
    case Some(e) => (linked, Err(e))
    case None =>
      if !NoteFits(words) then (linked, Err(ServerError("Failed to update JUCO note")))
      else
        var (q, reply) := WriteNote(linked, caller, words, now);
        (q, Ok(reply))
  }

  /** `PATCH /players/:id/juco-note` by the coach `caller`. */
  function UpdateJucoNote(store: seq<PlayerProfile>, coaches: seq<CoachProfile>, caller: UserId, id: ProfileId, note: Option<JsonValue>, now: Millis): (r: NoteOutcome)
    ensures id == "" ==> r == NoteOutcome(store, Err(BadRequest("Player id is required")))
    ensures id != "" && FindById(store, id).None? ==> r == NoteOutcome(store, Err(NotFound("Player not found")))
    ensures id != "" && FindById(store, id).Some? ==>
              var i := FindById(store, id).value;
              var d := DecideNote(LinkJucoCoachForPlayer(store[i], coaches), coaches, caller, note, now);
              && OnlyChanged(store, r.store, i)
              && r == NoteOutcome(store[i := d.0], d.1)
              && (r.reply.Ok? ==> r.store[i].jucoCoachNote.None? || |r.store[i].jucoCoachNote.value| <= NoteMaxLength)
  {
    if id == "" then NoteOutcome(store, Err(BadRequest("Player id is required")))
    else
      match FindById(store, id)
      case None => NoteOutcome(store, Err(NotFound("Player not found")))
      case Some(i) =>
        var d := DecideNote(LinkJucoCoachForPlayer(store[i], coaches), coaches, caller, note, now);
        NoteOutcome(store[i := d.0], d.1)
  }

  /** A single word over 2000 characters passes the 200-word guard, but the
      save refuses it: the answer is 500 and only the coach link, saved before
      the guards, remains. */
  lemma LongNoteFailsTheSave(store: seq<PlayerProfile>, coaches: seq<CoachProfile>, caller: UserId, id: ProfileId, w: string, now: Millis)
    requires Text.IsWord(w) && |w| > NoteMaxLength
    requires id != "" && FindById(store, id).Some?
    requires NoteGuard(LinkJucoCoachForPlayer(store[FindById(store, id).value], coaches), coaches, caller, [w]).None?
    ensures var i := FindById(store, id).value;
            UpdateJucoNote(store, coaches, caller, id, Some(JString(w)), now)
              == NoteOutcome(store[i := LinkJucoCoachForPlayer(store[i], coaches)], Err(ServerError("Failed to update JUCO note")))
  {
    var i := FindById(store, id).value;
    var linked := LinkJucoCoachForPlayer(store[i], coaches);
    NoteWordsOfWord(w);
    assert !NoteFits([w]) by {
      assert Text.JoinWords([w]) == w;
    }
    assert DecideNote(linked, coaches, caller, Some(JString(w)), now) == (linked, Err(ServerError("Failed to update JUCO note")));
  }

  /** A note of one word splits into that word. */
  lemma NoteWordsOfWord(w: string)
    requires Text.IsWord(w)
    ensures NoteWords(Some(JString(w))) == [w]
  {
    assert Text.Words(w) == [w] by {
      assert Text.JoinWords([w]) == w;
      Text.WordsOfJoin([w]);
    }
    assert Text.Trim(w) == w by {
      Text.TrimOfTrimmed(w);
    }
    assert Given(Some(JString(w))) && ToJsString(JString(w)) == w;
  }

  /** Sending back the stored note stores the same note: the stored form is a
      fixed point of the word split and join. */
  lemma StoredNoteIsStable(note: Option<JsonValue>)
    requires |NoteWords(note)| > 0
    ensures NoteWords(Some(JString(Text.JoinWords(NoteWords(note))))) == NoteWords(note)
  {
    var ws := NoteWords(note);
    var body := Text.JoinWords(ws);
    Text.JoinWordsTrimmed(ws);
    Text.WordsOfJoin(ws);
    Text.TrimOfTrimmed(body);
    assert Given(Some(JString(body)));
    assert ToJsString(JString(body)) == body;
  }

  // ---------------------------------------------------------------------
  // Page sizes
  // ---------------------------------------------------------------------

  /** `GET /players`: default 20, at most 50. */
  function PlayerListLimit(q: Option<string>): (l: int)
    ensures 1 <= l <= 50
    ensures q.None? ==> l == 20
  {
    Paging.SafeLimit(q, 20, 20, 50)
  }

  /** `GET /players/juco/my-players`: a missing limit is 50, but an unparsable
      or zero one falls back to 20; at most 100. */
  function RosterLimit(q: Option<string>): (l: int)
    ensures 1 <= l <= 100
    ensures q.None? ==> l == 50
  {
    Paging.SafeLimit(q, 50, 20, 100)
  }

  /** The roster reads a written number as itself, within [1, 100], except
      that `0` falls back to 20 while a missing limit is 50. */
  lemma RosterLimitOfNumber(n: int)
    ensures RosterLimit(Some(JsNumber.ShowInt(n))) == if n == 0 then 20 else Paging.Clamp(n, 1, 100)
    ensures RosterLimit(Some(JsNumber.ShowInt(0))) != RosterLimit(None)
  {
    Paging.RequestedOfNumber(n, 50, 20);
    Paging.RequestedOfNumber(0, 50, 20);
  }

  /** The player list reads a written number as itself, within [1, 50]; `0`
      and a missing limit both give 20. */
  lemma PlayerListLimitOfNumber(n: int)
    ensures PlayerListLimit(Some(JsNumber.ShowInt(n))) == if n == 0 then 20 else Paging.Clamp(n, 1, 50)
  {
    Paging.RequestedOfNumber(n, 20, 20);
  }

  // ---------------------------------------------------------------------
  // The JUCO coach's roster
  // ---------------------------------------------------------------------

  /** The players linked to `coach`, most recently saved first. The document's
      `updatedAt` is the timestamp Mongoose stamps on every save; it is not a
      field of the model, so `stamp` supplies it. */
  function RosterOf(store: seq<PlayerProfile>, coach: UserId, stamp: PlayerProfile -> int): (r: seq<PlayerProfile>)
    ensures Collection.SortedDesc(r, stamp)
    ensures forall x :: x in r <==> x in store && x.jucoCoach == Some(coach)
    ensures multiset(r) <= multiset(store)
  {
    var linked := Collection.Filter(store, (p: PlayerProfile) => p.jucoCoach == Some(coach));
    var sorted := Collection.SortDesc(linked, stamp);
    forall x ensures x in sorted <==> x in linked {
      Collection.SortKeepsMembers(linked, stamp, x);
    }
    sorted
  }

  datatype RosterPage = RosterPage(data: seq<PlayerProfile>, page: int, limit: int, total: nat, totalPages: int)

  /** `GET /players/juco/my-players` for the coach `caller` (the gate is
      `Gates.RequireJucoCoach`): the window that skips `(page - 1) * limit`
      of the caller's players, the count of all of them, and the page count. */
  function Roster(store: seq<PlayerProfile>, caller: UserId, page: Option<string>, limit: Option<string>,
                  stamp: PlayerProfile -> int): (r: RosterPage)
    ensures r.limit == RosterLimit(limit) && r.page == Paging.SafePage(page)
    ensures r.data == Collection.Window(RosterOf(store, caller, stamp), Paging.Skip(r.page, r.limit), r.limit)
    ensures r.total == |RosterOf(store, caller, stamp)|
    ensures r.totalPages == Paging.TotalPages(r.total, r.limit)
  {
    var l := RosterLimit(limit);
    var pg := Paging.SafePage(page);
    var roster := RosterOf(store, caller, stamp);
    RosterPage(Collection.Window(roster, Paging.Skip(pg, l), l), pg, l, |roster|, Paging.TotalPages(|roster|, l))
  }

  /** A roster page lists only players linked to the caller, most recently
      saved first, and no more than the page size. */
  lemma RosterListsOnlyTheCallersPlayers(store: seq<PlayerProfile>, caller: UserId, page: Option<string>, limit: Option<string>,
                                         stamp: PlayerProfile -> int)
    ensures var r := Roster(store, caller, page, limit, stamp);
            && |r.data| <= r.limit
            && Collection.SortedDesc(r.data, stamp)
            && forall x :: x in r.data ==> x in store && x.jucoCoach == Some(caller)
  {
    var r := Roster(store, caller, page, limit, stamp);
    Collection.WindowOfSorted(RosterOf(store, caller, stamp), Paging.Skip(r.page, r.limit), r.limit, stamp);
  }

  /** Every player linked to the caller is on some roster page within
      `totalPages`: the one numbered `k / limit + 1` for its position `k`. */
  lemma EveryLinkedPlayerIsOnAPage(store: seq<PlayerProfile>, caller: UserId, limit: Option<string>,
                                   stamp: PlayerProfile -> int, p: PlayerProfile)
    requires p in store && p.jucoCoach == Some(caller)
    ensures var roster := RosterOf(store, caller, stamp);
            var l := RosterLimit(limit);
            exists k :: 0 <= k < |roster| && roster[k] == p
              && Paging.PageOfItem(k, l) <= Paging.TotalPages(|roster|, l)
              && p in Collection.Window(roster, Paging.Skip(Paging.PageOfItem(k, l), l), l)
  {
    var roster := RosterOf(store, caller, stamp);
    var l := RosterLimit(limit);
    var k :| 0 <= k < |roster| && roster[k] == p;
    Paging.PagesCoverItems(|roster|, l, k);
    Collection.InWindow(roster, Paging.Skip(Paging.PageOfItem(k, l), l), l, k);
  }
}

=== FILE: profile.dfy ===
/** The player profile document and its embedded verification record. */
module Profiles {
  import opened Wrappers
  import opened Dates
  import opened Json
  import opened Digest
  import Collection

  type UserId = string
  type ProfileId = string

  /** The stage of the verification workflow. */
  datatype VerificationStatus =
    | Unstarted
    | EmailPending
    | PhonePending
    | StatsPending
    | InReview
    | Verified
    | NeedsUpdates
  {
    /** The value stored in the document. */
    function Name(): string {
      match this
      case Unstarted => "none"
      case EmailPending => "email_pending"
      case PhonePending => "phone_pending"
      case StatsPending => "stats_pending"
      case InReview => "in_review"
      case Verified => "verified"
      case NeedsUpdates => "needs_updates"
    }
  }

  /** Reads a stored status name back; anything outside the enumeration is refused. */
  function StatusFromName(s: string): (r: Option<VerificationStatus>)
    ensures r.Some? ==> r.value.Name() == s
  {
    if s == "none" then Some(Unstarted)
    else if s == "email_pending" then Some(EmailPending)
    else if s == "phone_pending" then Some(PhonePending)
    else if s == "stats_pending" then Some(StatsPending)
    else if s == "in_review" then Some(InReview)
    else if s == "verified" then Some(Verified)
    else if s == "needs_updates" then Some(NeedsUpdates)
    else None
  }

  /** The seven names are distinct, so the enumeration round-trips through its
      stored form. */
  lemma StatusNameRoundTrip(st: VerificationStatus)
    ensures StatusFromName(st.Name()) == Some(st)
  {
  }

  /** `in_review` is the only name that starts with `i`. */
  lemma InReviewByName(st: VerificationStatus)
    requires st.Name() == "in_review"
    ensures st == InReview
  {
    assert st.Name()[0] == 'i';
  }

  /** Email channel: every field is optional. */
  datatype EmailRecord = EmailRecord(
    codeHash: Option<Digest>,
    expiresAt: Option<Millis>,
    verifiedAt: Option<Millis>,
    lastSentAt: Option<Millis>)

  /** Phone channel: every field is optional. The SMS provider keeps the code,
      so `codeHash` and `expiresAt` are declared but never written. */
  datatype PhoneRecord = PhoneRecord(
    number: Option<string>,
    codeHash: Option<Digest>,
    expiresAt: Option<Millis>,
    verifiedAt: Option<Millis>,
    lastSentAt: Option<Millis>)

  /** The submitted stats and the reviewer's verdict on them. A supporting file
      is a `String` path, `None` being a stored `null`. */
  datatype StatsRecord = StatsRecord(
    snapshot: Option<JsonValue>,
    attested: bool,
    supportingFiles: seq<Option<string>>,
    submittedAt: Option<Millis>,
    reviewerId: Option<UserId>,
    reviewerNote: Option<string>,
    verifiedAt: Option<Millis>)

  /** One admin decision in the audit trail. */
  datatype HistoryEntry = HistoryEntry(status: VerificationStatus, note: string, actor: UserId, createdAt: Millis)

  datatype Verification = Verification(
    status: VerificationStatus,
    email: EmailRecord,
    phone: PhoneRecord,
    stats: StatsRecord,
    history: seq<HistoryEntry>,
    updatedAt: Option<Millis>)

  /** The fields of a player profile the modelled operations read or write. */
  datatype PlayerProfile = PlayerProfile(
    id: ProfileId,
    user: UserId,
    fullName: Option<string>,
    school: Option<string>,
    schoolNormalized: Option<string>,
    division: string,
    jucoCoach: Option<UserId>,
    jucoCoachNote: Option<string>,
    jucoCoachNoteUpdatedAt: Option<Millis>,
    heightFeet: Option<int>,
    heightInches: Option<int>,
    weightLbs: Option<int>,
    gpaNumeric: Option<real>,
    verificationStatus: string,
    verificationNote: Option<string>,
    verification: Verification)

  const MaxNoteLength: nat := 2000

  const EmptyEmail := EmailRecord(None, None, None, None)
  const EmptyPhone := PhoneRecord(None, None, None, None, None)
  const EmptyStats := StatsRecord(None, false, [], None, None, None, None)

  /** The verification record of a new profile. */
  const InitialVerification := Verification(Unstarted, EmptyEmail, EmptyPhone, EmptyStats, [], None)

  /** A profile as the schema defaults create it for `user`. */
  function NewProfile(id: ProfileId, user: UserId): (p: PlayerProfile)
    ensures p.verification.status == Unstarted && p.verification.history == []
    ensures !p.verification.stats.attested && p.verification.stats.supportingFiles == []
    ensures p.verificationStatus == "none" && p.division == ""
    ensures SchemaBounds(p) && Invariant(p.verification)
  {
    PlayerProfile(id, user, None, None, None, "", None, None, None, None, None, None, None, "none", None, InitialVerification)
  }

  /** The numeric bounds the schema declares for a profile. */
  predicate SchemaBounds(p: PlayerProfile) {
    && (p.heightFeet.Some? ==> 0 <= p.heightFeet.value <= 9)
    && (p.heightInches.Some? ==> 0 <= p.heightInches.value <= 11)
    && (p.weightLbs.Some? ==> p.weightLbs.value >= 0)
    && (p.gpaNumeric.Some? ==> 0.0 <= p.gpaNumeric.value <= 4.0)
  }

  /** The legacy, admin-free status values the schema enumerates. */
  predicate IsLegacyStatus(s: string) {
    s in {"none", "requested", "verified", "rejected"}
  }

  /** Audit history is in time order: appends happen at non-decreasing instants. */
  predicate HistoryOrdered(h: seq<HistoryEntry>) {
    forall i, j :: 0 <= i < j < |h| ==> h[i].createdAt <= h[j].createdAt
  }

  /** What every save of the verification record keeps true: the reviewer note
      fits the schema's length bound, and the history is in time order. */
  predicate Invariant(v: Verification) {
    && (v.stats.reviewerNote.Some? ==> |v.stats.reviewerNote.value| <= MaxNoteLength)
    && HistoryOrdered(v.history)
  }

  /** At most one profile per user, and profile ids are unique. */
  predicate UniqueOwners(store: seq<PlayerProfile>) {
    && (forall i, j :: 0 <= i < j < |store| ==> store[i].user != store[j].user)
    && (forall i, j :: 0 <= i < j < |store| ==> store[i].id != store[j].id)
  }

  /** `findById`: the position of the profile with id `id`. */
  function FindById(store: seq<PlayerProfile>, id: ProfileId): (r: Option<nat>)
    ensures r.Some? ==> r.value < |store| && store[r.value].id == id
    ensures r.None? <==> forall j :: 0 <= j < |store| ==> store[j].id != id
  {
    Collection.FindFirst(store, (p: PlayerProfile) => p.id == id)
  }

  /** Only position `i` of the collection differs. */
  predicate OnlyChanged(store: seq<PlayerProfile>, store': seq<PlayerProfile>, i: nat) {
    && |store'| == |store|
    && i < |store|
    && forall j :: 0 <= j < |store| && j != i ==> store'[j] == store[j]
  }
}

=== FILE: reminders.dfy ===
/** The scheduled reminder run: players stalled in one of the three player
    steps for longer than the reminder age get a nudge naming their next step,
    and an operator address gets a count. */
module Reminders {
  import opened Wrappers
  import opened Dates
  import opened Profiles
  import opened Effects
  import JsNumber
  import Collection

  /** Three days. */
  const DefaultReminderAgeMs: int := 3 * 24 * 60 * 60 * 1000

  /** `parseInt(env || '', 10) || 3 days`: a missing, unparsable or zero setting
      falls back to the default; any other integer, negative included, is used. */
  function ReminderAge(env: Option<string>): (age: int)
    ensures age != 0
    ensures env.None? ==> age == DefaultReminderAgeMs
    ensures env.Some? && JsNumber.ParseInt(env.value).Some? && JsNumber.ParseInt(env.value).value != 0 ==>
              age == JsNumber.ParseInt(env.value).value
    ensures env.Some? && (JsNumber.ParseInt(env.value).None? || JsNumber.ParseInt(env.value) == Some(0)) ==>
              age == DefaultReminderAgeMs
  {
    var parsed := if env.None? then None else JsNumber.ParseInt(env.value);
    if parsed.None? || parsed.value == 0 then DefaultReminderAgeMs else parsed.value
  }

  /** The three statuses that wait on the player. */
  predicate AwaitsPlayer(st: VerificationStatus) {
    st == EmailPending || st == PhonePending || st == StatsPending
  }

  /** The query: a player step, last updated at or before the cutoff. A record
      never updated is not selected. */
  predicate NeedsReminder(p: PlayerProfile, cutoff: int) {
    && AwaitsPlayer(p.verification.status)
    && p.verification.updatedAt.Some?
    && p.verification.updatedAt.value <= cutoff
  }

  const FallbackMessage: string := "Please continue your verification steps in Portal."

  /** The reminder text for a status; the fallback is the initial value the
      later checks overwrite. */
  function ReminderMessage(st: VerificationStatus): string {
    if st == StatsPending then "Submit your stats to finish your Portal verification."
    else if st == PhonePending then "Verify your phone number to continue your Portal verification."
    else if st == EmailPending then "Verify your email to continue your Portal verification."
    else FallbackMessage
  }

  /** Every selected profile gets a message naming its own step: the fallback is
      unreachable, because the query admits only the three statuses the checks name. */
  lemma SelectedGetSpecificMessage(p: PlayerProfile, cutoff: int)
    requires NeedsReminder(p, cutoff)
    ensures ReminderMessage(p.verification.status) != FallbackMessage
  {
  }

  function Reminder(p: PlayerProfile): Effect {
    NotifyUser(p.user, "Portal verification reminder", ReminderMessage(p.verification.status))
  }

  /** The profiles the run selects, in store order. */
  function Selected(store: seq<PlayerProfile>, cutoff: int): (r: seq<PlayerProfile>)
    ensures forall x :: x in r <==> x in store && NeedsReminder(x, cutoff)
  {
    Collection.Filter(store, (p: PlayerProfile) => NeedsReminder(p, cutoff))
  }

  /** One run at `now`: a reminder for each selected profile, in order, then the
      summary when an alert address is configured. */
  function RunReminders(store: seq<PlayerProfile>, now: Millis, ageEnv: Option<string>, alert: Option<string>): (effects: seq<Effect>)
    ensures var sel := Selected(store, now - ReminderAge(ageEnv));
            && |effects| == |sel| + (if alert.Some? && alert.value != "" then 1 else 0)
            && (forall i :: 0 <= i < |sel| ==> effects[i] == Reminder(sel[i]))
            && (alert.Some? && alert.value != "" ==>
                  effects[|sel|] == SummaryEmail(alert.value, "Portal verification reminder summary", |sel|))
  {
    var sel := Selected(store, now - ReminderAge(ageEnv));
    var reminders := seq(|sel|, i requires 0 <= i < |sel| => Reminder(sel[i]));
    if alert.Some? && alert.value != "" then
      reminders + [SummaryEmail(alert.value, "Portal verification reminder summary", |sel|)]
    else reminders
  }

  /** With the default age, a player who acted within the last three days is
      not reminded, and one idle for three days or more is. */
  lemma DefaultAgeBoundary(p: PlayerProfile, now: Millis)
    requires AwaitsPlayer(p.verification.status) && p.verification.updatedAt.Some?
    ensures NeedsReminder(p, now - ReminderAge(None)) <==> p.verification.updatedAt.value + DefaultReminderAgeMs <= now
  {
  }

  /** Records under review or decided are never reminded, whatever their age. */
  lemma DecidedNeverReminded(store: seq<PlayerProfile>, now: Millis, ageEnv: Option<string>, p: PlayerProfile)
    requires p.verification.status in {Unstarted, InReview, Verified, NeedsUpdates}
    ensures p !in Selected(store, now - ReminderAge(ageEnv))
  {
  }
}

=== FILE: search.dfy ===
/** Free-text search as the admin list endpoints do it: the term is trimmed,
    every regular-expression metacharacter is escaped, and the result is
    compiled with the `i` flag. The escaping makes the pattern a literal, so a
    match is a case-insensitive substring occurrence. */
module Search {
  import opened Wrappers
  import Text

  /** The class `[.*+?^${}()|[\]\\]` the handlers escape. */
  predicate IsRegexSpecial(c: char) {
    c in {'.', '*', '+', '?', '^', '$', '{', '}', '(', ')', '|', '[', ']', '\\'}
  }

  /** `replace(/[.*+?^${}()|[\]\\]/g, '\\$&')`: a literal pattern that
      spells the term. */
  function EscapeRegex(s: string): (e: string)
    ensures |e| >= |s|
    ensures LiteralPattern(e) && PatternText(e) == s
  {
    if |s| == 0 then ""
    else
      var rest := EscapeRegex(s[1..]);
      assert s == [s[0]] + s[1..];
      if IsRegexSpecial(s[0]) then
        var e := ['\\', s[0]] + rest;
        assert e[2..] == rest;
        e
      else
        var e := [s[0]] + rest;
        assert e[1..] == rest;
        e
  }

  /** A pattern with no bare metacharacter: every special character is preceded
      by a backslash, so the pattern matches exactly the literal it spells. */
  predicate LiteralPattern(e: string)
    decreases |e|
  {
    if |e| == 0 then true
    else if e[0] == '\\' then |e| >= 2 && IsRegexSpecial(e[1]) && LiteralPattern(e[2..])
    else !IsRegexSpecial(e[0]) && LiteralPattern(e[1..])
  }

  /** The literal text a literal pattern matches. */
  function PatternText(e: string): string
    requires LiteralPattern(e)
    decreases |e|
  {
    if |e| == 0 then ""
    else if e[0] == '\\' then [e[1]] + PatternText(e[2..])
    else [e[0]] + PatternText(e[1..])
  }

  /** Escaping is the only way to spell a term as a literal pattern: reading
      a literal pattern back and escaping the text gives the same pattern. With
      `EscapeRegex`'s own contract, escaping and `PatternText` are inverse
      bijections between terms and literal patterns. */
  lemma {:induction false} EscapeIsTheOnlyLiteral(e: string)
    requires LiteralPattern(e)
    ensures EscapeRegex(PatternText(e)) == e
    decreases |e|
  {
    if |e| > 0 {
      var t := PatternText(e);
      if e[0] == '\\' {
        EscapeIsTheOnlyLiteral(e[2..]);
        assert t == [e[1]] + PatternText(e[2..]);
        assert t[1..] == PatternText(e[2..]);
        assert e == ['\\', e[1]] + e[2..];
      } else {
        EscapeIsTheOnlyLiteral(e[1..]);
        assert t == [e[0]] + PatternText(e[1..]);
        assert t[1..] == PatternText(e[1..]);
        assert e == [e[0]] + e[1..];
      }
    }
  }

  /** `needle` occurs in `hay` starting at position `i`. */
  predicate OccursAt(hay: string, needle: string, i: nat) {
    i + |needle| <= |hay| && hay[i..i + |needle|] == needle
  }

  predicate Contains(hay: string, needle: string) {
    exists i: nat :: i <= |hay| && OccursAt(hay, needle, i)
  }

  /** `new RegExp(escape(term), 'i')` tested against a document field: the field
      must be present, and contain the term ignoring case, as far as
      `Text.LowerChar` covers case. */
  predicate Matches(field: Option<string>, term: string) {
    field.Some? && Contains(Text.Lower(field.value), Text.Lower(term))
  }

  /** The empty term (a search of white space only) matches every present field. */
  lemma EmptyTermMatchesPresent(field: string)
    ensures Matches(Some(field), "")
  {
    assert OccursAt(Text.Lower(field), Text.Lower(""), 0);
  }

  /** The search term the handlers compile: `String(search).trim()`. */
  function SearchTerm(q: string): (t: string)
    ensures Text.Trimmed(t) && |t| <= |q|
  {
    Text.Trim(q)
  }
}

=== FILE: text.dfy ===
/** The JavaScript string primitives the handlers lean on: `trim`, the `\s`
    character class, `toLowerCase`, `split(/\s+/)`, `join(' ')` and
    `replace(/\s+/g, ' ')`. */
module Text {

  /** JavaScript's white space and line terminators: the set `String.prototype.trim`
      removes and the regular-expression class `\s` matches. */
  predicate IsWhitespace(c: char) {
    || c == ' ' || c == '\t' || c == '\n' || c == '\r' || c == '\U{000B}' || c == '\U{000C}'
    || c == '\U{00A0}' || c == '\U{1680}' || ('\U{2000}' <= c <= '\U{200A}')
    || c == '\U{2028}' || c == '\U{2029}' || c == '\U{202F}' || c == '\U{205F}'
    || c == '\U{3000}' || c == '\U{FEFF}'
  }

  /** The capitals whose `toLowerCase` the model covers: each maps to one
      other character. These are the ASCII, Latin-1 and Latin Extended-A
      capitals (the dotted capital I, `\U{0130}`, excepted, since it lowers to
      two characters) and the basic Cyrillic capitals. */
  predicate IsUpper(c: char) {
    || ('A' <= c <= 'Z')
    || ('\U{00C0}' <= c <= '\U{00DE}' && c != '\U{00D7}')
    || ('\U{0100}' <= c <= '\U{012F}' && c as int % 2 == 0)
    || ('\U{0132}' <= c <= '\U{0137}' && c as int % 2 == 0)
    || ('\U{0139}' <= c <= '\U{0148}' && c as int % 2 == 1)
    || ('\U{014A}' <= c <= '\U{0177}' && c as int % 2 == 0)
    || c == '\U{0178}'
    || ('\U{0179}' <= c <= '\U{017E}' && c as int % 2 == 1)
    || ('\U{0400}' <= c <= '\U{042F}')
  }

  /** `toLowerCase` on one character, over the capitals `IsUpper` covers;
      every other character is left as it is. */
  function LowerChar(c: char): (l: char)
    ensures !IsUpper(l)
    ensures IsWhitespace(l) <==> IsWhitespace(c)
    ensures !IsUpper(c) ==> l == c
    ensures 'A' <= c <= 'Z' ==> l as int == c as int + 32
  {
    if !IsUpper(c) then c
    else if 'A' <= c <= 'Z' || '\U{00C0}' <= c <= '\U{00DE}' || '\U{0410}' <= c <= '\U{042F}' then (c as int + 32) as char
    else if '\U{0400}' <= c <= '\U{040F}' then (c as int + 80) as char
    else if c == '\U{0178}' then '\U{00FF}'
    else (c as int + 1) as char
  }

  /** `toUpperCase` on one character, over the ASCII letters only. */
  function UpperChar(c: char): (u: char)
    ensures 'a' <= c <= 'z' ==> u as int == c as int - 32
    ensures !('a' <= c <= 'z') ==> u == c
    ensures !('a' <= u <= 'z')
  {
    if 'a' <= c <= 'z' then (c as int - 32) as char else c
  }

  function Upper(s: string): (r: string)
    ensures |r| == |s|
    ensures forall i :: 0 <= i < |s| ==> r[i] == UpperChar(s[i])
  {
    seq(|s|, i requires 0 <= i < |s| => UpperChar(s[i]))
  }

  function Lower(s: string): (r: string)
    ensures |r| == |s|
    ensures forall i :: 0 <= i < |s| ==> r[i] == LowerChar(s[i])
  {
    seq(|s|, i requires 0 <= i < |s| => LowerChar(s[i]))
  }

  predicate NoUpper(s: string) {
    forall i :: 0 <= i < |s| ==> !IsUpper(s[i])
  }

  /** No white space at either end. */
  predicate Trimmed(s: string) {
    |s| == 0 || (!IsWhitespace(s[0]) && !IsWhitespace(s[|s| - 1]))
  }

  /** Drops the leading white-space run: the result is the suffix that starts at
      the first non-white-space character. */
  function TrimStart(s: string): (r: string)
    ensures |r| <= |s| && r == s[|s| - |r|..]
    ensures forall i :: 0 <= i < |s| - |r| ==> IsWhitespace(s[i])
    ensures |r| > 0 ==> !IsWhitespace(r[0])
  {
    if |s| > 0 && IsWhitespace(s[0]) then TrimStart(s[1..]) else s
  }

  /** Drops the trailing white-space run. */
  function TrimEnd(s: string): (r: string)
    ensures |r| <= |s| && r == s[..|r|]
    ensures forall i :: |r| <= i < |s| ==> IsWhitespace(s[i])
    ensures |r| > 0 ==> !IsWhitespace(r[|r| - 1])
  {
    if |s| > 0 && IsWhitespace(s[|s| - 1]) then TrimEnd(s[..|s| - 1]) else s
  }

  /** `String.prototype.trim`. */
  function Trim(s: string): (r: string)
    ensures Trimmed(r)
    ensures |r| <= |s|
  {
    TrimEnd(TrimStart(s))
  }

  lemma TrimOfTrimmed(s: string)
    requires Trimmed(s)
    ensures Trim(s) == s
  {
  }

  /** A string of white space trims to nothing. */
  lemma TrimOfBlank(s: string)
    requires forall i :: 0 <= i < |s| ==> IsWhitespace(s[i])
    ensures Trim(s) == ""
  {
  }

  /** Lower-casing neither adds nor removes white space, so a trimmed string stays trimmed. */
  lemma LowerKeepsTrimmed(s: string)
    requires Trimmed(s)
    ensures Trimmed(Lower(s))
  {
  }

  /** Trimming only drops characters, so it adds no upper-case letter. */
  lemma TrimKeepsNoUpper(s: string)
    requires NoUpper(s)
    ensures NoUpper(Trim(s))
  {
    var t := TrimStart(s);
    assert forall i :: 0 <= i < |t| ==> t[i] == s[|s| - |t| + i];
    var r := TrimEnd(t);
    assert forall i :: 0 <= i < |r| ==> r[i] == t[i];
  }

  lemma LowerOfNoUpper(s: string)
    requires NoUpper(s)
    ensures Lower(s) == s
  {
  }

  function StartsWith(s: string, prefix: string): bool {
    |prefix| <= |s| && s[..|prefix|] == prefix
  }

  // ---------------------------------------------------------------------
  // Collapsing white-space runs: `replace(/\s+/g, ' ')`
  // ---------------------------------------------------------------------

  /** Every maximal white-space run is replaced by one ASCII space. */
  function CollapseWhitespace(s: string): (r: string)
    decreases |s|
  {
    if |s| == 0 then ""
    else if IsWhitespace(s[0]) then " " + CollapseWhitespace(TrimStart(s))
    else [s[0]] + CollapseWhitespace(s[1..])
  }

  /** The shape `replace(/\s+/g, ' ')` leaves behind: the only white space is
      the ASCII space, and no two white-space characters are adjacent. */
  predicate Collapsed(s: string) {
    && (forall i :: 0 <= i < |s| && IsWhitespace(s[i]) ==> s[i] == ' ')
    && (forall i :: 0 <= i < |s| - 1 ==> !(IsWhitespace(s[i]) && IsWhitespace(s[i + 1])))
  }

  lemma {:induction false} CollapseFirst(s: string)
    requires |s| > 0
    ensures |CollapseWhitespace(s)| > 0
    ensures CollapseWhitespace(s)[0] == if IsWhitespace(s[0]) then ' ' else s[0]
  {
  }

  lemma {:induction false} CollapseLast(s: string)
    requires |s| > 0
    ensures |CollapseWhitespace(s)| > 0
    ensures IsWhitespace(CollapseWhitespace(s)[|CollapseWhitespace(s)| - 1]) <==> IsWhitespace(s[|s| - 1])
    decreases |s|
  {
    if IsWhitespace(s[0]) {
      var t := TrimStart(s);
      assert CollapseWhitespace(s) == " " + CollapseWhitespace(t);
      if |t| > 0 {
        CollapseLast(t);
        assert t[|t| - 1] == s[|s| - 1];
        LastOfAppend(" ", CollapseWhitespace(t));
      } else {
        assert IsWhitespace(s[|s| - 1]);
      }
    } else {
      assert CollapseWhitespace(s) == [s[0]] + CollapseWhitespace(s[1..]);
      if |s| > 1 {
        CollapseLast(s[1..]);
        assert s[1..][|s| - 2] == s[|s| - 1];
        LastOfAppend([s[0]], CollapseWhitespace(s[1..]));
      }
    }
  }

  lemma LastOfAppend<T>(a: seq<T>, b: seq<T>)
    requires |b| > 0
    ensures (a + b)[|a + b| - 1] == b[|b| - 1]
  {
  }

  /** Every character of the result is a character of the input or a space. */
  lemma {:induction false} CollapseChars(s: string)
    ensures forall i :: 0 <= i < |CollapseWhitespace(s)| ==> CollapseWhitespace(s)[i] == ' ' || CollapseWhitespace(s)[i] in s
    decreases |s|
  {
    if |s| > 0 {
      if IsWhitespace(s[0]) {
        var t := TrimStart(s);
        CollapseChars(t);
        forall c | c in t ensures c in s {
          var k :| 0 <= k < |t| && t[k] == c;
          assert s[|s| - |t| + k] == c;
        }
      } else {
        CollapseChars(s[1..]);
      }
    }
  }

  lemma {:induction false} CollapseIsCollapsed(s: string)
    ensures Collapsed(CollapseWhitespace(s))
    decreases |s|
  {
    var r := CollapseWhitespace(s);
    if |s| > 0 {
      if IsWhitespace(s[0]) {
        var t := TrimStart(s);
        CollapseIsCollapsed(t);
        if |t| > 0 {
          CollapseFirst(t);
        }
        assert r == " " + CollapseWhitespace(t);
      } else {
        CollapseIsCollapsed(s[1..]);
        if |s| > 1 {
          CollapseFirst(s[1..]);
        }
        assert r == [s[0]] + CollapseWhitespace(s[1..]);
      }
    }
  }

  /** A string already in collapsed form is left alone. */
  lemma {:induction false} CollapseOfCollapsed(s: string)
    requires Collapsed(s)
    ensures CollapseWhitespace(s) == s
    decreases |s|
  {
    if |s| > 0 {
      assert Collapsed(s[1..]) by {
        assert forall i :: 0 <= i < |s[1..]| ==> s[1..][i] == s[i + 1];
      }
      CollapseOfCollapsed(s[1..]);
      if IsWhitespace(s[0]) {
        assert s[0] == ' ';
        SingleSpaceTrim(s);
        assert CollapseWhitespace(s) == " " + s[1..];
      } else {
        assert CollapseWhitespace(s) == [s[0]] + s[1..];
      }
    }
  }

  /** A single leading white-space character is all `TrimStart` drops when the
      next character is not white space. */
  lemma SingleSpaceTrim(s: string)
    requires |s| > 0 && IsWhitespace(s[0])
    requires |s| > 1 ==> !IsWhitespace(s[1])
    ensures TrimStart(s) == s[1..]
  {
  }

  // ---------------------------------------------------------------------
  // Words: `trim().split(/\s+/).filter(Boolean)` and `join(' ')`
  // ---------------------------------------------------------------------

  predicate IsWord(w: string) {
    |w| > 0 && forall j :: 0 <= j < |w| ==> !IsWhitespace(w[j])
  }

  /** The longest prefix free of white space. */
  function TakeWord(s: string): (w: string)
    ensures |w| <= |s| && w == s[..|w|]
    ensures forall j :: 0 <= j < |w| ==> !IsWhitespace(w[j])
    ensures |w| < |s| ==> IsWhitespace(s[|w|])
  {
    if |s| > 0 && !IsWhitespace(s[0]) then [s[0]] + TakeWord(s[1..]) else ""
  }

  /** The maximal white-space-free runs of `s`, in order. */
  function Words(s: string): (ws: seq<string>)
    ensures forall i :: 0 <= i < |ws| ==> IsWord(ws[i])
    decreases |s|
  {
    var t := TrimStart(s);
    if |t| == 0 then []
    else
      var w := TakeWord(t);
      [w] + Words(t[|w|..])
  }

  /** `words.join(' ')`. */
  function JoinWords(ws: seq<string>): string {
    if |ws| == 0 then ""
    else if |ws| == 1 then ws[0]
    else ws[0] + " " + JoinWords(ws[1..])
  }

  lemma {:induction false} TrimStartOfWordStart(w: string, rest: string)
    requires IsWord(w)
    ensures TrimStart(w + rest) == w + rest
  {
  }

  lemma {:induction false} TakeWordOfJoin(w: string, rest: string)
    requires IsWord(w)
    requires |rest| == 0 || IsWhitespace(rest[0])
    ensures TakeWord(w + rest) == w
    decreases |w|
  {
    if |w| > 1 {
      assert (w + rest)[1..] == w[1..] + rest;
      TakeWordOfJoin(w[1..], rest);
    } else {
      assert (w + rest)[1..] == rest;
    }
  }

  lemma {:induction false} WordsCons(w: string, rest: string)
    requires IsWord(w)
    requires |rest| == 0 || IsWhitespace(rest[0])
    ensures Words(w + rest) == [w] + Words(rest)
  {
    var t := w + rest;
    TrimStartOfWordStart(w, rest);
    TakeWordOfJoin(w, rest);
    assert t[|w|..] == rest;
  }

  lemma WordsOfSpacePrefix(x: string)
    ensures Words(" " + x) == Words(x)
  {
    assert (" " + x)[1..] == x;
    assert TrimStart(" " + x) == TrimStart(x);
  }

  /** Splitting a joined list of words gives the words back: a note already in
      the stored form is left unchanged by another pass through the handler. */
  lemma {:induction false} WordsOfJoin(ws: seq<string>)
    requires forall i :: 0 <= i < |ws| ==> IsWord(ws[i])
    ensures Words(JoinWords(ws)) == ws
    decreases |ws|
  {
    if |ws| == 0 {
    } else if |ws| == 1 {
      WordsCons(ws[0], "");
      assert ws[0] + "" == ws[0];
    } else {
      var rest := JoinWords(ws[1..]);
      assert JoinWords(ws) == ws[0] + (" " + rest);
      WordsCons(ws[0], " " + rest);
      WordsOfSpacePrefix(rest);
      WordsOfJoin(ws[1..]);
    }
  }

  /** A joined list of words starts with the first word's first character and
      ends with the last word's last character, so it is trimmed. */
  lemma {:induction false} JoinWordsTrimmed(ws: seq<string>)
    requires forall i :: 0 <= i < |ws| ==> IsWord(ws[i])
    ensures |ws| > 0 ==> |ws[0]| > 0 && |JoinWords(ws)| > 0 && JoinWords(ws)[0] == ws[0][0]
    ensures |ws| > 0 ==> |ws[|ws| - 1]| > 0 && |JoinWords(ws)| > 0 && JoinWords(ws)[|JoinWords(ws)| - 1] == ws[|ws| - 1][|ws[|ws| - 1]| - 1]
    ensures Trimmed(JoinWords(ws))
    decreases |ws|
  {
    if |ws| > 1 {
      JoinWordsTrimmed(ws[1..]);
      assert ws[1..][|ws[1..]| - 1] == ws[|ws| - 1];
    }
  }
}

=== FILE: updates.dfy ===
/** The `$set` documents the profile upserts build from a request body: only
    whitelisted fields, and only those the body actually has
    (`Object.prototype.hasOwnProperty`). */
module Updates {
  import opened Json
  import Text

  /** One path of a `$set` document. `Undefined` is a path assigned the value
      `undefined`; `SetNumber` carries a parsed floating-point number. */
  datatype Write = Set(v: JsonValue) | SetNumber(x: real) | Undefined

  type Update = map<string, Write>

  /** Adds, or overrides, the path `key`; every other path is kept. */
  function Put(u: Update, key: string, w: Write): (r: Update)
    ensures key in r && r[key] == w
    ensures forall k :: k != key ==> (k in r <==> k in u)
    ensures forall k :: k != key && k in u ==> r[k] == u[k]
  {
    u[key := w]
  }

  /** Copies each field of `fields` that `body` has, under its own name. */
  function CopyPresent(body: map<string, JsonValue>, fields: set<string>): (u: Update)
    ensures forall f :: f in fields ==> (f in u <==> f in body)
    ensures forall k :: k in u ==> k in fields && k in body && u[k] == Set(body[k])
  {
    map k | k in fields && k in body :: Set(body[k])
  }

  /** Copies each field of `fields` that `body` has, under the path `prefix + field`. */
  function CopyPrefixed(body: map<string, JsonValue>, fields: set<string>, prefix: string): (u: Update)
    ensures forall f :: f in fields ==> (prefix + f in u <==> f in body)
    ensures forall f :: f in fields && f in body ==> u[prefix + f] == Set(body[f])
    ensures forall k :: k in u ==>
              && Text.StartsWith(k, prefix)
              && k[|prefix|..] in fields
              && k[|prefix|..] in body
              && u[k] == Set(body[k[|prefix|..]])
  {
    assert forall f, g :: prefix + f == prefix + g ==> f == g by {
      forall f, g | prefix + f == prefix + g ensures f == g {
        assert (prefix + f)[|prefix|..] == f && (prefix + g)[|prefix|..] == g;
      }
    }
    var u := map f | f in fields && f in body :: prefix + f := Set(body[f]);
    forall k | k in u
      ensures Text.StartsWith(k, prefix) && k[|prefix|..] in fields && k[|prefix|..] in body && u[k] == Set(body[k[|prefix|..]])
    {
      var f :| f in fields && f in body && k == prefix + f;
      assert k[..|prefix|] == prefix && k[|prefix|..] == f;
    }
    u
  }

  /** `x.filter(Boolean)` when `x` is an array, `[]` otherwise, written as an array. */
  function TruthyArray(v: JsonValue): (w: Write)
    ensures w.Set? && w.v.JArray?
    ensures forall i :: 0 <= i < |w.v.items| ==> Truthy(w.v.items[i])
    ensures !v.JArray? ==> w.v.items == []
  {
    Set(JArray(TruthyItems(v)))
  }
}

=== FILE: users.dfy ===
/** User accounts: the fields the modelled operations read or write, and the
    two ways a user is found (by id, by e-mail address). */
module Users {
  import opened Wrappers
  import opened Dates
  import opened Profiles
  import Text
  import Collection

  /** The roles the schema accepts. */
  const Roles: set<string> := {"player", "coach", "admin"}

  lemma RolesAreNamed()
    ensures forall r :: r in Roles ==> |r| > 0
  {
  }

  /** A stored account. `subscriptionStatus` is one of `none`, `active`,
      `past_due`, `canceled` when written by the application; the payment
      provider's status strings are written through unchecked.
      `passwordChangedAt` is read by the authentication middleware but the
      schema does not declare it, so nothing the application does sets it.
      `createdAt` and `updatedAt` are the schema's timestamps: both are set
      when the account is created, and every later save or update through
      the model sets `updatedAt` to the time of the write. */
  datatype User = User(
    id: UserId,
    email: string,
    passwordHash: string,
    role: string,
    subscriptionStatus: string,
    stripeCustomerId: Option<string>,
    stripeSubscriptionId: Option<string>,
    subscriptionCurrentPeriodEnd: Option<int>,
    subscriptionPriceId: Option<string>,
    passwordChangedAt: Option<int>,
    createdAt: Millis,
    updatedAt: Millis)

  /** A new account, with the schema defaults. */
  function NewUser(id: UserId, email: string, passwordHash: string, role: string, now: Millis): (u: User)
    ensures u.id == id && u.email == email && u.passwordHash == passwordHash && u.role == role
    ensures u.subscriptionStatus == "none" && u.createdAt == now && u.updatedAt == now
    ensures u.stripeCustomerId.None? && u.stripeSubscriptionId.None? && u.passwordChangedAt.None?
  {
    User(id, email, passwordHash, role, "none", None, None, None, None, None, now, now)
  }

  /** The stored form of an address, and the form a query compares with: the
      schema's `lowercase` and `trim` setters apply to both. */
  function EmailKey(s: string): (k: string)
    ensures Text.Trimmed(k) && Text.NoUpper(k)
    ensures |k| <= |s|
  {
    Text.TrimKeepsNoUpper(Text.Lower(s));
    Text.Trim(Text.Lower(s))
  }

  /** `User.findOne({ email })`. */
  function FindByEmail(users: seq<User>, email: string): (r: Option<nat>)
    ensures r.Some? ==> r.value < |users| && users[r.value].email == EmailKey(email)
    ensures r.None? <==> forall j :: 0 <= j < |users| ==> users[j].email != EmailKey(email)
  {
    Collection.FindFirst(users, (u: User) => u.email == EmailKey(email))
  }

  /** `User.findById(id)`. */
  function FindUser(users: seq<User>, id: UserId): (r: Option<nat>)
    ensures r.Some? ==> r.value < |users| && users[r.value].id == id
    ensures r.None? <==> forall j :: 0 <= j < |users| ==> users[j].id != id
  {
    Collection.FindFirst(users, (u: User) => u.id == id)
  }

  /** The unique index on `email`. */
  predicate UniqueEmails(users: seq<User>) {
    forall i, j :: 0 <= i < j < |users| ==> users[i].email != users[j].email
  }

  /** An address the key function leaves unchanged is its own key. */
  lemma EmailKeyIdempotent(s: string)
    ensures EmailKey(EmailKey(s)) == EmailKey(s)
  {
    var k := EmailKey(s);
    Text.LowerOfNoUpper(k);
    Text.TrimOfTrimmed(k);
  }
}

=== FILE: wrappers.dfy ===
/** Failure-compatible wrappers shared by every module of the model. */
module Wrappers {

  /** A value that may be absent: JavaScript `undefined`, or a document field that was never set. */
  datatype Option<+T> = None | Some(value: T) {

    function GetOr(default: T): T {
      match this
      case Some(v) => v
      case None => default
    }
  }

  /** The outcome of a request handler: the new state, or the error response it sends. */
  datatype Result<+T, +E> = Ok(value: T) | Err(error: E) {

    predicate IsFailure() {
      Err?
    }

    function PropagateFailure<U>(): Result<U, E>
      requires Err?
    {
      Err(error)
    }

    function Extract(): T
      requires Ok?
    {
      value
    }
  }
}
